=== FILE: README.md ===
# JsonObjects in Dafny

A functional model of the `jDocument` class of JsonObjects
(`JsonObjects/jdocument.py`) and of the row/column flattening inside
`dict2table` (`JsonObjects/json2table.py`), with proofs of what these
operations promise.

A `jDocument` wraps a JSON object or list. Its operations are modelled as
pure functions on an immutable `Json.Value`. Objects are kept as sequences of
members in insertion order, as Python dicts are.

- **Reading.** `value`/`get` resolve dotted paths with `name[i]`,
  `name[attr=literal]` and `Array[...]` subscripts. On a list document they
  broadcast a plain path over the items.
- **Writing.** `set` creates missing intermediate objects.
- **Deleting.** `removeAttrib` deletes attributes and counts the deletions.
- **Collection edits.** `addDoc`, `removeDocs` and `removeOneDoc` edit a list
  document.
- **Simple filter.** `findDocs`/`findOneDoc` AND together every
  `attribute: rule` pair, optionally with the `IN:`/`NIN:`/`CT:`/`NCT:`/`RE:`
  macros.
- **Structured filter.** `searchDocs`/`testDoc` evaluate an OR of ANDs of
  `attribute operator value` conditions.
- **Sorting.** `sortDocs` performs stable multi-key sorts with the key
  `(not v, v)`.
- **Aggregation.** `count`, `sum`, `min`, `max` and `ocorrences` reduce the
  truthy values of one attribute.

A mutating method becomes a function returning an `Outcome(doc, result)`.
`doc` is the document after the call: when Python raises halfway, the changes
already made are kept. `result` is either the method's return value or the
exception it raises, as an `Error`.

Python's own semantics are written out in `PyValues` and `Documents`:
- truthiness;
- `==` between booleans and integers, and between dicts regardless of key order;
- ordering, which raises `TypeError` on mixed types;
- `repr`;
- `in`;
- the difference between a raw value and a value that `get` hands back wrapped
  as a `jDocument`.

`dict2table` is modelled as a sequence of named columns. Each object is
flattened to `path: leaf` pairs and each pair is added to its column with a
back-fill of `None`s. The model also covers the optional prefix stripping and
the final `None` padding.

Two operations come from outside the modelled code. They enter as the
parameters of a `Host`:
- the regular-expression search behind `RE:` and `RegExp`;
- the JSON text `getJson` produces for the `all` search.

Two sort lemmas (`StableSort.SortStable`, `StableSort.SortTwice`) underlie
every multi-key result. Both are proved for any key and any strict weak order.

## Model

| member | source | states |
|---|---|---|
| Documents.Wrap | JsonObjects/jdocument.py:586-601 | `get` returns the value `value` found, either raw or wrapped: unwrapping always gives that value back |
| Documents.WrapShape | JsonObjects/jdocument.py:588-597 | a result is wrapped exactly when it is a dict or a list whose first item is a dict; an empty list is wrapped only when `flagReturnEmptyListAsDoc` is set |
| Documents.AsDocument | JsonObjects/jdocument.py:125-160 | `jDocument(x)` accepts exactly dicts, lists and `None`; it keeps a dict or list as it is and turns `None` into `{}` |
| Documents.Len | JsonObjects/jdocument.py:196-200 | `len` is the item count of a list document and 0 for an object document |
| Documents.Bool | JsonObjects/jdocument.py:167-168 | a document is true exactly when it is a non-empty object or list |
| Documents.LenBool | JsonObjects/jdocument.py:167-200 | for a list, `bool` agrees with `len > 0`; an object has length 0 yet is true as soon as it has a key |
| Documents.FCmp | JsonObjects/jdocument.py:120-224 | ordering a `jDocument` against anything raises `TypeError`; raw values compare as Python values |
| Documents.PyIn | JsonObjects/jdocument.py:219-220 | `x in c` per container kind: substring for text, `==` membership for lists, keys for dicts and object documents; a list document raises |
| Resolver.Sub | JsonObjects/jdocument.py:519 | `x[k]` gives the stored value for a present key of a dict, `KeyError` for an absent one and `TypeError` for anything that is not a dict |
| Resolver.Index | JsonObjects/jdocument.py:509-510 | `x[i]` on a list counts negative indexes from the end and raises `IndexError` out of range; a dict raises `KeyError` |
| Resolver.ValueOf | JsonObjects/jdocument.py:435-531 | the data `value` returns (a `jDocument` that `findOneDoc` returns stands for its data): an empty attribute returns the whole document; with `flagRaiseError` off, a read on an object or through `Array` never raises, and with it such a read raises only the plain `Exception` that names the error caught; a read with the default `None` never yields more than the document holds |
| Resolver.Direct | JsonObjects/jdocument.py:478-489 | a plain name on an object gives its value; an absent name, or any name on a list, gives the default, or with the flag the plain `Exception` that `value` raises in place of the `KeyError`/`TypeError` it caught |
| Resolver.ValueFetched | JsonObjects/jdocument.py:435-531 | `value` itself: it succeeds exactly when Resolver.ValueOf does and holds the same data; a subscripted name on a list document returns the `jDocument` that `findOneDoc` found, or `None`, and every other read returns raw data |
| Resolver.ArraySubscript | JsonObjects/jdocument.py:445-465 | a subscripted name on a list document: a document comes back exactly when `findOneDoc` found an item, and what comes back is no larger than the list |
| Resolver.Get | JsonObjects/jdocument.py:568-601 | `get` succeeds exactly when `value` does and holds the same data; a raw result is wrapped by the wrapping rule, and a `jDocument` from a subscripted name on a list comes back as it is |
| Resolver.Broadcast | JsonObjects/jdocument.py:470 | a broadcast read yields one value per item of the list |
| Resolver.Step | JsonObjects/jdocument.py:497-521 | a token without a subscript is the dict subscript `dic[tk]` |
| Resolver.FindOne | JsonObjects/jdocument.py:888-909 | `findOneDoc` raises on an object document; a document it finds is strictly smaller than the list |
| Resolver.FindDocs | JsonObjects/jdocument.py:1007-1027 | `findDocs` raises on an object document; a result it returns is non-empty and lists only items of the document |
| Resolver.Scan | JsonObjects/jdocument.py:946-985 | the `filter` over the items keeps at most the items there are, and only those items |
| Resolver.ReadAttr | JsonObjects/jdocument.py:953-962 | a dot-free attribute is `dict.get(at, None)`; any other item raises `AttributeError` |
| Resolver.Conditions | JsonObjects/jdocument.py:953-954 | the flattened conditions contain exactly the pairs of all filter groups |
| Resolver.MatchDoc | JsonObjects/jdocument.py:953-985 | a document with no conditions passes |
| Macros.TestAttrib | JsonObjects/jdocument.py:912-944 | a rule of length at most 4, or one with no `:` at positions 2 and 3, compares by `==`; for a text value, `IN:x` holds iff the value is a substring of `x` and `NIN:` negates it; `CT:x` holds iff `x` is a substring of the value and `NCT:` negates it; `RE:` asks the regex engine; an unknown prefix compares by `==`; a non-text value raises |
| Macros.ContainsOnDocuments | JsonObjects/jdocument.py:931-933 | `CT:` on an object value tests for a key; on a list value it raises |
| Macros.MacroComplements | JsonObjects/jdocument.py:923-937 | on text, `NIN:` is exactly the negation of `IN:`, and `NCT:` exactly the negation of `CT:` |
| Macros.ShortRuleIsLiteral | JsonObjects/jdocument.py:914-915 | a four-character rule such as `IN:a` is compared literally and is not a macro |
| PathFacts.WalkPlain | JsonObjects/jdocument.py:496-521 | a walk over subscript-free tokens succeeds iff the nested lookup exists, and returns it |
| PathFacts.ValueOfPlainPath | JsonObjects/jdocument.py:478-529 | `value('a.b.c')` is the nested value when every key is present; otherwise it is the default, or with the flag the plain `Exception` `value` raises for the error it caught |
| PathFacts.IndexSubscript | JsonObjects/jdocument.py:504-527 | `value('k[i]')` is Python indexing of the list under `k`, with negative indexes from the end; a missing key or an index out of range gives the default, or with the flag the plain `Exception` naming `KeyError` or `IndexError` |
| PathFacts.FirstWith | JsonObjects/jdocument.py:512-516 | reference selection: the first object whose attribute equals the given text, or none when no object has it |
| PathFacts.ConditionSubscript | JsonObjects/jdocument.py:512-529 | `value('k[a=b]')` on a list of objects is the first item whose `a` equals the text `b`; when there is none, or `k` is absent, it is the default, or with the flag the plain `Exception` naming `AttributeError` (`None.value()`) or `KeyError` |
| PathFacts.FindOneFirst | JsonObjects/jdocument.py:888-909 | `findOneDoc({a: b})` on objects agrees with the reference selection |
| PathFacts.ScanFirstWith | JsonObjects/jdocument.py:946-985 | a one-condition scan is empty iff the reference selection finds nothing, and otherwise starts with that selection |
| PathFacts.ListCondition | JsonObjects/jdocument.py:445-465 | `value('[a=b]')` on a list of objects cuts the whole name at `=`, so it looks for the key `[a` holding the text `b]`; a match comes back as a `jDocument`, no match as `None` |
| PathFacts.NumbersNeverMatchText | JsonObjects/jdocument.py:513-516 | the subscript compares with text, so `k[a=3]` never finds an item whose `a` is the integer 3 |
| PathFacts.BroadcastObjects | JsonObjects/jdocument.py:442-470 | on a list of objects a plain path gives a list as long as the document, item `i` being the item's own `value` with the error flag off |
| FilterFacts.ScanQty | JsonObjects/jdocument.py:947-982 | a `qty` of 0 or more gives the same matches as no `qty` at all; a negative one rejects every item |
| FilterFacts.MatchDocAnd | JsonObjects/jdocument.py:953-979 | a document passes all filter groups iff it passes every condition on its own: groups are ANDed, not ORed |
| FilterFacts.ScanSpec | JsonObjects/jdocument.py:1018 | the matches form an order-preserving subsequence; each passes every condition, every passing item is in it, and nothing raises unless some item's test raises |
| FilterFacts.FindDocsAll | JsonObjects/jdocument.py:987-1027 | `findDocs` with `qty` absent or not negative lists, in order, exactly the items meeting every condition of every group; an empty result is `None` |
| FilterFacts.FindDocsNegative | JsonObjects/jdocument.py:947-950 | a negative `qty` makes `findDocs` return `None` |
| FilterFacts.ScanFirst | JsonObjects/jdocument.py:1018 | the first match is the first passing item; every earlier item failed |
| FilterFacts.FindOneFirst | JsonObjects/jdocument.py:903-909 | `findOneDoc` returns the first passing item in list order, and every earlier item fails; it answers `None` only when no item passes |
| FilterFacts.FindOneNone | JsonObjects/jdocument.py:903-909 | when some item meets every condition, `findOneDoc` does not answer `None` |
| FilterFacts.NestedValuesCompareAsText | JsonObjects/jdocument.py:965-967 | dict and list attributes are compared through their `str()`: the text matches, the structure itself does not |
| Writer.SubAttribute | JsonObjects/jdocument.py:629-630 | the nested name is shorter than the dotted name; cut at the first dot, the first segment plus `.` plus the nested name rebuild the dotted name |
| Writer.SetOne | JsonObjects/jdocument.py:623-644 | a plain name stores the unwrapped value; a dotted name changes only its first segment's key |
| Writer.SetWith | JsonObjects/jdocument.py:615-661 | on an object, an empty map returns `None` and changes nothing, and a successful call returns the last value (a dict wrapped); on a non-empty list it raises and leaves the list unchanged |
| Writer.Returned | JsonObjects/jdocument.py:649-652 | the returned value is the last value given, wrapped exactly when it is a dict or a document |
| Writer.Nest | JsonObjects/jdocument.py:628-637 | the nested objects built for a path hold the value at that path |
| Writer.CleanPath | JsonObjects/jdocument.py:629-630 | a path on which `replace` deletes only the leading `first.` of each nested name |
| Writer.CutAgrees | JsonObjects/jdocument.py:629-630 | when the first segment and its dot do not occur again after the first dot, the library's cut and the first-dot cut give the same nested name |
| Writer.PathCutAsWritten | JsonObjects/jdocument.py:629-630 | on a clean path, the library's cut of `k1.k2...kn` is `k2...kn`, and the rest of the path is clean |
| Writer.SetOnePath | JsonObjects/jdocument.py:628-637 | after a dotted assignment that succeeds, reading the path back gives the assigned value; the library's cut does this on clean paths |
| Writer.SetThenValue | JsonObjects/jdocument.py:603-662 | `set({path: v})` followed by `value(path)` gives `v` back, with the library's cut on clean paths |
| Writer.SetBuildsPath | JsonObjects/jdocument.py:632-637 | a first segment that is absent or falsy is replaced, in place, by the nested objects the path needs; with the library's cut, on clean paths |
| Writer.SetBlocked | JsonObjects/jdocument.py:632-637 | a first segment holding a truthy non-dict raises `AttributeError` and changes nothing |
| Writer.SetAllPlain | JsonObjects/jdocument.py:623-644 | distinct plain names each hold their value afterwards, every other key is untouched, and nothing raises |
| Writer.SetAsWrittenMisplaces | JsonObjects/jdocument.py:630 | as written, `set({'a.ba.c': v})` on `{}` stores `{'a': {'bc': v}}` |
| Writer.SetNestsAtFirstDot | JsonObjects/jdocument.py:628-637 | cutting at the first dot stores `{'a': {'ba': {'c': v}}}`, which `value('a.ba.c')` reads back |
| Writer.SetPathFresh | JsonObjects/jdocument.py:628-637 | on `{}`, a dotted name builds exactly its path, and reading the name back gives the value; with the library's cut, on clean paths |
| Remover.RemoveAttrib | JsonObjects/jdocument.py:706-745 | on an object, an empty name removes nothing, and a plain name is deleted with count 1 when present, 0 otherwise; an object stays an object |
| Remover.RemoveEach | JsonObjects/jdocument.py:738-745 | the per-item loop over a list keeps the list's length |
| Remover.RemoveItem | JsonObjects/jdocument.py:740-742 | a dict or list item is changed in place; any other item is left as it is |
| Remover.RemoveAttribs | JsonObjects/jdocument.py:697-703 | an empty `attribs` list behaves as no name at all |
| Remover.RemovePlain | JsonObjects/jdocument.py:724-734 | the count is 1 iff the name was present and 0 iff it was not; the name is gone afterwards and every other key keeps its value |
| Remover.RemoveTwice | JsonObjects/jdocument.py:724-734 | a second removal of the same name removes nothing and changes nothing |
| Remover.RemoveFromObjects | JsonObjects/jdocument.py:738-745 | on a list of objects the name is deleted from every item; the count is how many items held it |
| Remover.RemoveNested | JsonObjects/jdocument.py:712-722 | `removeAttrib('k1...kn.last')` deletes `last` from the object the path reaches, counts 1 iff it was there, and leaves keys other than `k1` untouched |
| Remover.RemoveSeveralPlain | JsonObjects/jdocument.py:698-703 | with `attribs`, every name is gone afterwards, the count is how many were present, and other keys keep their values |
| Collection.AddDoc | JsonObjects/jdocument.py:747-782 | `addDoc` succeeds exactly on a list document given a dict or a list; a dict is appended and a list spliced in; the added item comes back as a document; errors change nothing |
| Collection.RemoveAt | JsonObjects/jdocument.py:842-850 | removing by index drops exactly the item at that position, with negative indexes counted from the end; a bad index raises `IndexError` and an object document raises |
| Collection.ClearAll | JsonObjects/jdocument.py:874-883 | a call without arguments empties the list and returns its old length |
| Collection.RemoveFirst | JsonObjects/jdocument.py:868 | `list.remove` drops one item and raises `ValueError` only when no item equals the argument |
| Collection.RemoveListed | JsonObjects/jdocument.py:866-868 | the removal loop removes as many items as it iterates, unless `list.remove` raises |
| Collection.RemoveMatching | JsonObjects/jdocument.py:854-871 | removing by filter raises on an object document, passes on `findDocs`' exception, and otherwise removes exactly as many items as it reports |
| Collection.UpdateAt | JsonObjects/jdocument.py:823-836 | writing into the list a path reaches puts the new list at that path; a path that leads nowhere changes nothing |
| Collection.RemoveDocsWith | JsonObjects/jdocument.py:800-886 | without `array`, an index means removing by index, a filter means removing the matches, and neither means clearing |
| Collection.RemoveOneDocRemovesAll | JsonObjects/jdocument.py:784-798 | `removeOneDoc(f)` is `removeDocs(filters=f)` with no limit: it removes every match, not one |
| Collection.AddThenRemoveLast | JsonObjects/jdocument.py:747-850 | `addDoc(x)` followed by `removeDocs(index=-1)` restores the list and reports 1 |
| Collection.ClearThenFind | JsonObjects/jdocument.py:874-883 | after clearing, the count is the old length and no search finds anything |
| Collection.NamedListDelegates | JsonObjects/jdocument.py:818-830 | `removeDocs(array=name, ...)` with filters or an index does to the named list what the same call does to that list as a document; as written, this holds for every index but 0 |
| Collection.AsWrittenAgrees | JsonObjects/jdocument.py:818-842 | the library's `elif index:` and the `is not None` test remove the same items unless the index is 0 and no filter is given |
| Collection.NamedListCleared | JsonObjects/jdocument.py:832-836 | a named list is emptied and its old length returned; a name that leads to no list raises `TypeError`; both index tests agree |
| Collection.IndexZeroAsWritten | JsonObjects/jdocument.py:826 | as written, `removeDocs(array=k, index=0)` empties the whole list and returns its length |
| Collection.IndexZeroCorrected | JsonObjects/jdocument.py:842 | tested against `None`, index 0 on a named list removes only the first item |
| CollectionFacts.Without | JsonObjects/jdocument.py:866-868 | reference definition: the items of the list that are not among the removed ones |
| CollectionFacts.Unmatched | JsonObjects/jdocument.py:854-871 | reference definition: the items of the list that do not pass the filter |
| CollectionFacts.RemoveListedKeeps | JsonObjects/jdocument.py:866-868 | the loop invariant of the removal: whatever the order of removal, the list ends without exactly the listed matches |
| CollectionFacts.MatchingRemoved | JsonObjects/jdocument.py:854-871 | removing by filter leaves exactly the unmatched items, in order, and reports how many went |
| CollectionFacts.RemoveDocsThenFind | JsonObjects/jdocument.py:854-871 | `removeDocs(filters=f)` keeps exactly the items failing `f`, in order, and counts the removed ones; `findDocs(f)` afterwards finds nothing |
| Search.Not | JsonObjects/jdocument.py:1321-1328 | the negated operators flip a defined result and pass an exception through |
| Search.Compare | JsonObjects/jdocument.py:1287-1302 | `eq`/`dif` with a falsy value test whether the attribute is `None`; with a truthy value they are `==`/`!=`; every other operator is false when either side is falsy |
| Search.Keep | JsonObjects/jdocument.py:1231 | the filter keeps at most the items there are |
| Search.SearchDocs | JsonObjects/jdocument.py:1220-1237 | on an object document `searchDocs` returns either nothing or a list holding the document itself as a `jDocument`; on a list it returns raw items of the list, and an empty filter list keeps nothing |
| SearchFacts.AndValue | JsonObjects/jdocument.py:1256-1341 | with every condition defined, an AND group is true iff all its conditions are |
| SearchFacts.OrValue | JsonObjects/jdocument.py:1251-1345 | with every condition defined, the OR walk is true iff some group holds, or the start flag survives an empty first group |
| SearchFacts.TestDocSpec | JsonObjects/jdocument.py:1240-1348 | `testDoc` decides the OR of ANDs whenever no condition raises |
| SearchFacts.AndStopsAtFalse | JsonObjects/jdocument.py:1339-1341 | after the first false condition nothing is evaluated: a later condition that would raise does not |
| SearchFacts.AndRaises | JsonObjects/jdocument.py:1254-1341 | the first condition that raises ends the whole test with its error |
| SearchFacts.OrStopsAtTrue | JsonObjects/jdocument.py:1344-1345 | once a group holds, later groups are never evaluated |
| SearchFacts.EqFalsyValue | JsonObjects/jdocument.py:1287-1299 | `eq`/`dif` with a falsy value test whether the attribute is missing or `None` |
| SearchFacts.EqIgnoresCase | JsonObjects/jdocument.py:1279-1291 | `eq` on text ignores case |
| SearchFacts.FalsyNeverMatches | JsonObjects/jdocument.py:1301-1302 | every operator other than `eq`/`dif`, even an unknown one, is false when either side is falsy |
| SearchFacts.UnknownOperatorRaises | JsonObjects/jdocument.py:1333-1334 | an unknown operator raises once both sides are truthy |
| SearchFacts.NumbersCompare | JsonObjects/jdocument.py:1306-1316 | the ordering operators compare non-zero numbers by value |
| SearchFacts.RegExpInverted | JsonObjects/jdocument.py:1330-1331 | `RegExp` is true when the pattern does NOT match the text, and false on a non-text attribute |
| SearchFacts.Complements | JsonObjects/jdocument.py:1318-1328 | `nct`/`nin` are the negations of `ct`/`in`, errors included, on `all` and once both sides are truthy |
| SearchFacts.AllSearchesText | JsonObjects/jdocument.py:1263-1271 | `all` with `ct`/`nct` searches the lowered JSON text; any other operator raises, and so does a non-text value |
| SearchFacts.SearchObject | JsonObjects/jdocument.py:1220-1224 | an object document that matches comes back as the list `[jDocument(data)]`; one that does not gives an empty list |
| SearchFacts.KeepSpec | JsonObjects/jdocument.py:1158-1171 | the filter keeps, in order, exactly the items the OR of ANDs matches |
| SearchFacts.SearchList | JsonObjects/jdocument.py:1227-1237 | a list document keeps, in order and as raw items, exactly the items the filter matches |
| SearchFacts.SearchEmptyFilters | JsonObjects/jdocument.py:1159 | with no groups an object document matches, but a list document keeps nothing |
| StableSort.Sort | JsonObjects/jdocument.py:1110 | the sorted list is a permutation of the input |
| StableSort.SortAscending | JsonObjects/jdocument.py:1110 | under a strict weak order on the keys that occur, the sorted list is ascending |
| StableSort.SortStable | JsonObjects/jdocument.py:1110 | items with tying keys keep their relative order |
| StableSort.SortSorted | JsonObjects/jdocument.py:1110 | sorting an ascending list leaves it as it is |
| StableSort.SortDescDescending | JsonObjects/jdocument.py:1116 | `reverse=True` yields a descending list |
| StableSort.SortDescStable | JsonObjects/jdocument.py:1116 | `reverse=True` still keeps items with tying keys in their original order |
| StableSort.SortTwice | JsonObjects/jdocument.py:1114-1116 | a stable pass by `a` after a pass by `b` orders by `a`, then by `b` among `a`-ties |
| Sorting.FirstKeyError | JsonObjects/jdocument.py:1110 | the sort raises the error of the first item whose `e[a]` fails, and none when every key exists |
| Sorting.Pass | JsonObjects/jdocument.py:1110-1116 | one pass permutes the list; it raises the first key error, or `TypeError` when two keys cannot be ordered |
| Sorting.SortDocs | JsonObjects/jdocument.py:1098-1120 | `sortDocs` raises on an object document, always leaves a permutation, returns the sorted document itself, and rejects a specification that is neither text, dict nor list |
| Sorting.SortSeveral | JsonObjects/jdocument.py:1102-1104 | a list of specifications leaves a permutation of the items |
| Sorting.SortOrders | JsonObjects/jdocument.py:1114-1117 | a dict of orders leaves a permutation of the items |
| Sorting.TupleOrder | JsonObjects/jdocument.py:1110 | the key `(not v, v)` puts truthy values before falsy ones and otherwise compares by `v` itself |
| Sorting.UniformPass | JsonObjects/jdocument.py:1110 | numeric keys, or text keys, never raise, and their order is a strict weak order |
| Sorting.SortByNumber | JsonObjects/jdocument.py:1107-1110 | sorting by a numeric attribute puts non-zero values first, each group ascending, and keeps ties in order |
| Sorting.SortByText | JsonObjects/jdocument.py:1107-1110 | sorting by a text attribute puts non-empty strings first, in code-point order, and keeps ties in order |
| Sorting.SortByNumberDescending | JsonObjects/jdocument.py:1114-1116 | `order != 1` reverses the whole key, so zero values come FIRST, then the others descending |
| Sorting.SortByNameIdempotent | JsonObjects/jdocument.py:1107-1110 | sorting a sorted list again changes nothing |
| Sorting.MissingAttributeRaises | JsonObjects/jdocument.py:1110 | an item lacking the attribute makes the sort raise `KeyError` and leaves the list as it was |
| Sorting.MixedTypesRaise | JsonObjects/jdocument.py:1110 | a truthy number and a non-empty string under one attribute make the sort raise `TypeError`; the list still holds the same items |
| Sorting.SeveralLastFirst | JsonObjects/jdocument.py:1102-1104 | a list of specifications applies its LAST one first |
| Sorting.SortByTwoNames | JsonObjects/jdocument.py:1102-1110 | `sortDocs(['a', 'b'])` orders by `a`, and by `b` among equal `a` values |
| Sorting.SortByTwoOrders | JsonObjects/jdocument.py:1114-1116 | `sortDocs({'a': 1, 'b': 1})` orders by `b` last, so `b` is primary and `a` only breaks ties |
| Aggregates.Source | JsonObjects/jdocument.py:1354-1362 | without filters every item of the list is read |
| Aggregates.Picked | JsonObjects/jdocument.py:1368 | the values picked are truthy, at most one per item |
| Aggregates.ValuesOf | JsonObjects/jdocument.py:1350-1370 | an object document raises; every collected value is truthy |
| Aggregates.Count | JsonObjects/jdocument.py:1372-1374 | `count` is the number of collected values |
| Aggregates.Sum | JsonObjects/jdocument.py:1376-1378 | `sum` is `None` exactly on an empty list and raises `TypeError` exactly when a value is not a number |
| Aggregates.Extreme | JsonObjects/jdocument.py:1380-1386 | the reduction returns one of the values it was given |
| Aggregates.Min | JsonObjects/jdocument.py:1380-1382 | `min` is `None` exactly on an empty list, and otherwise one of the values |
| Aggregates.Max | JsonObjects/jdocument.py:1384-1386 | `max` is `None` exactly on an empty list, and otherwise one of the values |
| Aggregates.Ocorrences | JsonObjects/jdocument.py:1416-1418 | `ocorrences` is `None` exactly on an empty list, and never exceeds the number of values |
| Aggregates.PickedAppend | JsonObjects/jdocument.py:1368 | picking distributes over concatenation of the item lists |
| Aggregates.PickedOne | JsonObjects/jdocument.py:1368 | an object item contributes its attribute's value iff that value is truthy |
| Aggregates.SkipsFalsy | JsonObjects/jdocument.py:1368 | an item whose attribute is falsy (0, `''`, `None`, missing) contributes nothing |
| Aggregates.ListItemRaises | JsonObjects/jdocument.py:1368 | a list item among the documents makes the read raise `TypeError` |
| Aggregates.CountAppend | JsonObjects/jdocument.py:1372-1374 | without filters, the count over two lists is the sum of their counts |
| Aggregates.SumAppend | JsonObjects/jdocument.py:1376-1378 | `sum` adds up over concatenation |
| Aggregates.SumRejectsText | JsonObjects/jdocument.py:1378 | a text value anywhere makes `sum` raise `TypeError` |
| Aggregates.MinNumeric | JsonObjects/jdocument.py:1382 | `min` over numbers is the first of the smallest values |
| Aggregates.MaxNumeric | JsonObjects/jdocument.py:1386 | `max` over numbers is the first of the largest values |
| Aggregates.MinMaxDoc | JsonObjects/jdocument.py:1380-1386 | a wrapped document makes `min`/`max` raise when there are two or more values; alone, it is returned |
| Aggregates.OcorrencesAppend | JsonObjects/jdocument.py:1418 | `ocorrences` adds up over concatenation |
| Aggregates.FalsyNeverOccurs | JsonObjects/jdocument.py:1368 | a falsy value is never counted by `ocorrences` |
| Tables.NewKey | JsonObjects/json2table.py:38 | a child key is its parent path followed by `.`, or just the key at the top level |
| Tables.DictOf | JsonObjects/json2table.py:45 | `dict(items)` has unique keys |
| Tables.Flatten | JsonObjects/json2table.py:35-45 | the flattened dict has unique keys |
| Tables.Find | JsonObjects/json2table.py:59 | the column search finds a column of that name, and reports none iff no column has it |
| Tables.AddColumnWith | JsonObjects/json2table.py:48-67 | adding a cell keeps column names unique, leaves other columns unchanged, and only appends to cells |
| Tables.AddColumnAsWritten | JsonObjects/json2table.py:48-67 | an existing column just grows by the value; a new column gets one `None` fewer than the first column's length (none while that length is 0 or 1), then the value |
| Tables.AddColumn | JsonObjects/json2table.py:48-67 | (corrected back-fill) the row-numbered back-fill puts the value in its own row, behind `None`s for the rows the column missed |
| Tables.AddFields | JsonObjects/json2table.py:75-76 | adding a row's pairs keeps names unique and only appends to existing columns |
| Tables.Build | JsonObjects/json2table.py:80-81 | the built table has unique column names |
| Tables.Segment | JsonObjects/json2table.py:158-162 | a stripped name has no `.`; a name without `.` is kept |
| Tables.PutColumn | JsonObjects/json2table.py:164 | `newTab[name] = cells`: an existing name keeps its place and takes the cells, a new name goes last |
| Tables.RemovePrefix | JsonObjects/json2table.py:153-167 | after prefix removal the names are unique and contain no `.` (their order is TableFacts.RemovePrefixOrder, their cells TableFacts.RemovePrefixLastWins) |
| Tables.Longest | JsonObjects/json2table.py:171-174 | the longest column length bounds every column and is attained |
| Tables.Pad | JsonObjects/json2table.py:176-182 | after padding every column is as long as the longest, keeps its cells as a prefix, and is completed with `None`s |
| Tables.DictToTableWith | JsonObjects/json2table.py:20-186 | with either back-fill, the table has unique names and equal-length columns, and no `.` in names when prefixes are removed |
| TableFacts.DictOfUnique | JsonObjects/json2table.py:45 | `dict` of pairs with distinct keys is those pairs in order |
| TableFacts.DictOfLastWins | JsonObjects/json2table.py:45 | a repeated key takes the value of its last pair |
| TableFacts.DictOfMembers | JsonObjects/json2table.py:45 | `dict` invents no pair |
| TableFacts.FlattenShape | JsonObjects/json2table.py:35-45 | `_flatten` yields only non-dict leaves, each keyed under its parent's path |
| TableFacts.FlattenFlat | JsonObjects/json2table.py:35-45 | a dict without nested dicts flattens to itself |
| TableFacts.FlattenNested | JsonObjects/json2table.py:38-40 | a nested dict is flattened under its key |
| TableFacts.FlattenSkipsEmpty | JsonObjects/json2table.py:39-40 | an empty nested dict leaves no column |
| TableFacts.FlattenKeepsLeaf | JsonObjects/json2table.py:41-42 | every leaf gets an entry keyed by its path |
| TableFacts.AddColumnGrows | JsonObjects/json2table.py:48-67 | (corrected back-fill) the row-numbered back-fill puts the pair in its row behind `None`s |
| TableFacts.AddColumnAgrees | JsonObjects/json2table.py:58-67 | the library's back-fill adds the same cell as the row-numbered one exactly when an existing column already reaches the row, or a new column's `len(first column) - 1` (0 while that is 0 or 1) is the row number |
| TableFacts.BuildAligned | JsonObjects/json2table.py:80-81 | (corrected back-fill) with the row-numbered back-fill every column is aligned with the flattened objects |
| TableFacts.TableRows | JsonObjects/json2table.py:70-81 | (corrected back-fill) each object is one row: every cell holds its row's value under the column name (`None` where the object has none), and every path reaches its row |
| TableFacts.AsWrittenMergesRows | JsonObjects/json2table.py:62-65 | as written, `[{'a': 1}, {'b': 2}]` gives one row `a=1, b=2` instead of two |
| TableFacts.CorrectedKeepsRows | JsonObjects/json2table.py:48-67 | with the row-numbered back-fill the same input gives the two rows `(1, None)` and `(None, 2)` |
| TableFacts.RemovePrefixLastWins | JsonObjects/json2table.py:156-164 | each stripped column holds the cells of the last column with that segment: a later collision overwrites |
| TableFacts.RemovePrefixFrom | JsonObjects/json2table.py:156-164 | every stripped column comes from some original column |
| TableFacts.RemovePrefixDotless | JsonObjects/json2table.py:158-162 | names without a `.` are left as they are |
| TableFacts.RemovePrefixOrder | JsonObjects/json2table.py:156-164 | the stripped names are the last segments of the original names, each once, in the order in which they first occur (an independent first-occurrence function, TableFacts.FirstOccurrences): `newTab` is a dict, so a repeated segment keeps its first place |
| TableFacts.FirstOccurrencesSnoc | JsonObjects/json2table.py:164 | appending a name already seen leaves the first occurrences unchanged, and appending a new one puts it last: a dict assignment to an old key keeps its place, to a new key goes last |
| TableFacts.PutColumnNames | JsonObjects/json2table.py:164 | `newTab[colAfter] = …` leaves the names alone when `colAfter` is one of them, and adds it last otherwise |
| TableFacts.PadIdempotent | JsonObjects/json2table.py:176-182 | padding a padded table changes nothing |
| Text.SplitJoin | JsonObjects/jdocument.py:492 | `'.'.join(s.split('.')) == s`, and the split has one more part than there are separators |
| Text.JoinSplit | JsonObjects/jdocument.py:492 | separator-free parts joined and split again come back |
| Text.ParseIntToString | JsonObjects/jdocument.py:506-509 | `int(str(i)) == i`, and the text of `i` passes the `isnumeric` test once `-` is removed |
| PyValues.PyCmp | JsonObjects/jdocument.py:1306-1316 | Python ordering: numbers and booleans by value, text by code points; `None` and dicts raise `TypeError` |
| PyValues.StrOf | JsonObjects/jdocument.py:1319 | `str(v)` is the text itself for a string, and its `repr` otherwise (see Left out for the escapes) |

## Left out

- The JSON codec: `jDocument(text)`, `getJson`, `__hash__` and `__eq__` are built on serialised text. `jDocument` of any value other than a dict, list or `None` is reported as a codec error. The text `getJson` produces for the `all` search is a parameter (`Host.dump`).
- Regular expressions: the `RE:` macro, the `RegExp` operator and `findAnyDocs` use an abstract predicate (`Host.search`, `Mode.WithMacros`).
- `value` with a list of attributes (jdocument.py:535-550), `exists`, `item`, `clear`, `clone`, `copyFrom`, `findAttribDocs`, `findAnyDocs`, `searchOneDoc`, `getNumOfItems`, `getAttributes`, `getDataType`, `isArray`/`isObject`: outside the modelled core.
- The `DotDict`/`jDotDict` views, `doc`/`jdoc`, `__iter__`/`__next__`'s shared cursor and `__getitem__`/`__setitem__`/`__delitem__`: attribute-access conveniences with aliasing.
- Search.SearchDocs: the structured filter is taken already decoded into groups of `Cond`s. A group without an `And` key, where the source raises `TypeError` iterating `None` (jdocument.py:1256), is not modelled. The same holds for Search.Keep.
- `searchDocs`' `exprFilter` (`eval` of Python text): dynamic code execution. `qty` of `searchDocs` is stored and never read, so it is no parameter.
- The datetime coercion of `testDoc` (jdocument.py:1275-1277): `str2datetime` is not part of this model and values are JSON values only.
- `mean`, `mode`, the `median*` variants and `quantile`: floating-point statistics.
- Numbers are integers only. JSON floats are not modelled.
- Text.Lower: lowers ASCII letters only; Python's Unicode case mapping is not modelled.
- Text.IsDigits: accepts ASCII digits only. Python's `isdigit`/`isnumeric` also accept other Unicode digits (`²`, `٣`), and `int` converts the decimal ones; a subscript or name made of such digits is read as a condition or a plain key here.
- PyValues.StrOf: `repr` escapes the characters up to U+00FF that Python does not print; the non-printable characters above U+00FF (format characters, Unicode spaces and separators, unassigned code points), which `repr` writes as `\uXXXX` or `\UXXXXXXXX`, are written as themselves.
- Tables.AddColumn: states the row-numbered back-fill, not the library's; for the library's, Tables.AddColumnAsWritten states what happens and TableFacts.AddColumnAgrees says exactly when the two agree.
- TableFacts.AddColumnGrows: proved for the row-numbered back-fill only; the library's back-fill grows a column by exactly one cell without aligning it (Tables.AddColumnAsWritten).
- TableFacts.BuildAligned: proved for the row-numbered back-fill only; with the library's, rows can merge (TableFacts.AsWrittenMergesRows).
- TableFacts.TableRows: proved for the row-numbered back-fill only; with the library's, only the shape facts of Tables.DictToTableWith are promised.
- The list-expansion loop of `dict2table` (json2table.py:84-150), which mutates lists while iterating, the final `DataFrame` construction and `json2table`'s parsing.
- Tables.Flatten: `collections.MutableMapping` (json2table.py:39) no longer exists on Python 3.10 and later, where `_flatten` raises on every object with at least one key; the model follows the evident intent, a dict test.
- Tables.Build: the items of `objs` are modelled as dicts; a non-dict item is not modelled.
- Sorting.Pass: `list.sort` (timsort) is modelled as a stable insertion sort. Both are stable sorts on a strict weak order, so they agree whenever the keys form one; the order timsort gives on keys that do not is not modelled.
- Sorting.Pass: when the sort raises `TypeError` part way, `list.sort` has already moved some items (`[1, 3, 2, 'x']` is left as `[1, 2, 3, 'x']`); the model keeps the input order as a stand-in, so for that case Sorting.Pass, Sorting.SortDocs and Sorting.MixedTypesRaise promise only that the items are a permutation of the input. The model also raises as soon as ANY two keys of the list cannot be ordered, while timsort raises only on a pair it actually compares.
- Sorting.MixedTypesRaise: promises a permutation, not the partly sorted order `list.sort` leaves behind, for the reason given under Sorting.Pass.
- Sorting.SortDocs: on `TypeError` the returned document stands in for the partly sorted list; only the permutation is promised (see Sorting.Pass).
- Sorting.SortByNumber: the ordering lemmas about a whole sort are proved for attributes that are all numbers (booleans included) or all strings; mixed types are covered only by Sorting.MixedTypesRaise.
- Remover.RemoveAttrib: a dotted name containing a subscript (`a[0].b`) is not modelled (`Removable`).
- Writer.SetOne: a dotted name containing a subscript (`a[0].b`) is not modelled (`Writable`); the writer only descends into dicts.
- Collection.RemoveDocsWith: on an object document the `array` name must be a path of plain keys (`Addressable`); a name with a subscript or a condition is not modelled.
- Collection.RemoveDocsWith: on a list document the `array` name must be one `get` broadcasts (`Addressable`). A name containing `[`, which `get` resolves to one item or to `findOneDoc`'s document (jdocument.py:445-466), and a name starting with `Array`, which skips the broadcast (jdocument.py:444), are not modelled: removing from what they return changes an item shared with the list in place.
- Collection.NamedListCleared: error kinds are those of Python 3.11 and earlier. When the path leads to a dict, `del lst[:]` raises `TypeError` there (a slice is not hashable), but `KeyError` from Python 3.12 on.
- Collection.RemoveFirst: Python's `list.remove` tests identity before `==`; structural equality stands for identity, so the removal lemmas assume pairwise different items.
- Collection.RemoveDocsWith: `filters=None` and an empty filter dict are both modelled as `Dict([])`, which is falsy like them.
- Writer.SetOnePath: with the library's cut, proved only on clean paths (Writer.CleanPath); on others the value can land under a different path (Writer.SetAsWrittenMisplaces). The same holds for Writer.SetThenValue, Writer.SetBuildsPath and Writer.SetPathFresh.
- Writer.SetThenValue: with the library's cut, clean paths only (see Writer.SetOnePath).
- Writer.SetBuildsPath: with the library's cut, clean paths only (see Writer.SetOnePath).
- Writer.SetPathFresh: with the library's cut, clean paths only (see Writer.SetOnePath).
- Collection.NamedListDelegates: as written, index 0 without filters clears the list instead (Collection.IndexZeroAsWritten), so that case is proved for the corrected test only.
- Writer.SetWith: on a list document the source calls `.set` on raw dicts, which raises `AttributeError`; the model raises on the first item and otherwise changes nothing.

## Findings

| source | as written | input that shows it | evidently intended | confidence | as-written member | corrected member |
|---|---|---|---|---|---|---|
| JsonObjects/jdocument.py:630 | `at.replace(lstAttrib[0] + '.', '')` deletes every occurrence of the first segment followed by `.` | `set({'a.ba.c': v})` on `{}` stores `{'a': {'bc': v}}` | the nested name is the text after the first dot, giving `{'a': {'ba': {'c': v}}}` | not executed | Writer.SetAsWrittenMisplaces | Writer.SetNestsAtFirstDot |
| JsonObjects/jdocument.py:826 | `elif index:` treats index 0 as no index | `removeDocs(array='k', index=0)` on `{'k': [{...}, ...]}` empties the list and returns its length | test `index is not None`, as the document branch does at line 842, and remove only the first item | not executed | Collection.IndexZeroAsWritten | Collection.IndexZeroCorrected |
| JsonObjects/json2table.py:62-65 | a new column is back-filled with `len(first column) - 1` `None`s, which is the current row count only if the first column grew in every row | `dict2table([{'a': 1}, {'b': 2}])` gives the single row `a=1, b=2` | every object is its own row: columns `a = [1, None]`, `b = [None, 2]` | not executed | TableFacts.AsWrittenMergesRows | TableFacts.CorrectedKeepsRows |

=== FILE: aggregate.dfy ===
/** The aggregation layer (jdocument.py:1350-1418): `_getListOfValues`
    picks the truthy values of one attribute from the documents of a list
    document — optionally narrowed by `findDocs` or `searchDocs` — and
    `count`, `sum`, `min`, `max` and `ocorrences` reduce that list. */
module Aggregates {
  import opened Outcomes
  import opened Json
  import opened PyValues
  import opened Documents
  import opened Resolver
  import opened Collection
  import opened Search

  // ---------------------------------------------------------------- the list of values

  /** The documents `_getListOfValues` reads (jdocument.py:1354-1365): the
      `findDocs` matches when a filter list is given (`None` meaning none),
      else the `searchDocs` matches when filter groups are given, else every
      item. */
  function Source(host: Host, d: Document, lst: Filters, groups: seq<seq<Cond>>): (r: Result<seq<Value>>)
    requires d.Arr?
    ensures !Given(lst) && |groups| == 0 ==> r == Ok(d.items)
  {
    if Given(lst) then
      match FindDocs(d, lst, None, Plain)
      case Err(e) => Err(e)
      case Ok(None) => Ok([])
      case Ok(Some(xs)) => Ok(xs)
    else if |groups| > 0 then
      match SearchDocs(host, d, groups)
      case Err(e) => Err(e)
      case Ok(found) => Ok(seq(|found|, i requires 0 <= i < |found| => Unwrap(found[i])))
    else Ok(d.items)
  }

  /** `[jDoc.get(attrib) for jDoc in jList if jDoc[attrib]]`: each item is
      wrapped as a document; on an object `jDoc[attrib]` is `get`, on a list
      it indexes the list with a string and raises. */
  function Picked(items: seq<Value>, attrib: string): (r: Result<seq<Fetched>>)
    ensures r.Ok? ==> |r.value| <= |items|
    ensures r.Ok? ==> forall i :: 0 <= i < |r.value| ==> FTruthy(r.value[i])
  {
    if |items| == 0 then Ok([])
    else match AsDocument(items[0])
      case Err(e) => Err(e)
      case Ok(doc) =>
        if doc.Arr? then Err(TypeError)
        else match Get(doc, attrib, Null, false, false)
          case Err(e) => Err(e)
          case Ok(a) =>
            match Picked(items[1..], attrib)
            case Err(e) => Err(e)
            case Ok(rest) => Ok(if FTruthy(a) then [a] + rest else rest)
  }

  /** `_getListOfValues(attrib, lstFilter, jFilter)`; the expression filter
      is not modelled. */
  function ValuesOf(host: Host, d: Document, attrib: string, lst: Filters, groups: seq<seq<Cond>>): (r: Result<seq<Fetched>>)
    ensures d.Obj? ==> r == Err(ShapeError)
    ensures r.Ok? ==> forall i :: 0 <= i < |r.value| ==> FTruthy(r.value[i])
  {
    if !d.Arr? then Err(ShapeError)
    else match Source(host, d, lst, groups)
      case Err(e) => Err(e)
      case Ok(items) => Picked(items, attrib)
  }

  // ---------------------------------------------------------------- the reductions

  /** `count`: the length of the list of values. */
  function Count(host: Host, d: Document, attrib: string, lst: Filters, groups: seq<seq<Cond>>): (r: Result<nat>)
    ensures r.Ok? <==> ValuesOf(host, d, attrib, lst, groups).Ok?
    ensures r.Ok? ==> r.value == |ValuesOf(host, d, attrib, lst, groups).value|
  {
    match ValuesOf(host, d, attrib, lst, groups)
    case Err(e) => Err(e)
    case Ok(vs) => Ok(|vs|)
  }

  /** Every value is a number or a boolean (a `bool` is an `int` to `sum`). */
  predicate Numeric(vs: seq<Fetched>)
  {
    forall i :: 0 <= i < |vs| ==> vs[i].Raw? && IsNumeric(vs[i].v)
  }

  /** The arithmetic total of numeric values. */
  function Total(vs: seq<Fetched>): int
    requires Numeric(vs)
  {
    if |vs| == 0 then 0 else NumOf(vs[0].v) + Total(vs[1..])
  }

  /** `sum(lstValues)`: `0 + x` raises `TypeError` for text, lists and
      documents. An empty list gives `None`. */
  function Sum(vs: seq<Fetched>): (r: Result<Option<int>>)
    ensures |vs| == 0 <==> r == Ok(None)
    ensures r.Ok? <==> Numeric(vs)
    ensures r.Err? ==> r.error == TypeError
  {
    if |vs| == 0 then Ok(None)
    else if Numeric(vs) then Ok(Some(Total(vs)))
    else Err(TypeError)
  }

  /** `min`/`max`: each later value `x` replaces the current one when
      `x < current` (`x > current` for `max`), so the first of equal
      extremes is kept; a comparison that raises ends the reduction. */
  function Extreme(cur: Fetched, rest: seq<Fetched>, op: CmpOp): (r: Result<Fetched>)
    ensures r.Ok? ==> r.value == cur || r.value in rest
    decreases |rest|
  {
    if |rest| == 0 then Ok(cur)
    else match FCmp(rest[0], cur, op)
      case Err(e) => Err(e)
      case Ok(b) => Extreme(if b then rest[0] else cur, rest[1..], op)
  }

  function Min(vs: seq<Fetched>): (r: Result<Option<Fetched>>)
    ensures |vs| == 0 <==> r == Ok(None)
    ensures r.Ok? && r.value.Some? ==> r.value.value in vs
  {
    if |vs| == 0 then Ok(None)
    else match Extreme(vs[0], vs[1..], Lt)
      case Err(e) => Err(e)
      case Ok(x) => Ok(Some(x))
  }

  function Max(vs: seq<Fetched>): (r: Result<Option<Fetched>>)
    ensures |vs| == 0 <==> r == Ok(None)
    ensures r.Ok? && r.value.Some? ==> r.value.value in vs
  {
    if |vs| == 0 then Ok(None)
    else match Extreme(vs[0], vs[1..], Gt)
      case Err(e) => Err(e)
      case Ok(x) => Ok(Some(x))
  }

  /** How many values are `== v`; a wrapped document equals no raw value. */
  function EqCount(vs: seq<Fetched>, v: Value): (n: nat)
    ensures n <= |vs|
  {
    if |vs| == 0 then 0 else (if FEq(vs[0], Raw(v)) then 1 else 0) + EqCount(vs[1..], v)
  }

  /** `ocorrences`: `lstValues.count(valueToCount)`, `None` on an empty list. */
  function Ocorrences(vs: seq<Fetched>, v: Value): (r: Option<nat>)
    ensures |vs| == 0 <==> r.None?
    ensures r.Some? ==> r.value <= |vs|
  {
    if |vs| == 0 then None else Some(EqCount(vs, v))
  }

  // ---------------------------------------------------------------- the list of values, stated

  /** The first error of the left part wins, then that of the right part. */
  function Join(a: Result<seq<Fetched>>, b: Result<seq<Fetched>>): Result<seq<Fetched>>
  {
    match a
    case Err(e) => Err(e)
    case Ok(xs) =>
      match b
      case Err(e) => Err(e)
      case Ok(ys) => Ok(xs + ys)
  }

  /** Picking is item by item: it distributes over concatenation. */
  lemma {:induction false} PickedAppend(a: seq<Value>, b: seq<Value>, attrib: string)
    ensures Picked(a + b, attrib) == Join(Picked(a, attrib), Picked(b, attrib))
    decreases |a|
  {
    if |a| > 0 {
      assert (a + b)[0] == a[0];
      assert (a + b)[1..] == a[1..] + b;
      PickedAppend(a[1..], b, attrib);
      var head := AsDocument(a[0]);
      if head.Ok? && head.value.Obj? && Picked(a[1..], attrib).Ok? && Picked(b, attrib).Ok? {
        var g := Get(head.value, attrib, Null, false, false);
        var xs, ys := Picked(a[1..], attrib).value, Picked(b, attrib).value;
        if g.Ok? {
          assert ([g.value] + xs) + ys == [g.value] + (xs + ys);
        }
      }
    } else {
      assert a + b == b;
      if Picked(b, attrib).Ok? {
        assert [] + Picked(b, attrib).value == Picked(b, attrib).value;
      }
    }
  }

  /** One object item gives its attribute's value when that is truthy and
      nothing otherwise — a missing attribute, `None`, `0`, `''`, `[]`. */
  lemma PickedOne(item: Value, attrib: string)
    requires item.Obj?
    ensures var a := Wrap(ValueOf(item, attrib, Null, false).value, false);
      Picked([item], attrib) == Ok(if Truthy(ValueOf(item, attrib, Null, false).value) then [a] else [])
  {
    var v := ValueOf(item, attrib, Null, false);
    assert v.Ok?;
    var a := Wrap(v.value, false);
    FTruthyUnwrap(a);
    assert AsDocument(item) == Ok(item);
    assert Get(item, attrib, Null, false, false) == Ok(a);
    assert [item][1..] == [];
    assert [a] + [] == [a];
  }

  /** An item whose attribute is falsy contributes nothing, not even to the
      count: zero is skipped like a missing attribute. */
  lemma SkipsFalsy(pre: seq<Value>, item: Value, post: seq<Value>, attrib: string)
    requires item.Obj? && !Truthy(ValueOf(item, attrib, Null, false).value)
    ensures Picked(pre + [item] + post, attrib) == Picked(pre + post, attrib)
  {
    PickedAppend(pre + [item], post, attrib);
    PickedAppend(pre, [item], attrib);
    PickedAppend(pre, post, attrib);
    PickedOne(item, attrib);
    assert Picked([item], attrib) == Ok([]);
    if Picked(pre, attrib).Ok? {
      var xs := Picked(pre, attrib).value;
      assert xs + [] == xs;
      assert Picked(pre + [item], attrib) == Ok(xs);
    } else {
      assert Picked(pre + [item], attrib) == Picked(pre, attrib);
    }
  }

  /** A list document among the items makes the read raise. */
  lemma ListItemRaises(pre: seq<Value>, item: Value, post: seq<Value>, attrib: string)
    requires item.Arr? && Picked(pre, attrib).Ok?
    ensures Picked(pre + [item] + post, attrib) == Err(TypeError)
  {
    PickedAppend(pre + [item], post, attrib);
    PickedAppend(pre, [item], attrib);
  }

  /** Without filters, the count over two lists is the sum of the counts. */
  lemma CountAppend(host: Host, a: seq<Value>, b: seq<Value>, attrib: string)
    requires Count(host, Arr(a), attrib, Dict([]), []).Ok? && Count(host, Arr(b), attrib, Dict([]), []).Ok?
    ensures Count(host, Arr(a + b), attrib, Dict([]), []) ==
      Ok(Count(host, Arr(a), attrib, Dict([]), []).value + Count(host, Arr(b), attrib, Dict([]), []).value)
  {
    PickedAppend(a, b, attrib);
    var xs, ys := Picked(a, attrib).value, Picked(b, attrib).value;
    PlainValues(host, a, attrib);
    PlainValues(host, b, attrib);
    PlainValues(host, a + b, attrib);
    var m, n := Count(host, Arr(a), attrib, Dict([]), []).value, Count(host, Arr(b), attrib, Dict([]), []).value;
    assert m == |xs| && n == |ys|;
    CountIs(host, Arr(a + b), attrib, m + n);
  }

  /** With no filter, the values are those picked from the items. */
  lemma PlainValues(host: Host, items: seq<Value>, attrib: string)
    ensures ValuesOf(host, Arr(items), attrib, Dict([]), []) == Picked(items, attrib)
  {
  }

  lemma CountIs(host: Host, d: Document, attrib: string, n: nat)
    requires ValuesOf(host, d, attrib, Dict([]), []).Ok? && |ValuesOf(host, d, attrib, Dict([]), []).value| == n
    ensures Count(host, d, attrib, Dict([]), []) == Ok(n)
  {
  }

  // ---------------------------------------------------------------- the reductions, stated

  lemma {:induction false} TotalAppend(a: seq<Fetched>, b: seq<Fetched>)
    requires Numeric(a) && Numeric(b)
    ensures Numeric(a + b) && Total(a + b) == Total(a) + Total(b)
    decreases |a|
  {
    if |a| > 0 {
      assert (a + b)[1..] == a[1..] + b;
      TotalAppend(a[1..], b);
    } else {
      assert a + b == b;
    }
  }

  /** `sum` adds up over concatenation; text anywhere makes it raise. */
  lemma SumAppend(a: seq<Fetched>, b: seq<Fetched>)
    requires Sum(a).Ok? && Sum(b).Ok? && |a| > 0 && |b| > 0
    ensures Sum(a + b) == Ok(Some(Sum(a).value.value + Sum(b).value.value))
  {
    TotalAppend(a, b);
  }

  lemma SumRejectsText(vs: seq<Fetched>, i: int)
    requires 0 <= i < |vs| && vs[i].Raw? && vs[i].v.Str?
    ensures Sum(vs) == Err(TypeError)
  {
  }

  /** `x` is strictly better than `y` for the reduction `op`. */
  predicate Better(op: CmpOp, x: Fetched, y: Fetched)
    requires x.Raw? && IsNumeric(x.v) && y.Raw? && IsNumeric(y.v)
  {
    OpInt(op, NumOf(x.v), NumOf(y.v))
  }

  /** `xs[i]` is beaten by no value and beats every value before it. */
  predicate FirstBest(xs: seq<Fetched>, op: CmpOp, i: int)
    requires Numeric(xs)
  {
    0 <= i < |xs| &&
    (forall j :: 0 <= j < |xs| ==> !Better(op, xs[j], xs[i])) &&
    (forall j :: 0 <= j < i ==> Better(op, xs[i], xs[j]))
  }

  /** The reduction over numbers keeps the first value no other beats. */
  lemma {:induction false} ExtremeNumeric(cur: Fetched, rest: seq<Fetched>, op: CmpOp)
    requires op == Lt || op == Gt
    requires Numeric([cur] + rest)
    ensures var r := Extreme(cur, rest, op);
      r.Ok? && exists i :: FirstBest([cur] + rest, op, i) && ([cur] + rest)[i] == r.value
    decreases |rest|
  {
    var xs := [cur] + rest;
    assert xs[0] == cur;
    if |rest| == 0 {
      assert FirstBest(xs, op, 0);
    } else {
      assert xs[1] == rest[0];
      var b := Better(op, rest[0], cur);
      var next := if b then rest[0] else cur;
      var ys := [next] + rest[1..];
      assert Numeric(ys) by {
        forall j | 0 <= j < |ys| ensures ys[j].Raw? && IsNumeric(ys[j].v) {
          if j > 0 { assert ys[j] == xs[j + 1]; }
        }
      }
      ExtremeNumeric(next, rest[1..], op);
      var k :| FirstBest(ys, op, k) && ys[k] == Extreme(next, rest[1..], op).value;
      ExtremeShift(cur, rest, op, k);
    }
  }

  /** One step of the reduction: the first best of the list with the first
      two values replaced by the better of them is the first best of the
      whole list. */
  lemma ExtremeShift(cur: Fetched, rest: seq<Fetched>, op: CmpOp, k: int)
    requires op == Lt || op == Gt
    requires |rest| > 0 && Numeric([cur] + rest)
    requires cur.Raw? && IsNumeric(cur.v) && rest[0].Raw? && IsNumeric(rest[0].v)
    requires var next := if Better(op, rest[0], cur) then rest[0] else cur;
      Numeric([next] + rest[1..]) && FirstBest([next] + rest[1..], op, k)
    ensures var next := if Better(op, rest[0], cur) then rest[0] else cur;
      var i := if k > 0 then k + 1 else if Better(op, rest[0], cur) then 1 else 0;
      FirstBest([cur] + rest, op, i) && ([cur] + rest)[i] == ([next] + rest[1..])[k]
  {
    var xs := [cur] + rest;
    var b := Better(op, rest[0], cur);
    var next := if b then rest[0] else cur;
    var ys := [next] + rest[1..];
    var i := if k > 0 then k + 1 else if b then 1 else 0;
    var r := ys[k];
    assert xs[0] == cur && xs[1] == rest[0] && ys[0] == next;
    assert xs[i] == r;
    assert !Better(op, next, r);
    forall j | 0 <= j < |xs| ensures !Better(op, xs[j], r) {
      if j > 1 { assert xs[j] == ys[j - 1]; }
    }
    forall j | 0 <= j < i ensures Better(op, r, xs[j]) {
      if j > 1 { assert xs[j] == ys[j - 1]; }
    }
  }

  /** `min` over numbers: the first of the smallest values. */
  lemma MinNumeric(vs: seq<Fetched>)
    requires |vs| > 0 && Numeric(vs)
    ensures var r := Min(vs);
      r.Ok? && r.value.Some? &&
      (exists i :: 0 <= i < |vs| && vs[i] == r.value.value &&
         (forall j :: 0 <= j < |vs| ==> NumOf(vs[i].v) <= NumOf(vs[j].v)) &&
         (forall j :: 0 <= j < i ==> NumOf(vs[i].v) < NumOf(vs[j].v)))
  {
    assert vs == [vs[0]] + vs[1..];
    ExtremeNumeric(vs[0], vs[1..], Lt);
    var i :| FirstBest(vs, Lt, i) && vs[i] == Min(vs).value.value;
  }

  /** `max` over numbers: the first of the largest values. */
  lemma MaxNumeric(vs: seq<Fetched>)
    requires |vs| > 0 && Numeric(vs)
    ensures var r := Max(vs);
      r.Ok? && r.value.Some? &&
      (exists i :: 0 <= i < |vs| && vs[i] == r.value.value &&
         (forall j :: 0 <= j < |vs| ==> NumOf(vs[i].v) >= NumOf(vs[j].v)) &&
         (forall j :: 0 <= j < i ==> NumOf(vs[i].v) > NumOf(vs[j].v)))
  {
    assert vs == [vs[0]] + vs[1..];
    ExtremeNumeric(vs[0], vs[1..], Gt);
    var i :| FirstBest(vs, Gt, i) && vs[i] == Max(vs).value.value;
  }

  /** Every value after the first is compared, so a wrapped document
      anywhere in a list of two or more values makes `min` and `max` raise;
      alone, it is returned as it is. */
  lemma {:induction false} ExtremeDocRaises(cur: Fetched, rest: seq<Fetched>, op: CmpOp)
    requires |rest| > 0 && (cur.Doc? || exists i :: 0 <= i < |rest| && rest[i].Doc?)
    ensures Extreme(cur, rest, op) == Err(TypeError)
    decreases |rest|
  {
    match FCmp(rest[0], cur, op)
    case Err(e) =>
      assert e == TypeError by {
        if rest[0].Raw? && cur.Raw? { assert FCmp(rest[0], cur, op) == PyCmp(rest[0].v, cur.v, op); }
      }
    case Ok(b) =>
      assert rest[0].Raw? && cur.Raw?;
      var k :| 0 <= k < |rest| && rest[k].Doc?;
      assert k > 0;
      assert rest[1..][k - 1] == rest[k];
      ExtremeDocRaises(if b then rest[0] else cur, rest[1..], op);
  }

  lemma MinMaxDoc(vs: seq<Fetched>, i: int)
    requires 0 <= i < |vs| && vs[i].Doc?
    ensures |vs| == 1 ==> Min(vs) == Ok(Some(vs[0])) && Max(vs) == Ok(Some(vs[0]))
    ensures |vs| > 1 ==> Min(vs) == Err(TypeError) && Max(vs) == Err(TypeError)
  {
    if |vs| > 1 {
      if i > 0 { assert vs[1..][i - 1] == vs[i]; }
      ExtremeDocRaises(vs[0], vs[1..], Lt);
      ExtremeDocRaises(vs[0], vs[1..], Gt);
    }
  }

  lemma {:induction false} EqCountAppend(a: seq<Fetched>, b: seq<Fetched>, v: Value)
    ensures EqCount(a + b, v) == EqCount(a, v) + EqCount(b, v)
    decreases |a|
  {
    if |a| > 0 {
      assert (a + b)[0] == a[0];
      assert (a + b)[1..] == a[1..] + b;
      EqCountAppend(a[1..], b, v);
    } else {
      assert a + b == b;
    }
  }

  /** `ocorrences` adds up over concatenation, and a value occurs in a
      non-empty list of values no more often than the list counts values. */
  lemma OcorrencesAppend(a: seq<Fetched>, b: seq<Fetched>, v: Value)
    requires |a| > 0 && |b| > 0
    ensures Ocorrences(a + b, v) == Some(Ocorrences(a, v).value + Ocorrences(b, v).value)
  {
    EqCountAppend(a, b, v);
  }

  /** A falsy value is never counted: the list holds only truthy values. */
  lemma {:induction false} FalsyNeverOccurs(vs: seq<Fetched>, v: Value)
    requires forall i :: 0 <= i < |vs| ==> FTruthy(vs[i])
    requires !Truthy(v)
    ensures EqCount(vs, v) == 0
    decreases |vs|
  {
    if |vs| > 0 {
      FalsyNotEqualTruthy(vs[0], v);
      FalsyNeverOccurs(vs[1..], v);
    }
  }

  lemma FalsyNotEqualTruthy(x: Fetched, v: Value)
    requires FTruthy(x) && !Truthy(v)
    ensures !FEq(x, Raw(v))
  {
  }
}

=== FILE: collection.dfy ===
/** The list operations of a document: `addDoc`, `removeDocs` and
    `removeOneDoc` (jdocument.py:747-886).

    `removeDocs(array=name, ...)` works on the list that `get(name)` hands
    back. For an object document that list is the one stored in the
    document, so the removal shows up there; the model writes the changed
    list back along the name (`UpdateAt`). For a list document `get(name)`
    builds a fresh list, and the stored document does not change. */
module Collection {
  import opened Outcomes
  import opened Text
  import opened Json
  import opened PyValues
  import opened Documents
  import opened Resolver
  import opened FilterFacts
  import opened PathFacts

  // ---------------------------------------------------------------- addDoc

  /** `addDoc(item)` (jdocument.py:747-782): a dict, or a `jDocument` around
      one, is appended; a list, or a `jDocument` around one, is spliced in.
      The call returns the added document as a `jDocument`. */
  function AddDoc(d: Document, item: Fetched): (o: Outcome<Document, Fetched>)
    ensures o.result.Ok? <==> d.Arr? && (Unwrap(item).Obj? || Unwrap(item).Arr?)
    ensures o.result.Err? ==> o.doc == d && o.result.error == (if d.Arr? then ItemError else ShapeError)
    ensures o.result.Ok? ==>
      (o.result.value == Doc(Unwrap(item)) && o.doc.Arr? &&
       o.doc.items == d.items + (if Unwrap(item).Arr? then Unwrap(item).items else [Unwrap(item)]))
  {
    if !d.Arr? then Outcome(d, Err(ShapeError))
    else
      match item
      case Doc(x) =>
        if x.Arr? then Outcome(Arr(d.items + x.items), Ok(item))
        else Outcome(Arr(d.items + [x]), Ok(item))
      case Raw(v) =>
        if v.Obj? then Outcome(Arr(d.items + [v]), Ok(Doc(v)))
        else if v.Arr? then Outcome(Arr(d.items + v.items), Ok(Doc(v)))
        else Outcome(d, Err(ItemError))
  }

  // ---------------------------------------------------------------- the three removals of a list

  /** `del self._jdata[index]` (jdocument.py:842-850): one item, a negative
      index counting from the end. */
  function RemoveAt(d: Document, i: int): (o: Outcome<Document, nat>)
    ensures !d.Arr? ==> o == Outcome(d, Err(ShapeError))
    ensures d.Arr? && !InRange(|d.items|, i) ==> o == Outcome(d, Err(IndexError))
    ensures d.Arr? && InRange(|d.items|, i) ==>
      o.result == Ok(1) && o.doc.Arr? && |o.doc.items| == |d.items| - 1 &&
      (forall j :: 0 <= j < Position(|d.items|, i) ==> o.doc.items[j] == d.items[j]) &&
      (forall j :: Position(|d.items|, i) < j < |d.items| ==> o.doc.items[j - 1] == d.items[j])
  {
    if !d.Arr? then Outcome(d, Err(ShapeError))
    else if !InRange(|d.items|, i) then Outcome(d, Err(IndexError))
    else
      var p := Position(|d.items|, i);
      Outcome(Arr(d.items[..p] + d.items[p + 1..]), Ok(1))
  }

  /** `self._jdata.clear()` (jdocument.py:874-883): the count is the old length. */
  function ClearAll(d: Document): (o: Outcome<Document, nat>)
    ensures !d.Arr? ==> o == Outcome(d, Err(ShapeError))
    ensures d.Arr? ==> o.doc == Arr([]) && o.result == Ok(Len(d))
  {
    if !d.Arr? then Outcome(d, Err(ShapeError)) else Outcome(Arr([]), Ok(|d.items|))
  }

  /** `list.remove(m)`: drops the first item equal to `m`. Python compares by
      identity before `==`; structural equality stands for identity here. */
  function RemoveFirst(xs: seq<Value>, m: Value): (r: Result<seq<Value>>)
    ensures r.Err? ==> r == Err(ValueError) && forall i :: 0 <= i < |xs| ==> xs[i] != m && !PyEq(xs[i], m)
    ensures r.Ok? ==> |r.value| == |xs| - 1 && forall x :: x in r.value ==> x in xs
    ensures m in xs ==> r.Ok?
  {
    if |xs| == 0 then Err(ValueError)
    else if xs[0] == m || PyEq(xs[0], m) then Ok(xs[1..])
    else
      match RemoveFirst(xs[1..], m)
      case Err(e) => Err(e)
      case Ok(ys) => Ok([xs[0]] + ys)
  }

  /** The removal loop of jdocument.py:866-868. `for i in reversed(range(n))`
      removes `ms[i - 1]`, so the matches go in the order `ms[n-2], ..., ms[0]`
      and then `ms[-1]`; `k` is the number of iterations left. The count is
      the number of items removed before any exception. */
  function RemoveListed(xs: seq<Value>, ms: seq<Value>, k: nat): (o: Outcome<seq<Value>, nat>)
    requires k <= |ms|
    ensures o.result.Ok? ==> o.result.value == k && |o.doc| + k == |xs|
    ensures o.result.Err? ==> o.result.error == ValueError && |o.doc| <= |xs|
    decreases k
  {
    if k == 0 then Outcome(xs, Ok(0))
    else
      var i := k - 1;
      var idel := if i >= 1 then ms[i - 1] else ms[|ms| - 1];
      match RemoveFirst(xs, idel)
      case Err(e) => Outcome(xs, Err(e))
      case Ok(ys) =>
        var o := RemoveListed(ys, ms, k - 1);
        Outcome(o.doc, if o.result.Ok? then Ok(k) else o.result)
  }

  /** `removeDocs(filters=..., qty=...)` on the document itself
      (jdocument.py:854-871): `findDocs(filters, qty)` picks the documents,
      which are then removed one by one. */
  function RemoveMatching(d: Document, f: Filters, qty: Option<int>): (o: Outcome<Document, nat>)
    ensures !d.Arr? ==> o == Outcome(d, Err(ShapeError))
    ensures d.Arr? ==> o.doc.Arr? && |o.doc.items| <= |d.items|
    ensures d.Arr? && o.result.Ok? ==> |o.doc.items| + o.result.value == |d.items|
    ensures d.Arr? && FindDocs(d, f, qty, Plain).Err? ==> o == Outcome(d, Err(FindDocs(d, f, qty, Plain).error))
  {
    if !d.Arr? then Outcome(d, Err(ShapeError))
    else
      match FindDocs(d, f, qty, Plain)
      case Err(e) => Outcome(d, Err(e))
      case Ok(None) => Outcome(d, Ok(0))
      case Ok(Some(ms)) =>
        var o := RemoveListed(d.items, ms, |ms|);
        Outcome(Arr(o.doc), if o.result.Ok? then Ok(|ms|) else Err(o.result.error))
  }

  // ---------------------------------------------------------------- removeDocs

  /** `if filters:` — a filter dict or list counts only when it is not empty;
      `None` is written `Dict([])`. */
  predicate Given(f: Filters)
  {
    match f
    case Dict(cs) => |cs| > 0
    case Groups(gs) => |gs| > 0
  }

  /** The names `removeDocs(array=...)` is modelled for: a path of plain keys
      on an object document; on a list document, a name `get` broadcasts. */
  predicate Addressable(d: Document, name: string)
  {
    if d.Obj? then PlainPath(Split(name, '.'))
    else '[' !in name && !StartsWith(name, ArrayWord)
  }

  /** Storing `nv` where a path of plain keys leads: the effect of changing,
      in place, the list `get` returned for that path. A path that leads
      nowhere changes nothing. */
  function UpdateAt(v: Value, keys: seq<string>, nv: Value): (r: Value)
    ensures PathLookup(v, keys).Some? ==> PathLookup(r, keys) == Some(nv)
    ensures PathLookup(v, keys).None? ==> r == v
    ensures |keys| > 0 && v.Obj? ==> r.Obj?
    decreases |keys|
  {
    if |keys| == 0 then nv
    else if v.Obj? && Lookup(v.fields, keys[0]).Some? then
      PutSame(v.fields, keys[0]);
      Obj(Put(v.fields, keys[0], UpdateAt(Lookup(v.fields, keys[0]).value, keys[1..], nv)))
    else v
  }

  /** The stored document after the list `get(name)` returned became `nv`. */
  function WriteBack(d: Document, name: string, nv: Value): (r: Document)
    ensures d.Arr? ==> r == d
  {
    if d.Obj? then UpdateAt(d, Split(name, '.'), nv) else d
  }

  /** `removeDocs(array, index, filters, qty)` (jdocument.py:800-886). With
      `asWritten` the named-list branch tests `elif index:` as the source
      does, so index 0 falls through to clearing the whole list; without it
      the test is `index is not None`, as for the document itself. */
  function RemoveDocsWith(d: Document, name: string, index: Option<int>, f: Filters, qty: Option<int>, asWritten: bool): (o: Outcome<Document, nat>)
    requires name != "" ==> Addressable(d, name)
    ensures name == "" && index.Some? ==> o == RemoveAt(d, index.value)
    ensures name == "" && index.None? ==> o == (if Given(f) then RemoveMatching(d, f, qty) else ClearAll(d))
    ensures d.Arr? ==> o.doc.Arr?
  {
    if name != "" then
      var indexed := if asWritten then index.Some? && index.value != 0 else index.Some?;
      if Given(f) || indexed then
        match Get(d, name, Null, false, false)
        case Err(e) => Outcome(d, Err(e))
        case Ok(Raw(_)) => Outcome(d, Err(AttributeError))
        case Ok(Doc(lst)) =>
          var inner := if Given(f) then RemoveMatching(lst, f, qty) else RemoveAt(lst, index.value);
          Outcome(WriteBack(d, name, inner.doc), inner.result)
      else
        match ValueOf(d, name, Null, false)
        case Err(e) => Outcome(d, Err(e))
        case Ok(Arr(ys)) => Outcome(WriteBack(d, name, Arr([])), Ok(|ys|))
        case Ok(_) => Outcome(d, Err(TypeError))
    else if index.Some? then RemoveAt(d, index.value)
    else if Given(f) then RemoveMatching(d, f, qty)
    else ClearAll(d)
  }

  function RemoveDocsAsWritten(d: Document, name: string, index: Option<int>, f: Filters, qty: Option<int>): Outcome<Document, nat>
    requires name != "" ==> Addressable(d, name)
  {
    RemoveDocsWith(d, name, index, f, qty, true)
  }

  function RemoveDocs(d: Document, name: string, index: Option<int>, f: Filters, qty: Option<int>): Outcome<Document, nat>
    requires name != "" ==> Addressable(d, name)
  {
    RemoveDocsWith(d, name, index, f, qty, false)
  }

  /** `removeOneDoc(filters)` (jdocument.py:784-798) is `removeDocs(filters=filters, qty=1)`. */
  function RemoveOneDoc(d: Document, f: Filters): Outcome<Document, nat>
  {
    RemoveDocs(d, "", None, f, Some(1))
  }

  // ---------------------------------------------------------------- properties

  /** `qty` only matters when negative: `removeOneDoc` removes every match,
      not one, because the counter stops at 0 and 0 means "no limit". */
  lemma RemoveOneDocRemovesAll(d: Document, f: Filters)
    ensures RemoveOneDoc(d, f) == RemoveDocs(d, "", None, f, None)
  {
    if d.Arr? {
      ScanQty(d.items, GroupsOf(f), 1, Plain);
    }
  }

  /** `addDoc` of a dict and then `removeDocs(index=-1)` restores the list. */
  lemma AddThenRemoveLast(d: Document, x: Value)
    requires d.Arr? && x.Obj?
    ensures AddDoc(d, Raw(x)).result == Ok(Doc(x))
    ensures RemoveDocs(AddDoc(d, Raw(x)).doc, "", Some(-1), Dict([]), None) == Outcome(d, Ok(1))
  {
    var a := AddDoc(d, Raw(x)).doc;
    assert Position(|a.items|, -1) == |d.items|;
    assert a.items[..|d.items|] + a.items[|d.items| + 1..] == d.items;
  }

  /** Clearing leaves an empty list: a following search finds nothing. */
  lemma ClearThenFind(d: Document, f: Filters)
    requires d.Arr?
    ensures var o := RemoveDocs(d, "", None, Dict([]), None);
      o.result == Ok(|d.items|) && FindDocs(o.doc, f, None, Plain) == Ok(None)
  {
  }

  /** A named list on an object document: `removeDocs(array=name, ...)` with
      filters or an index does to the stored list exactly what the same call
      without `array` does to that list as a document. */
  lemma NamedListDelegates(d: Document, keys: seq<string>, ys: seq<Value>, index: Option<int>, f: Filters, qty: Option<int>, asWritten: bool)
    requires d.Obj? && PlainPath(keys) && PathLookup(d, keys) == Some(Arr(ys))
    requires |ys| > 0 && ys[0].Obj?
    requires Given(f) || index.Some?
    requires asWritten && !Given(f) ==> index != Some(0)
    ensures Addressable(d, Join(keys, '.'))
    ensures var inner := RemoveDocs(Arr(ys), "", if Given(f) then None else index, f, qty);
      RemoveDocsWith(d, Join(keys, '.'), index, f, qty, asWritten) == Outcome(UpdateAt(d, keys, inner.doc), inner.result)
  {
    NamedListRemoves(d, keys, ys, index, f, qty);
    if asWritten {
      AsWrittenAgrees(d, Join(keys, '.'), index, f, qty);
    }
  }

  /** The named-list delegation with the index tested against `None`. */
  lemma NamedListRemoves(d: Document, keys: seq<string>, ys: seq<Value>, index: Option<int>, f: Filters, qty: Option<int>)
    requires d.Obj? && PlainPath(keys) && PathLookup(d, keys) == Some(Arr(ys))
    requires |ys| > 0 && ys[0].Obj?
    requires Given(f) || index.Some?
    ensures Addressable(d, Join(keys, '.'))
    ensures var inner := RemoveDocs(Arr(ys), "", if Given(f) then None else index, f, qty);
      RemoveDocs(d, Join(keys, '.'), index, f, qty) == Outcome(UpdateAt(d, keys, inner.doc), inner.result)
  {
    PathKeys(keys);
    ValueOfPlainPath(d, keys, Null, false);
  }

  /** A named list with neither filters nor an index is emptied; its old
      length is the count. A name that does not lead to a list raises
      `TypeError` (`len(None)`, or `del` on a slice of a non-list). */
  lemma NamedListCleared(d: Document, keys: seq<string>, qty: Option<int>, asWritten: bool)
    requires d.Obj? && PlainPath(keys)
    ensures Addressable(d, Join(keys, '.'))
    ensures var o := RemoveDocsWith(d, Join(keys, '.'), None, Dict([]), qty, asWritten);
      match PathLookup(d, keys)
      case Some(Arr(ys)) => o == Outcome(UpdateAt(d, keys, Arr([])), Ok(|ys|))
      case _ => o == Outcome(d, Err(TypeError))
  {
    PathKeys(keys);
    ValueOfPlainPath(d, keys, Null, false);
  }

  /** The library's `elif index:` and the `is not None` test differ only on
      index 0 without filters: every other call removes the same items. */
  lemma AsWrittenAgrees(d: Document, name: string, index: Option<int>, f: Filters, qty: Option<int>)
    requires name != "" ==> Addressable(d, name)
    requires index != Some(0) || Given(f)
    ensures RemoveDocsAsWritten(d, name, index, f, qty) == RemoveDocs(d, name, index, f, qty)
  {
  }

  /** The facts about a plain path the two lemmas above share. */
  lemma PathKeys(keys: seq<string>)
    requires PlainPath(keys)
    ensures Join(keys, '.') != "" && Split(Join(keys, '.'), '.') == keys
  {
    JoinSplit(keys, '.');
    if |keys| > 1 {
      assert Join(keys, '.')[0] == keys[0][0];
    } else {
      assert Join(keys, '.') == keys[0];
    }
  }

  /** The source's `elif index:` treats index 0 as "no index": on a named list
      it empties the list and reports its length instead of removing the first
      item. */
  lemma IndexZeroAsWritten(k: string, ys: seq<Value>)
    requires k != "" && '.' !in k && '[' !in k
    requires |ys| > 0 && ys[0].Obj?
    ensures Addressable(Obj([Member(k, Arr(ys))]), k)
    ensures RemoveDocsAsWritten(Obj([Member(k, Arr(ys))]), k, Some(0), Dict([]), None) ==
            Outcome(Obj([Member(k, Arr([]))]), Ok(|ys|))
  {
    var d: Document := Obj([Member(k, Arr(ys))]);
    SplitNoSep(k, '.');
    assert ValueOf(d, k, Null, false) == Ok(Arr(ys));
    assert [k][1..] == [];
    assert UpdateAt(d, [k], Arr([])) == Obj([Member(k, Arr([]))]);
  }

  /** With the index tested against `None`, index 0 on a named list removes
      the first item only. */
  lemma IndexZeroCorrected(k: string, ys: seq<Value>)
    requires k != "" && '.' !in k && '[' !in k
    requires |ys| > 0 && ys[0].Obj?
    ensures Addressable(Obj([Member(k, Arr(ys))]), k)
    ensures RemoveDocs(Obj([Member(k, Arr(ys))]), k, Some(0), Dict([]), None) ==
            Outcome(Obj([Member(k, Arr(ys[1..]))]), Ok(1))
  {
    var d: Document := Obj([Member(k, Arr(ys))]);
    SplitNoSep(k, '.');
    assert Get(d, k, Null, false, false) == Ok(Doc(Arr(ys)));
    assert ys[..0] + ys[1..] == ys[1..];
    assert RemoveAt(Arr(ys), 0) == Outcome(Arr(ys[1..]), Ok(1));
    assert [k][1..] == [];
    assert UpdateAt(d, [k], Arr(ys[1..])) == Obj([Member(k, Arr(ys[1..]))]);
  }
}

=== FILE: collectionfacts.dfy ===
/** What `removeDocs(filters=...)` promises about a list whose items are
    pairwise different: exactly the matching documents go, the others stay
    in order, and a second search with the same filters finds nothing. */
module CollectionFacts {
  import opened Outcomes
  import opened Json
  import opened PyValues
  import opened Documents
  import opened Resolver
  import opened FilterFacts
  import opened Collection

  /** No two positions of the list hold items equal under Python's `==`. */
  predicate Distinct(xs: seq<Value>)
  {
    forall i, j :: 0 <= i < |xs| && 0 <= j < |xs| && i != j ==> !PyEq(xs[i], xs[j])
  }

  predicate AllWellFormed(xs: seq<Value>)
  {
    forall i :: 0 <= i < |xs| ==> WellFormed(xs[i])
  }

  /** No value occurs twice in the sequence. */
  predicate NoRepeats(ms: seq<Value>)
  {
    forall i, j :: 0 <= i < j < |ms| ==> ms[i] != ms[j]
  }

  /** The items of `xs` that are not among `rs`, in order. */
  function Without(xs: seq<Value>, rs: seq<Value>): (r: seq<Value>)
    ensures forall x :: x in r <==> x in xs && x !in rs
    ensures |r| <= |xs|
  {
    if |xs| == 0 then [] else (if xs[0] in rs then [] else [xs[0]]) + Without(xs[1..], rs)
  }

  /** Reference definition: the items of `xs` that do not pass the filter. */
  function Unmatched(xs: seq<Value>, f: Filters): (r: seq<Value>)
    ensures forall x :: x in r ==> x in xs && MatchDoc(x, Conditions(GroupsOf(f)), Plain) != Ok(true)
  {
    if |xs| == 0 then []
    else
      (if MatchDoc(xs[0], Conditions(GroupsOf(f)), Plain) == Ok(true) then [] else [xs[0]]) +
      Unmatched(xs[1..], f)
  }

  /** The matches the loop has removed while `k` iterations are left. */
  function Removed(ms: seq<Value>, k: nat): seq<Value>
    requires 0 < |ms| && k <= |ms|
  {
    if k == 0 then ms else ms[k - 1..|ms| - 1]
  }

  lemma {:induction false} SubseqIn(ms: seq<Value>, xs: seq<Value>)
    requires IsSubseq(ms, xs)
    ensures forall x :: x in ms ==> x in xs
    decreases |xs|
  {
    if |ms| > 0 {
      if ms[0] == xs[0] && IsSubseq(ms[1..], xs[1..]) {
        SubseqIn(ms[1..], xs[1..]);
        assert ms == [ms[0]] + ms[1..];
      } else {
        SubseqIn(ms, xs[1..]);
      }
    }
  }

  lemma DistinctTail(xs: seq<Value>)
    requires |xs| > 0 && Distinct(xs) && AllWellFormed(xs)
    ensures Distinct(xs[1..]) && AllWellFormed(xs[1..])
    ensures xs[0] !in xs[1..]
  {
    PyEqRefl(xs[0]);
    forall j | 0 <= j < |xs[1..]|
      ensures xs[1..][j] != xs[0]
    {
      assert xs[1..][j] == xs[j + 1];
    }
    forall i, j | 0 <= i < |xs[1..]| && 0 <= j < |xs[1..]| && i != j
      ensures !PyEq(xs[1..][i], xs[1..][j])
    {
      assert xs[1..][i] == xs[i + 1] && xs[1..][j] == xs[j + 1];
    }
  }

  /** A subsequence of a list of different items repeats no value. */
  lemma {:induction false} SubseqNoRepeats(ms: seq<Value>, xs: seq<Value>)
    requires IsSubseq(ms, xs) && Distinct(xs) && AllWellFormed(xs)
    ensures NoRepeats(ms)
    decreases |xs|
  {
    if |ms| > 0 {
      DistinctTail(xs);
      if ms[0] == xs[0] && IsSubseq(ms[1..], xs[1..]) {
        SubseqNoRepeats(ms[1..], xs[1..]);
        SubseqIn(ms[1..], xs[1..]);
        forall i, j | 0 <= i < j < |ms|
          ensures ms[i] != ms[j]
        {
          assert ms[j] == ms[1..][j - 1];
          if i > 0 {
            assert ms[i] == ms[1..][i - 1];
          }
        }
      } else {
        SubseqNoRepeats(ms, xs[1..]);
      }
    }
  }

  lemma {:induction false} WithoutAbsent(ys: seq<Value>, rs: seq<Value>, m: Value)
    requires m !in ys
    ensures Without(ys, rs + [m]) == Without(ys, rs)
    decreases |ys|
  {
    if |ys| > 0 {
      WithoutAbsent(ys[1..], rs, m);
    }
  }

  lemma {:induction false} WithoutSame(xs: seq<Value>, a: seq<Value>, b: seq<Value>)
    requires forall x :: x in a <==> x in b
    ensures Without(xs, a) == Without(xs, b)
    decreases |xs|
  {
    if |xs| > 0 {
      WithoutSame(xs[1..], a, b);
    }
  }

  lemma {:induction false} WithoutNothing(xs: seq<Value>)
    ensures Without(xs, []) == xs
    decreases |xs|
  {
    if |xs| > 0 {
      WithoutNothing(xs[1..]);
    }
  }

  /** `list.remove(m)` on what is left takes out exactly `m`. */
  lemma {:induction false} RemoveFirstWithout(xs: seq<Value>, rs: seq<Value>, m: Value)
    requires Distinct(xs) && AllWellFormed(xs)
    requires m in xs && m !in rs
    ensures RemoveFirst(Without(xs, rs), m) == Ok(Without(xs, rs + [m]))
    decreases |xs|
  {
    DistinctTail(xs);
    var w1 := Without(xs[1..], rs);
    if xs[0] == m {
      assert Without(xs, rs) == [m] + w1;
      assert ([m] + w1)[1..] == w1;
      assert Without(xs, rs + [m]) == Without(xs[1..], rs + [m]);
      WithoutAbsent(xs[1..], rs, m);
    } else {
      RemoveFirstWithout(xs[1..], rs, m);
      if xs[0] !in rs {
        var j :| 0 <= j < |xs| && xs[j] == m;
        assert !PyEq(xs[0], xs[j]);
        assert Without(xs, rs) == [xs[0]] + w1;
        assert ([xs[0]] + w1)[1..] == w1;
        assert Without(xs, rs + [m]) == [xs[0]] + Without(xs[1..], rs + [m]);
      } else {
        assert Without(xs, rs) == w1;
        assert Without(xs, rs + [m]) == Without(xs[1..], rs + [m]);
      }
    }
  }

  /** The match the loop removes when `k` iterations are left. */
  function Victim(ms: seq<Value>, k: nat): Value
    requires 0 < k <= |ms|
  {
    if k - 1 >= 1 then ms[k - 2] else ms[|ms| - 1]
  }

  /** Each iteration removes a match not removed before, and adds it to the
      removed ones. */
  lemma RemovedStep(ms: seq<Value>, k: nat)
    requires 0 < k <= |ms| && NoRepeats(ms)
    ensures Victim(ms, k) !in Removed(ms, k)
    ensures forall x :: x in Removed(ms, k) + [Victim(ms, k)] <==> x in Removed(ms, k - 1)
  {
    if k >= 2 {
      RemovedStepLater(ms, k);
    } else {
      RemovedStepLast(ms);
    }
  }

  lemma RemovedStepLater(ms: seq<Value>, k: nat)
    requires 2 <= k <= |ms| && NoRepeats(ms)
    ensures ms[k - 2] !in ms[k - 1..|ms| - 1]
    ensures ms[k - 2..|ms| - 1] == [ms[k - 2]] + ms[k - 1..|ms| - 1]
  {
    forall j | k - 1 <= j < |ms| - 1
      ensures ms[j] != ms[k - 2]
    {
    }
  }

  lemma RemovedStepLast(ms: seq<Value>)
    requires 0 < |ms| && NoRepeats(ms)
    ensures ms[|ms| - 1] !in ms[0..|ms| - 1]
    ensures ms == ms[0..|ms| - 1] + [ms[|ms| - 1]]
  {
    forall j | 0 <= j < |ms| - 1
      ensures ms[j] != ms[|ms| - 1]
    {
    }
  }

  /** The loop invariant of the removal: with `k` iterations left, the list
      is the original without the matches removed so far. */
  lemma {:induction false} RemoveListedKeeps(xs: seq<Value>, ms: seq<Value>, k: nat)
    requires Distinct(xs) && AllWellFormed(xs)
    requires 0 < |ms| && k <= |ms| && NoRepeats(ms) && forall m :: m in ms ==> m in xs
    ensures RemoveListed(Without(xs, Removed(ms, k)), ms, k) == Outcome(Without(xs, ms), Ok(k))
    decreases k
  {
    if k > 0 {
      var before := Removed(ms, k);
      var idel := Victim(ms, k);
      RemovedStep(ms, k);
      RemoveFirstWithout(xs, before, idel);
      WithoutSame(xs, before + [idel], Removed(ms, k - 1));
      RemoveListedKeeps(xs, ms, k - 1);
      assert RemoveFirst(Without(xs, before), idel) == Ok(Without(xs, Removed(ms, k - 1)));
    }
  }

  lemma {:induction false} WithoutMatches(xs: seq<Value>, ms: seq<Value>, f: Filters)
    requires forall i :: 0 <= i < |xs| ==> (xs[i] in ms <==> MatchDoc(xs[i], Conditions(GroupsOf(f)), Plain) == Ok(true))
    ensures Without(xs, ms) == Unmatched(xs, f)
    decreases |xs|
  {
    if |xs| > 0 {
      assert forall i :: 0 <= i < |xs[1..]| ==> xs[1..][i] == xs[i + 1];
      WithoutMatches(xs[1..], ms, f);
    }
  }

  lemma {:induction false} ScanNothing(xs: seq<Value>, groups: seq<seq<Member>>)
    requires forall x :: x in xs ==> MatchDoc(x, Conditions(groups), Plain) == Ok(false)
    ensures Scan(xs, groups, None, Plain) == Ok([])
    decreases |xs|
  {
    if |xs| > 0 {
      ScanNothing(xs[1..], groups);
    }
  }

  /** The removal proper: the matches `findDocs` lists all go, the rest stay. */
  lemma MatchingRemoved(d: Document, f: Filters, qty: Option<int>)
    requires d.Arr? && (qty.None? || qty.value >= 0)
    requires Distinct(d.items) && AllWellFormed(d.items)
    requires FindDocs(d, f, qty, Plain).Ok?
    ensures RemoveMatching(d, f, qty) == Outcome(Arr(Unmatched(d.items, f)), Ok(|d.items| - |Unmatched(d.items, f)|))
  {
    var xs := d.items;
    var scan := FindDocsScan(d, f, qty);
    ScanSpec(xs, GroupsOf(f), Plain);
    RemoveScanned(xs, scan, f);
  }

  /** A counter that is not negative does not limit the matches. */
  lemma FindDocsScan(d: Document, f: Filters, qty: Option<int>) returns (scan: seq<Value>)
    requires d.Arr? && (qty.None? || qty.value >= 0)
    requires FindDocs(d, f, qty, Plain).Ok?
    ensures Scan(d.items, GroupsOf(f), None, Plain) == Ok(scan)
    ensures FindDocs(d, f, qty, Plain) == if |scan| == 0 then Ok(None) else Ok(Some(scan))
  {
    if qty.Some? {
      ScanQty(d.items, GroupsOf(f), qty.value, Plain);
    }
    scan := Scan(d.items, GroupsOf(f), None, Plain).value;
  }

  /** Removing what the scan found leaves exactly the unmatched items. */
  lemma RemoveScanned(xs: seq<Value>, scan: seq<Value>, f: Filters)
    requires Distinct(xs) && AllWellFormed(xs) && IsSubseq(scan, xs)
    requires forall x :: x in scan ==> MatchDoc(x, Conditions(GroupsOf(f)), Plain) == Ok(true)
    requires forall i :: 0 <= i < |xs| && MatchDoc(xs[i], Conditions(GroupsOf(f)), Plain) == Ok(true) ==> xs[i] in scan
    ensures |scan| == 0 ==> Unmatched(xs, f) == xs
    ensures |scan| > 0 ==> RemoveListed(xs, scan, |scan|) == Outcome(Unmatched(xs, f), Ok(|scan|))
  {
    WithoutMatches(xs, scan, f);
    WithoutNothing(xs);
    if |scan| > 0 {
      SubseqNoRepeats(scan, xs);
      SubseqIn(scan, xs);
      assert Removed(scan, |scan|) == [];
      RemoveListedKeeps(xs, scan, |scan|);
    }
  }

  /** Once the matches are gone, the same search finds nothing. */
  lemma NothingLeft(d: Document, f: Filters, qty: Option<int>)
    requires d.Arr? && (qty.None? || qty.value >= 0)
    requires FindDocs(d, f, qty, Plain).Ok?
    ensures FindDocs(Arr(Unmatched(d.items, f)), f, None, Plain) == Ok(None)
  {
    var xs := d.items;
    var groups := GroupsOf(f);
    if qty.Some? {
      ScanQty(xs, groups, qty.value, Plain);
    }
    assert Scan(xs, groups, None, Plain).Ok?;
    ScanOkAll(xs, groups, Plain);
    var u := Unmatched(xs, f);
    forall x | x in u
      ensures MatchDoc(x, Conditions(groups), Plain) == Ok(false)
    {
      var i :| 0 <= i < |xs| && xs[i] == x;
      assert MatchDoc(xs[i], Conditions(groups), Plain).Ok?;
      assert MatchDoc(x, Conditions(groups), Plain) != Ok(true);
      assert MatchDoc(x, Conditions(groups), Plain).value == false;
    }
    ScanNothing(u, groups);
  }

  /** `removeDocs(filters=f, qty=n)` on a list of pairwise different items,
      with `n` absent or not negative and no filter test raising: the list
      keeps exactly the items that fail the filter, in their order; the count
      is the number removed; and `findDocs(f)` afterwards finds nothing. */
  lemma RemoveDocsThenFind(d: Document, f: Filters, qty: Option<int>)
    requires d.Arr? && Given(f) && (qty.None? || qty.value >= 0)
    requires Distinct(d.items) && AllWellFormed(d.items)
    requires FindDocs(d, f, qty, Plain).Ok?
    ensures var o := RemoveDocs(d, "", None, f, qty);
      o.result.Ok? && o.doc == Arr(Unmatched(d.items, f)) &&
      o.result.value == |d.items| - |Unmatched(d.items, f)| &&
      FindDocs(o.doc, f, None, Plain) == Ok(None)
  {
    MatchingRemoved(d, f, qty);
    NothingLeft(d, f, qty);
  }
}

=== FILE: documents.dfy ===
/** The `jDocument` wrapper as the rest of the library sees it: which values
    `get` hands back wrapped, what `jDocument(x)` accepts, `__len__`,
    `__bool__`, and how a wrapper behaves under `==`, `<`, `str()` and `in`. */
module Documents {
  import opened Outcomes
  import opened Text
  import opened Json
  import opened PyValues

  /** What `get` returns: a raw Python value, or a `jDocument` around an
      object or a list. */
  datatype Fetched = Raw(v: Value) | Doc(d: Document)

  /** The two services the library obtains from code outside this model:
      `re.search(pattern, text, re.IGNORECASE)` and the JSON text
      `getJson()` produces. */
  datatype Host = Host(search: (string, string) -> bool, dump: Value -> string)

  function Unwrap(f: Fetched): Value
  {
    match f
    case Raw(v) => v
    case Doc(d) => d
  }

  /** `get`'s wrapping rule (jdocument.py:586-601): a dict, or a non-empty
      list whose first item is a dict, comes back as a `jDocument`; an empty
      list only when `flagReturnEmptyListAsDoc` is set. */
  function Wrap(v: Value, emptyListAsDoc: bool): (r: Fetched)
    ensures Unwrap(r) == v
  {
    match v
    case Obj(_) => Doc(v)
    case Arr(xs) =>
      if |xs| > 0 && xs[0].Obj? then Doc(v)
      else if |xs| == 0 && emptyListAsDoc then Doc(v)
      else Raw(v)
    case _ => Raw(v)
  }

  /** A value that `get` hands back wrapped when the empty-list flag is off. */
  predicate IsDocShaped(v: Value)
  {
    v.Obj? || (v.Arr? && |v.items| > 0 && v.items[0].Obj?)
  }

  lemma WrapShape(v: Value)
    ensures Wrap(v, false).Doc? <==> IsDocShaped(v)
    ensures Wrap(v, true).Doc? <==> (IsDocShaped(v) || v == Arr([]))
  {
  }

  /** `jDocument(x)`: a dict or list is wrapped as is and `None` becomes an
      empty object; any other value is handed to the JSON parser, which is
      not part of this model and is reported as `CodecInput`. */
  function AsDocument(v: Value): (r: Result<Document>)
    ensures r.Ok? ==> Size(r.value) <= Size(v)
    ensures r.Ok? <==> (v.Obj? || v.Arr? || v.Null?)
    ensures (v.Obj? || v.Arr?) ==> r == Ok(v)
    ensures v.Null? ==> r == Ok(Obj([]))
  {
    match v
    case Obj(_) => Ok(v)
    case Arr(_) => Ok(v)
    case Null => Ok(Obj([]))
    case _ => Err(CodecInput)
  }

  /** `len(jDoc)` (jdocument.py:196-200): the number of items of a list
      document; an object document has length 0. */
  function Len(d: Document): (n: nat)
    ensures d.Arr? ==> n == |d.items|
    ensures d.Obj? ==> n == 0
  {
    if d.Arr? then |d.items| else 0
  }

  /** `bool(jDoc)` (jdocument.py:167-168): a non-empty object or list. */
  function Bool(d: Document): (b: bool)
    ensures b <==> Truthy(d)
  {
    match d
    case Obj(fs) => |fs| > 0
    case Arr(xs) => |xs| > 0
  }

  /** A list document is true exactly when it has a positive length; an
      object document is true while having length 0, as soon as it has a key. */
  lemma LenBool(d: Document)
    ensures d.Arr? ==> (Bool(d) <==> Len(d) > 0)
    ensures d.Obj? ==> Len(d) == 0 && (Bool(d) <==> |d.fields| > 0)
  {
  }

  /** Truthiness of whatever `get` returned, wrapped or not. */
  predicate FTruthy(f: Fetched)
  {
    match f
    case Raw(v) => Truthy(v)
    case Doc(d) => Bool(d)
  }

  lemma FTruthyUnwrap(f: Fetched)
    ensures FTruthy(f) <==> Truthy(Unwrap(f))
  {
  }

  /** `a == b` when either side may be a `jDocument`: two wrappers are equal
      when their JSON texts are (modelled as equal data), and a wrapper is
      never equal to a raw value. */
  predicate FEq(a: Fetched, b: Fetched)
  {
    match (a, b)
    case (Raw(x), Raw(y)) => PyEq(x, y)
    case (Doc(x), Doc(y)) => x == y
    case _ => false
  }

  /** `jDocument` defines no ordering: comparing one raises `TypeError`. */
  function FCmp(a: Fetched, b: Fetched, op: CmpOp): (r: Result<bool>)
    ensures (a.Doc? || b.Doc?) ==> r == Err(TypeError)
    ensures a.Raw? && b.Raw? ==> r == PyCmp(a.v, b.v, op)
  {
    match (a, b)
    case (Raw(x), Raw(y)) => PyCmp(x, y, op)
    case _ => Err(TypeError)
  }

  /** `str(x)`; a wrapper prints through its `__repr__` (jdocument.py:184-188). */
  function FStr(f: Fetched): string
  {
    match f
    case Raw(v) => StrOf(v)
    case Doc(Obj(fs)) => "jDocument<Object> : " + Repr(Obj(fs))
    case Doc(Arr(xs)) => "jDocument<Array> : " + IntToString(|xs|) + " elements"
  }

  /** Python `x in c`. A string holds substrings of itself and needs a string
      on the left; a list holds the items equal to `x`; a dict, raw or
      wrapped, holds its keys (a list or dict on the left is unhashable); a
      list document raises because its `__contains__` calls `.values()` on a
      list (jdocument.py:219-220); numbers, booleans and `None` hold nothing
      and raise. */
  function PyIn(x: Fetched, c: Fetched): (r: Result<bool>)
    ensures c.Raw? && c.v.Str? ==>
      r == (if x.Raw? && x.v.Str? then Ok(Contains(c.v.s, x.v.s)) else Err(TypeError))
    ensures c.Raw? && c.v.Arr? ==> r == Ok(exists i :: 0 <= i < |c.v.items| && FEq(Raw(c.v.items[i]), x))
    ensures x.Raw? && x.v.Str? && Unwrap(c).Obj? ==> r == Ok(x.v.s in Keys(Unwrap(c).fields))
    ensures c.Doc? && c.d.Arr? ==> r == Err(AttributeError)
  {
    match c
    case Raw(Str(s)) => if x.Raw? && x.v.Str? then Ok(Contains(s, x.v.s)) else Err(TypeError)
    case Raw(Arr(xs)) => Ok(exists i :: 0 <= i < |xs| && FEq(Raw(xs[i]), x))
    case Raw(Obj(fs)) => InKeys(x, fs)
    case Doc(Obj(fs)) => InKeys(x, fs)
    case Doc(Arr(_)) => Err(AttributeError)
    case Raw(_) => Err(TypeError)
  }

  /** `x in d.keys()`: keys are strings, so only a string can be found. */
  function InKeys(x: Fetched, fs: seq<Member>): Result<bool>
  {
    match x
    case Raw(Str(s)) => Ok(s in Keys(fs))
    case Raw(Arr(_)) => Err(TypeError)
    case Raw(Obj(_)) => Err(TypeError)
    case _ => Ok(false)
  }
}

=== FILE: filterfacts.dfy ===
/** What `findDocs`/`findOneDoc` promise (jdocument.py:888-1027): every
    condition of every group is ANDed, the result keeps the list order, the
    `qty` argument never shortens the result (only a negative one empties it),
    and an object document is refused. */
module FilterFacts {
  import opened Outcomes
  import opened Json
  import opened Documents
  import opened Resolver

  /** `ms` is `items` with some items left out, order kept. */
  predicate IsSubseq(ms: seq<Value>, items: seq<Value>)
  {
    |ms| == 0 ||
    (|items| > 0 && ((ms[0] == items[0] && IsSubseq(ms[1..], items[1..])) || IsSubseq(ms, items[1..])))
  }

  /** The counter only ever rejects when it starts negative: a counter of 0
      or more gives the same scan as no counter at all, because it stops
      at 0, which Python reads as "no limit" (jdocument.py:947, 981). */
  lemma {:induction false} ScanQty(items: seq<Value>, groups: seq<seq<Member>>, n: int, mode: Mode)
    ensures n >= 0 ==> Scan(items, groups, Some(n), mode) == Scan(items, groups, None, mode)
    ensures n < 0 ==> Scan(items, groups, Some(n), mode) == Ok([])
    decreases |items|
  {
    if |items| > 0 {
      ScanQty(items[1..], groups, n, mode);
      if n > 0 {
        ScanQty(items[1..], groups, n - 1, mode);
      }
    }
  }

  /** A document passes the conditions exactly when it passes each one alone. */
  lemma {:induction false} MatchDocAnd(x: Value, conds: seq<Member>, mode: Mode)
    ensures MatchDoc(x, conds, mode) == Ok(true) <==>
            forall c :: c in conds ==> MatchDoc(x, [c], mode) == Ok(true)
    decreases |conds|
  {
    if |conds| > 0 {
      MatchDocAnd(x, conds[1..], mode);
      MatchDocCons(x, conds, mode);
      assert conds == [conds[0]] + conds[1..];
    }
  }

  /** The first condition and the rest must both pass. */
  lemma MatchDocCons(x: Value, conds: seq<Member>, mode: Mode)
    requires |conds| > 0
    ensures MatchDoc(x, conds, mode) == Ok(true) <==>
            MatchDoc(x, [conds[0]], mode) == Ok(true) && MatchDoc(x, conds[1..], mode) == Ok(true)
  {
    assert [conds[0]][1..] == [];
  }

  /** With no counter, the scan keeps exactly the passing documents, in order. */
  lemma {:induction false} ScanSpec(items: seq<Value>, groups: seq<seq<Member>>, mode: Mode)
    ensures var r := Scan(items, groups, None, mode);
      (r.Ok? ==> IsSubseq(r.value, items)) &&
      (r.Ok? ==> forall x :: x in r.value ==> MatchDoc(x, Conditions(groups), mode) == Ok(true)) &&
      (r.Ok? ==> forall i :: 0 <= i < |items| && MatchDoc(items[i], Conditions(groups), mode) == Ok(true) ==> items[i] in r.value) &&
      ((forall i :: 0 <= i < |items| ==> MatchDoc(items[i], Conditions(groups), mode).Ok?) ==> r.Ok?)
    decreases |items|
  {
    if |items| > 0 {
      ScanSpec(items[1..], groups, mode);
      var r := Scan(items, groups, None, mode);
      if r.Ok? {
        forall i | 0 <= i < |items| && MatchDoc(items[i], Conditions(groups), mode) == Ok(true)
          ensures items[i] in r.value
        {
          if i > 0 {
            assert items[1..][i - 1] == items[i];
          }
        }
      }
      if forall i :: 0 <= i < |items| ==> MatchDoc(items[i], Conditions(groups), mode).Ok? {
        assert forall i :: 0 <= i < |items[1..]| ==> items[1..][i] == items[i + 1];
      }
    }
  }

  /** A scan that completes has evaluated every item without an exception. */
  lemma {:induction false} ScanOkAll(items: seq<Value>, groups: seq<seq<Member>>, mode: Mode)
    requires Scan(items, groups, None, mode).Ok?
    ensures forall i :: 0 <= i < |items| ==> MatchDoc(items[i], Conditions(groups), mode).Ok?
    decreases |items|
  {
    if |items| > 0 {
      ScanOkAll(items[1..], groups, mode);
      forall i | 0 < i < |items|
        ensures items[i] == items[1..][i - 1]
      {
      }
    }
  }

  /** `findDocs` on a list document with `qty` absent or not negative: the
      result lists the items that meet every condition of every group, in
      their order; an empty result is `None`; nothing raises unless a single
      document's test raises. */
  lemma FindDocsAll(d: Document, f: Filters, qty: Option<int>, mode: Mode)
    requires d.Arr? && (qty.None? || qty.value >= 0)
    ensures var r := FindDocs(d, f, qty, mode);
      var cs := Conditions(GroupsOf(f));
      (r.Ok? && r.value.Some? ==> IsSubseq(r.value.value, d.items)) &&
      (r.Ok? && r.value.Some? ==> forall x, c :: x in r.value.value && c in cs ==> MatchDoc(x, [c], mode) == Ok(true)) &&
      (r.Ok? ==> forall i :: 0 <= i < |d.items| && (forall c :: c in cs ==> MatchDoc(d.items[i], [c], mode) == Ok(true)) ==>
                   r.value.Some? && d.items[i] in r.value.value) &&
      ((forall i :: 0 <= i < |d.items| ==> MatchDoc(d.items[i], cs, mode).Ok?) ==> r.Ok?)
  {
    var cs := Conditions(GroupsOf(f));
    if qty.Some? {
      ScanQty(d.items, GroupsOf(f), qty.value, mode);
    }
    ScanSpec(d.items, GroupsOf(f), mode);
    forall x | MatchDoc(x, cs, mode) == Ok(true)
      ensures forall c :: c in cs ==> MatchDoc(x, [c], mode) == Ok(true)
    {
      MatchDocAnd(x, cs, mode);
    }
    forall x | forall c :: c in cs ==> MatchDoc(x, [c], mode) == Ok(true)
      ensures MatchDoc(x, cs, mode) == Ok(true)
    {
      MatchDocAnd(x, cs, mode);
    }
  }

  /** A negative `qty` rejects every document: `findDocs` returns `None`. */
  lemma FindDocsNegative(d: Document, f: Filters, n: int, mode: Mode)
    requires d.Arr? && n < 0
    ensures FindDocs(d, f, Some(n), mode) == Ok(None)
  {
    ScanQty(d.items, GroupsOf(f), n, mode);
  }

  /** The first item the scan keeps is the first item that passes. */
  lemma {:induction false} ScanFirst(items: seq<Value>, groups: seq<seq<Member>>, mode: Mode)
    ensures var r := Scan(items, groups, None, mode);
      r.Ok? && |r.value| > 0 ==>
        exists j :: 0 <= j < |items| && r.value[0] == items[j] &&
          MatchDoc(items[j], Conditions(groups), mode) == Ok(true) &&
          forall i :: 0 <= i < j ==> MatchDoc(items[i], Conditions(groups), mode) == Ok(false)
    decreases |items|
  {
    if |items| > 0 {
      ScanFirst(items[1..], groups, mode);
      var r := Scan(items, groups, None, mode);
      if r.Ok? && |r.value| > 0 && MatchDoc(items[0], Conditions(groups), mode) == Ok(false) {
        var rest := Scan(items[1..], groups, None, mode);
        var j :| 0 <= j < |items[1..]| && rest.value[0] == items[1..][j] &&
          MatchDoc(items[1..][j], Conditions(groups), mode) == Ok(true) &&
          forall i :: 0 <= i < j ==> MatchDoc(items[1..][i], Conditions(groups), mode) == Ok(false);
        assert forall i :: 0 < i < j + 1 ==> items[i] == items[1..][i - 1];
      }
    }
  }

  /** `findOneDoc`: the first item, in list order, that meets every condition,
      wrapped as a document; every earlier item fails a condition. `None`
      means that no item meets them all. */
  lemma FindOneFirst(d: Document, f: Filters, mode: Mode)
    requires d.Arr?
    ensures var r := FindOne(d, f, mode);
      var cs := Conditions(GroupsOf(f));
      r.Ok? && r.value.Some? ==>
        exists j :: 0 <= j < |d.items| && AsDocument(d.items[j]) == Ok(r.value.value) &&
          MatchDoc(d.items[j], cs, mode) == Ok(true) &&
          forall i :: 0 <= i < j ==> MatchDoc(d.items[i], cs, mode) == Ok(false)
    ensures var r := FindOne(d, f, mode);
      r == Ok(None) ==> forall i :: 0 <= i < |d.items| ==> MatchDoc(d.items[i], Conditions(GroupsOf(f)), mode) != Ok(true)
  {
    ScanQty(d.items, GroupsOf(f), 1, mode);
    ScanFirst(d.items, GroupsOf(f), mode);
    FindOneNone(d, f, mode);
  }

  /** An item that passes is never missed: `findOneDoc` does not say `None`. */
  lemma FindOneNone(d: Document, f: Filters, mode: Mode)
    requires d.Arr?
    ensures FindOne(d, f, mode) == Ok(None) ==>
      forall i :: 0 <= i < |d.items| ==> MatchDoc(d.items[i], Conditions(GroupsOf(f)), mode) != Ok(true)
  {
    var cs := Conditions(GroupsOf(f));
    forall i | 0 <= i < |d.items| && MatchDoc(d.items[i], cs, mode) == Ok(true)
      ensures FindOne(d, f, mode) != Ok(None)
    {
      FindDocsAll(d, f, Some(1), mode);
      MatchDocAnd(d.items[i], cs, mode);
    }
  }

  /** Dicts and lists read from a document are compared through their `str()`
      (jdocument.py:965-967): a rule holding that text matches them. */
  lemma NestedValuesCompareAsText(a: string, v: Value)
    requires '.' !in a && (v.Obj? || v.Arr?)
    ensures MatchDoc(Obj([Member(a, v)]), [Member(a, Str(PyValues.Repr(v)))], Plain) == Ok(true)
    ensures MatchDoc(Obj([Member(a, v)]), [Member(a, v)], Plain) == Ok(false)
  {
    var x := Obj([Member(a, v)]);
    assert LookupOrNull(x.fields, a) == v;
    assert [Member(a, Str(PyValues.Repr(v)))][1..] == [];
  }
}

=== FILE: json.dfy ===
/** JSON values as the library holds them in memory: Python `dict`s (kept in
    insertion order), `list`s, `str`, `int`, `bool` and `None`. */
module Json {
  import opened Outcomes

  datatype Value =
    | Null
    | Bool(b: bool)
    | Num(n: int)
    | Str(s: string)
    | Arr(items: seq<Value>)
    | Obj(fields: seq<Member>)

  /** One key/value pair of an object, in insertion order. */
  datatype Member = Member(key: string, val: Value)

  /** What a jDocument may wrap: an object or a list, never a scalar. */
  type Document = v: Value | v.Obj? || v.Arr? witness Obj([])

  // ---------------------------------------------------------------- size (termination measure)

  function Size(v: Value): (n: nat)
    ensures n >= 1
  {
    match v
    case Arr(xs) => 1 + SizeSeq(xs)
    case Obj(fs) => 1 + SizeFields(fs)
    case _ => 1
  }

  function SizeSeq(xs: seq<Value>): nat
  {
    if |xs| == 0 then 0 else Size(xs[0]) + SizeSeq(xs[1..])
  }

  function SizeFields(fs: seq<Member>): nat
  {
    if |fs| == 0 then 0 else Size(fs[0].val) + SizeFields(fs[1..])
  }

  /** An element of a list is smaller than the list. */
  lemma {:induction false} ElementSmaller(xs: seq<Value>, x: Value)
    requires x in xs
    ensures Size(x) <= SizeSeq(xs) < Size(Arr(xs))
  {
    if xs[0] != x {
      ElementSmaller(xs[1..], x);
    }
  }

  /** A list's size splits into the size of all but its last item and the
      size of that item. */
  lemma {:induction false} SizeSeqInit(xs: seq<Value>)
    requires |xs| > 0
    ensures SizeSeq(xs[..|xs| - 1]) + Size(xs[|xs| - 1]) == SizeSeq(xs)
  {
    if |xs| > 1 {
      SizeSeqInit(xs[1..]);
      assert xs[..|xs| - 1][1..] == xs[1..][..|xs[1..]| - 1];
    }
  }

  /** A sequence is at least as large as the sum of any of its prefixes. */
  lemma {:induction false} SizeSeqLength(xs: seq<Value>)
    ensures SizeSeq(xs) >= |xs|
  {
    if |xs| > 0 {
      SizeSeqLength(xs[1..]);
    }
  }

  // ---------------------------------------------------------------- dict operations

  function Keys(fs: seq<Member>): (ks: seq<string>)
    ensures |ks| == |fs|
    ensures forall i :: 0 <= i < |fs| ==> ks[i] == fs[i].key
  {
    if |fs| == 0 then [] else [fs[0].key] + Keys(fs[1..])
  }

  /** Python dict keys are unique. */
  predicate UniqueKeys(fs: seq<Member>)
  {
    forall i, j :: 0 <= i < j < |fs| ==> fs[i].key != fs[j].key
  }

  /** `d.get(k)`: the value stored under `k`, if any. */
  function Lookup(fs: seq<Member>, k: string): (r: Option<Value>)
    ensures r.None? <==> k !in Keys(fs)
    ensures r.Some? ==> Size(r.value) <= SizeFields(fs) < Size(Obj(fs))
    ensures r.Some? ==> exists i :: 0 <= i < |fs| && fs[i] == Member(k, r.value)
  {
    if |fs| == 0 then None
    else if fs[0].key == k then Some(fs[0].val)
    else Lookup(fs[1..], k)
  }

  /** `d.get(k, None)` with JSON null standing for Python's `None`. */
  function LookupOrNull(fs: seq<Member>, k: string): Value
  {
    match Lookup(fs, k)
    case Some(v) => v
    case None => Null
  }

  /** `d[k] = v`: an existing key keeps its position, a new key goes last. */
  function Put(fs: seq<Member>, k: string, v: Value): (r: seq<Member>)
    ensures Lookup(r, k) == Some(v)
    ensures forall k' :: k' != k ==> Lookup(r, k') == Lookup(fs, k')
  {
    if |fs| == 0 then [Member(k, v)]
    else if fs[0].key == k then [Member(k, v)] + fs[1..]
    else [fs[0]] + Put(fs[1..], k, v)
  }

  /** Overwriting keeps the key order; a new key is appended. */
  lemma {:induction false} PutKeys(fs: seq<Member>, k: string, v: Value)
    ensures k in Keys(fs) ==> Keys(Put(fs, k, v)) == Keys(fs)
    ensures k !in Keys(fs) ==> Keys(Put(fs, k, v)) == Keys(fs) + [k]
  {
    if |fs| > 0 && fs[0].key != k {
      assert Keys(fs) == [fs[0].key] + Keys(fs[1..]);
      assert Put(fs, k, v) == [fs[0]] + Put(fs[1..], k, v);
      assert Keys([fs[0]] + Put(fs[1..], k, v)) == [fs[0].key] + Keys(Put(fs[1..], k, v));
      PutKeys(fs[1..], k, v);
    }
  }

  /** Every member after `d[k] = v` was there before or is the new one; a
      new key is appended at the end. */
  lemma {:induction false} PutMembers(fs: seq<Member>, k: string, v: Value)
    ensures forall m :: m in Put(fs, k, v) ==> m in fs || m == Member(k, v)
    ensures k !in Keys(fs) ==> Put(fs, k, v) == fs + [Member(k, v)]
  {
    if |fs| > 0 && fs[0].key != k {
      PutMembers(fs[1..], k, v);
      assert Keys(fs) == [fs[0].key] + Keys(fs[1..]);
      assert fs == [fs[0]] + fs[1..];
    }
  }

  /** A second assignment to the same key replaces the first. */
  lemma {:induction false} PutPut(fs: seq<Member>, k: string, a: Value, b: Value)
    ensures Put(Put(fs, k, a), k, b) == Put(fs, k, b)
  {
    if |fs| > 0 && fs[0].key != k {
      PutPut(fs[1..], k, a, b);
    }
  }

  /** Assigning a key the value it already holds changes nothing. */
  lemma {:induction false} PutSame(fs: seq<Member>, k: string)
    requires Lookup(fs, k).Some?
    ensures Put(fs, k, Lookup(fs, k).value) == fs
  {
    if fs[0].key != k {
      PutSame(fs[1..], k);
    }
  }

  /** `del d[k]` (no-op when `k` is absent). */
  function Delete(fs: seq<Member>, k: string): (r: seq<Member>)
    ensures k !in Keys(r)
    ensures forall k' :: k' != k ==> Lookup(r, k') == Lookup(fs, k')
    ensures k !in Keys(fs) ==> r == fs
    ensures forall m :: m in r ==> m in fs
  {
    if |fs| == 0 then []
    else if fs[0].key == k then Delete(fs[1..], k)
    else [fs[0]] + Delete(fs[1..], k)
  }

  /** Deleting a present key from a dict shortens it by exactly one entry. */
  lemma {:induction false} DeleteCount(fs: seq<Member>, k: string)
    requires UniqueKeys(fs) && k in Keys(fs)
    ensures |Delete(fs, k)| == |fs| - 1
  {
    if fs[0].key == k {
      assert k !in Keys(fs[1..]);
    } else {
      DeleteCount(fs[1..], k);
    }
  }

  /** Every object in the value has unique keys, as a Python dict does. */
  predicate WellFormed(v: Value)
    decreases Size(v), 0
  {
    match v
    case Arr(xs) => WellFormedSeq(xs)
    case Obj(fs) => UniqueKeys(fs) && WellFormedFields(fs)
    case _ => true
  }

  predicate WellFormedSeq(xs: seq<Value>)
    decreases SizeSeq(xs), 1
  {
    |xs| == 0 || (WellFormed(xs[0]) && WellFormedSeq(xs[1..]))
  }

  predicate WellFormedFields(fs: seq<Member>)
    decreases SizeFields(fs), 1
  {
    |fs| == 0 || (WellFormed(fs[0].val) && WellFormedFields(fs[1..]))
  }
}

=== FILE: macros.dfy ===
/** The rule language of `findDocs(..., flagMacros=True)`
    (`_findDocs_TestAttrib`, jdocument.py:912-944): a string rule may carry a
    prefix `IN:`, `NIN:`, `CT:`, `NCT:` or `RE:`; anything else is compared
    with `==`. */
module Macros {
  import opened Outcomes
  import opened Text
  import opened Json
  import opened PyValues
  import opened Documents

  /** `rule == val` where `val` may be a wrapper (never equal to a raw rule). */
  predicate RuleEq(rule: Value, val: Fetched)
  {
    FEq(Raw(rule), val)
  }

  /** The rule is a string long enough to carry a prefix, with a `:` at its
      third or fourth character. */
  predicate HasMacroShape(r: string)
  {
    |r| > 4 && (r[2] == ':' || r[3] == ':')
  }

  function TestAttrib(rule: Value, val: Fetched, search: (string, string) -> bool): (r: Result<bool>)
    // plain rules: equality
    ensures !(rule.Str? && HasMacroShape(rule.s)) ==> r == Ok(RuleEq(rule, val))
    // IN:x holds when the value is a substring of x (the value must be a string)
    ensures rule.Str? && HasMacroShape(rule.s) && StartsWith(rule.s, "IN:") ==>
      r == (if val.Raw? && val.v.Str? then Ok(Contains(rule.s[3..], val.v.s)) else Err(TypeError))
    // NIN:x is its negation
    ensures rule.Str? && HasMacroShape(rule.s) && StartsWith(rule.s, "NIN:") ==>
      r == (if val.Raw? && val.v.Str? then Ok(!Contains(rule.s[4..], val.v.s)) else Err(TypeError))
    // CT:x holds when x is a substring of a string value, or a key of an object value
    ensures rule.Str? && HasMacroShape(rule.s) && StartsWith(rule.s, "CT:") ==>
      r == PyIn(Raw(Str(rule.s[3..])), val)
    ensures rule.Str? && HasMacroShape(rule.s) && StartsWith(rule.s, "CT:") && val.Raw? && val.v.Str? ==>
      r == Ok(Contains(val.v.s, rule.s[3..]))
    // NCT:x is its negation
    ensures rule.Str? && HasMacroShape(rule.s) && StartsWith(rule.s, "NCT:") && val.Raw? && val.v.Str? ==>
      r == Ok(!Contains(val.v.s, rule.s[4..]))
    // RE:p asks the regular-expression engine, on string values only
    ensures rule.Str? && HasMacroShape(rule.s) && StartsWith(rule.s, "RE:") ==>
      r == (if val.Raw? && val.v.Str? then Ok(search(rule.s[3..], val.v.s)) else Err(TypeError))
    // an unknown prefix falls back to equality
    ensures (rule.Str? && HasMacroShape(rule.s) &&
             !StartsWith(rule.s, "IN:") && !StartsWith(rule.s, "NIN:") && !StartsWith(rule.s, "CT:") &&
             !StartsWith(rule.s, "NCT:") && !StartsWith(rule.s, "RE:")) ==> r == Ok(RuleEq(rule, val))
  {
    if !rule.Str? || !HasMacroShape(rule.s) then Ok(RuleEq(rule, val))
    else
      var s := rule.s;
      if StartsWith(s, "IN:") then
        Negate(PyIn(val, Raw(Str(s[3..]))), false)
      else if StartsWith(s, "NIN:") then
        Negate(PyIn(val, Raw(Str(s[4..]))), true)
      else if StartsWith(s, "CT:") then
        PyIn(Raw(Str(s[3..])), val)
      else if StartsWith(s, "NCT:") then
        Negate(PyIn(Raw(Str(s[4..])), val), true)
      else if StartsWith(s, "RE:") then
        (if val.Raw? && val.v.Str? then Ok(search(s[3..], val.v.s)) else Err(TypeError))
      else Ok(RuleEq(rule, val))
  }

  /** `not (x in c)` with the exception of `in`, if any, passed through. */
  function Negate(r: Result<bool>, flip: bool): (n: Result<bool>)
    ensures r.Err? ==> n == r
    ensures r.Ok? ==> n == Ok(if flip then !r.value else r.value)
  {
    match r
    case Ok(b) => Ok(if flip then !b else b)
    case Err(e) => Err(e)
  }

  /** `CT:` on an object value tests for a key; on a list document it raises. */
  lemma ContainsOnDocuments(rule: string, fs: seq<Member>, xs: seq<Value>, search: (string, string) -> bool)
    requires |rule| > 4 && StartsWith(rule, "CT:")
    ensures TestAttrib(Str(rule), Doc(Obj(fs)), search) == Ok(rule[3..] in Keys(fs))
    ensures TestAttrib(Str(rule), Doc(Arr(xs)), search) == Err(AttributeError)
  {
  }

  /** `IN:` and `NIN:` are exact complements whenever the value is a string,
      and so are `CT:` and `NCT:`, once the operand is long enough for the
      rule to pass the length test (a four-character rule such as `IN:a` is
      compared literally, see `ShortRuleIsLiteral`). */
  lemma {:induction false} MacroComplements(x: string, v: string, search: (string, string) -> bool)
    requires |x| >= 2
    ensures TestAttrib(Str("IN:" + x), Raw(Str(v)), search).Ok?
    ensures TestAttrib(Str("NIN:" + x), Raw(Str(v)), search) ==
            Ok(!TestAttrib(Str("IN:" + x), Raw(Str(v)), search).value)
    ensures TestAttrib(Str("NCT:" + x), Raw(Str(v)), search) ==
            Ok(!TestAttrib(Str("CT:" + x), Raw(Str(v)), search).value)
  {
    var a, b, c, d := "IN:" + x, "NIN:" + x, "CT:" + x, "NCT:" + x;
    assert HasMacroShape(a) && HasMacroShape(b) && HasMacroShape(c) && HasMacroShape(d);
    assert StartsWith(a, "IN:") && a[3..] == x;
    assert StartsWith(b, "NIN:") && !StartsWith(b, "IN:") && b[4..] == x;
    assert StartsWith(c, "CT:") && !StartsWith(c, "IN:") && !StartsWith(c, "NIN:") && c[3..] == x;
    assert StartsWith(d, "NCT:") && !StartsWith(d, "IN:") && !StartsWith(d, "NIN:") && !StartsWith(d, "CT:") && d[4..] == x;
  }

  /** `IN:a` is only four characters long, so it is not read as a macro: it
      matches the string `IN:a` itself and not the value `a`. */
  lemma ShortRuleIsLiteral(search: (string, string) -> bool)
    ensures TestAttrib(Str("IN:a"), Raw(Str("a")), search) == Ok(false)
    ensures TestAttrib(Str("IN:a"), Raw(Str("IN:a")), search) == Ok(true)
  {
  }
}

=== FILE: outcomes.dfy ===
/** Failure-carrying datatypes shared by the whole model.

    Python signals failure by raising; the model returns `Err(kind)` instead.
    The kinds name the Python exception class (or the library's own plain
    `Exception`) that the modelled code path raises. */
module Outcomes {

  datatype Option<+T> = None | Some(value: T)

  datatype Error =
    | TypeError          // wrong operand type: indexing a list by a string, `<` on mixed types, ...
    | KeyError           // dict lookup of an absent key
    | IndexError         // list index out of range, or a missing `=` part in a condition subscript
    | ValueError         // `int(...)` of a malformed index, `list.remove` of an absent element
    | AttributeError     // a method called on a value that is not a jDocument (e.g. `None.value()`)
    | ShapeError         // "This Json document must be a List/Array"
    | ItemError          // "The Item must be a jDocument or a Json Dictionary ..."
    | OperatorError      // unknown structured-filter operator, or `all` with an operator other than ct/nct
    | CodecInput         // a scalar handed to `jDocument(...)`, which passes it to the JSON text decoder
    | Rethrown(cause: Error) // `raise Exception(f"*** {sys.exc_info()[0]}")`: a plain `Exception` naming the class caught

  datatype Result<+T> = Ok(value: T) | Err(error: Error) {
    predicate IsFailure() { Err? }

    function PropagateFailure<U>(): Result<U>
      requires Err?
    {
      Err(error)
    }

    function Extract(): T
      requires Ok?
    {
      value
    }
  }

  /** The result of an in-place mutation: the document after the call, and
      what the call returned or raised. Python keeps every change made before
      an exception, so `doc` is meaningful even when `result` is an error. */
  datatype Outcome<+D, +T> = Outcome(doc: D, result: Result<T>)
}

=== FILE: pathfacts.dfy ===
/** What the path language of `value` promises, stated against independent
    reference definitions: plain dotted paths are nested dict lookups,
    `name[i]` is Python list indexing, `name[attr=literal]` picks the first
    item whose attribute is the string `literal`, and a list document reads a
    plain path on each of its items. */
module PathFacts {
  import opened Outcomes
  import opened Text
  import opened Json
  import opened PyValues
  import opened Documents
  import opened Macros
  import opened Resolver
  import opened FilterFacts

  /** Reference reading of a path of plain keys: one dict lookup per key. */
  function PathLookup(v: Value, keys: seq<string>): Option<Value>
  {
    if |keys| == 0 then Some(v)
    else if v.Obj? then
      match Lookup(v.fields, keys[0])
      case Some(c) => PathLookup(c, keys[1..])
      case None => None
    else None
  }

  /** A dotted name made of plain, non-empty segments. */
  predicate PlainPath(keys: seq<string>)
  {
    |keys| >= 1 && forall i :: 0 <= i < |keys| ==> keys[i] != "" && '.' !in keys[i] && '[' !in keys[i]
  }

  /** Without subscripts the token walk is exactly the reference lookup. */
  lemma {:induction false} WalkPlain(cursor: Value, keys: seq<string>)
    requires forall i :: 0 <= i < |keys| ==> '[' !in keys[i]
    ensures Walk(cursor, keys).Ok? <==> PathLookup(cursor, keys).Some?
    ensures Walk(cursor, keys).Ok? ==> Walk(cursor, keys).value == PathLookup(cursor, keys).value
    decreases |keys|
  {
    if |keys| > 0 {
      assert Step(cursor, keys[0]) == Sub(cursor, keys[0]);
      if cursor.Obj? && keys[0] in Keys(cursor.fields) {
        WalkPlain(LookupOrNull(cursor.fields, keys[0]), keys[1..]);
      }
    }
  }

  /** `value('a.b.c', default, flag)` on an object: the nested value when
      every key is there, otherwise `default`, or an exception when `flag`
      is set (jdocument.py:478-489 and 492-529). */
  lemma ValueOfPlainPath(d: Document, keys: seq<string>, default: Value, raise: bool)
    requires d.Obj? && |keys| >= 1 && Join(keys, '.') != ""
    requires forall i :: 0 <= i < |keys| ==> '.' !in keys[i] && '[' !in keys[i]
    ensures PathLookup(d, keys).Some? ==>
      ValueOf(d, Join(keys, '.'), default, raise) == Ok(PathLookup(d, keys).value)
    ensures PathLookup(d, keys).None? ==>
      if raise then ValueOf(d, Join(keys, '.'), default, raise).Err? && ValueOf(d, Join(keys, '.'), default, raise).error.Rethrown?
      else ValueOf(d, Join(keys, '.'), default, raise) == Ok(default)
  {
    var attr := Join(keys, '.');
    JoinChars(keys, '.', '[');
    if |keys| == 1 {
      assert attr == keys[0];
      assert keys[1..] == [];
      match Lookup(d.fields, keys[0])
      case Some(c) =>
        assert PathLookup(d, keys) == PathLookup(c, []);
      case None =>
    } else {
      assert attr == keys[0] + ['.'] + Join(keys[1..], '.');
      assert attr[|keys[0]|] == '.';
      JoinSplit(keys, '.');
      WalkPlain(d, keys);
    }
  }

  /** A one-token attribute `k[rest`: no dot, and one cut at the bracket. */
  lemma SubscriptTokenShape(k: string, rest: string)
    requires '[' !in k && '.' !in k && '[' !in rest && '.' !in rest
    ensures var tk := k + "[" + rest;
      '.' !in tk && '[' in tk && Split(tk, '.') == [tk] && Split(tk, '[') == [k, rest]
  {
    var tk := k + "[" + rest;
    assert tk == k + ['['] + rest;
    assert '.' !in tk;
    SplitNoSep(tk, '.');
    SplitAtFirst(k, '[', rest);
    SplitNoSep(rest, '[');
  }

  /** Facts about the text of an attribute `k[i]` that the walk relies on. */
  lemma IndexTokenShape(k: string, i: int)
    requires '[' !in k && '.' !in k
    ensures var tk := k + "[" + IntToString(i) + "]";
      '.' !in tk && '[' in tk &&
      Split(tk, '.') == [tk] &&
      Split(tk, '[') == [k, IntToString(i) + "]"] &&
      RemoveChar(IntToString(i) + "]", ']') == IntToString(i)
  {
    var n := IntToString(i);
    ParseIntToString(i);
    assert '.' !in n && '[' !in n && ']' !in n;
    assert k + "[" + n + "]" == k + "[" + (n + "]");
    SubscriptTokenShape(k, n + "]");
    RemoveCharConcat(n, "]", ']');
    RemoveAbsentChar(n, ']');
  }

  /** `value('k[i]')` on an object: Python list indexing of the list under
      `k`, negative indexes counting from the end; any failure gives the
      default or, with the flag, an exception (jdocument.py:504-511). */
  lemma IndexSubscript(d: Document, k: string, i: int, default: Value, raise: bool)
    requires d.Obj? && '[' !in k && '.' !in k && k != ArrayWord
    ensures var r := ValueOf(d, k + "[" + IntToString(i) + "]", default, raise);
      var l := Lookup(d.fields, k);
      (l.Some? && l.value.Arr? && InRange(|l.value.items|, i) ==>
        r == Ok(l.value.items[Position(|l.value.items|, i)])) &&
      ((l.None? || (l.value.Arr? && !InRange(|l.value.items|, i))) ==>
        r == (if raise then Err(Rethrown(if l.None? then KeyError else IndexError)) else Ok(default)))
  {
    var tk := k + "[" + IntToString(i) + "]";
    IndexTokenShape(k, i);
    ParseIntToString(i);
    assert Walk(d, [tk]) == (match Step(d, tk) case Err(e) => Err(e) case Ok(next) => Walk(next, []));
  }

  /** Every item of a list is an object. */
  predicate AllObjects(xs: seq<Value>)
  {
    forall i :: 0 <= i < |xs| ==> xs[i].Obj?
  }

  /** The condition `a=b` holds for an object: the attribute `a`, through
      `str()` when it is a dict or a list, is exactly the string `b`. */
  predicate AttrIs(x: Value, a: string, b: string)
    requires x.Obj?
  {
    Stringified(Raw(LookupOrNull(x.fields, a))) == Raw(Str(b))
  }

  /** Reference selection: the first object whose attribute `a` is `b`. */
  function FirstWith(xs: seq<Value>, a: string, b: string): (r: Option<Value>)
    requires AllObjects(xs)
    ensures r.Some? ==> r.value in xs && r.value.Obj? && AttrIs(r.value, a, b)
    ensures r.None? ==> forall i :: 0 <= i < |xs| ==> !AttrIs(xs[i], a, b)
  {
    if |xs| == 0 then None
    else if AttrIs(xs[0], a, b) then Some(xs[0])
    else FirstWith(xs[1..], a, b)
  }

  /** A plain condition on a dot-free attribute of an object is `AttrIs`. */
  lemma MatchOneCondition(x: Value, a: string, b: string)
    requires x.Obj? && '.' !in a
    ensures MatchDoc(x, [Member(a, Str(b))], Plain) == Ok(AttrIs(x, a, b))
  {
    var val := Stringified(Raw(LookupOrNull(x.fields, a)));
    assert ReadAttr(x, a) == Ok(Raw(LookupOrNull(x.fields, a)));
    assert val.Raw?;
    assert RuleEq(Str(b), val) <==> val == Raw(Str(b));
    assert MatchDoc(x, [Member(a, Str(b))][1..], Plain) == Ok(true);
  }

  /** On a list of objects, a plain one-condition scan keeps the first match first. */
  lemma {:induction false} ScanFirstWith(xs: seq<Value>, a: string, b: string)
    requires AllObjects(xs) && '.' !in a
    ensures var r := Scan(xs, [[Member(a, Str(b))]], None, Plain);
      r.Ok? && (|r.value| == 0 <==> FirstWith(xs, a, b).None?) &&
      (|r.value| > 0 ==> r.value[0] == FirstWith(xs, a, b).value)
  {
    var g := [[Member(a, Str(b))]];
    assert Conditions(g) == [Member(a, Str(b))] by {
      assert Conditions(g[1..]) == [];
    }
    if |xs| > 0 {
      MatchOneCondition(xs[0], a, b);
      ScanFirstWith(xs[1..], a, b);
    }
  }

  /** The inside `a=b]` of a condition subscript: not a number, one cut at `=`. */
  lemma ConditionInnerShape(a: string, b: string)
    requires '=' !in a && '=' !in b && ']' !in b
    ensures var inner := a + "=" + b + "]";
      !IsDigits(RemoveChar(RemoveChar(inner, ']'), '-')) &&
      Split(inner, '=') == [a, b + "]"] &&
      RemoveChar(b + "]", ']') == b
  {
    var inner := a + "=" + b + "]";
    assert inner == a + ['='] + (b + "]");
    assert '=' in inner;
    var p := RemoveChar(RemoveChar(inner, ']'), '-');
    assert '=' in p;
    assert '=' !in b + "]";
    SplitAtFirst(a, '=', b + "]");
    SplitNoSep(b + "]", '=');
    RemoveCharConcat(b, "]", ']');
    RemoveAbsentChar(b, ']');
  }

  /** The pieces `value` cuts out of `k[a=b]`. */
  lemma ConditionTokenShape(k: string, a: string, b: string)
    requires '[' !in k && '.' !in k
    requires '.' !in a && '[' !in a && '=' !in a
    requires '.' !in b && '[' !in b && '=' !in b && ']' !in b
    ensures var tk := k + "[" + a + "=" + b + "]";
      var inner := a + "=" + b + "]";
      '.' !in tk && '[' in tk &&
      Split(tk, '.') == [tk] &&
      Split(tk, '[') == [k, inner] &&
      !IsDigits(RemoveChar(RemoveChar(inner, ']'), '-')) &&
      Split(inner, '=') == [a, b + "]"] &&
      RemoveChar(b + "]", ']') == b
  {
    var inner := a + "=" + b + "]";
    assert k + "[" + a + "=" + b + "]" == k + "[" + inner;
    SubscriptTokenShape(k, inner);
    ConditionInnerShape(a, b);
  }

  /** One walk step over `k[a=b]` on an object: `findOneDoc` on the list
      under `k`, a missing match raising `AttributeError`. */
  lemma StepCondition(dic: Value, k: string, a: string, b: string)
    requires dic.Obj? && '[' !in k && '.' !in k && k != ArrayWord
    requires '.' !in a && '[' !in a && '=' !in a && Strip(a) == a
    requires '.' !in b && '[' !in b && '=' !in b && ']' !in b && Strip(b) == b
    ensures var r := Step(dic, k + "[" + a + "=" + b + "]");
      var l := Lookup(dic.fields, k);
      (l.None? ==> r == Err(KeyError)) &&
      (l.Some? && l.value.Arr? ==>
        r == match FindOne(l.value, Dict([Member(a, Str(b))]), Plain)
             case Err(e) => Err(e)
             case Ok(None) => Err(AttributeError)
             case Ok(Some(m)) => Ok(m))
  {
    ConditionTokenShape(k, a, b);
  }

  /** `value('k[a=b]')` on an object whose `k` is a list of objects: the
      first item whose attribute `a` equals the STRING `b` (no conversion:
      an integer attribute never matches), or the default when none does
      (jdocument.py:512-516, 888-909). */
  lemma ConditionSubscript(d: Document, k: string, a: string, b: string, default: Value, raise: bool)
    requires d.Obj? && '[' !in k && '.' !in k && k != ArrayWord
    requires '.' !in a && '[' !in a && '=' !in a && Strip(a) == a
    requires '.' !in b && '[' !in b && '=' !in b && ']' !in b && Strip(b) == b
    ensures var r := ValueOf(d, k + "[" + a + "=" + b + "]", default, raise);
      var l := Lookup(d.fields, k);
      (l.Some? && l.value.Arr? && AllObjects(l.value.items) ==>
        (FirstWith(l.value.items, a, b).Some? ==> r == Ok(FirstWith(l.value.items, a, b).value)) &&
        (FirstWith(l.value.items, a, b).None? ==> r == (if raise then Err(Rethrown(AttributeError)) else Ok(default)))) &&
      (l.None? ==> r == (if raise then Err(Rethrown(KeyError)) else Ok(default)))
  {
    var tk := k + "[" + a + "=" + b + "]";
    ConditionTokenShape(k, a, b);
    StepCondition(d, k, a, b);
    ValueOfOneToken(d, tk, default, raise);
    var l := Lookup(d.fields, k);
    if l.Some? && l.value.Arr? && AllObjects(l.value.items) {
      FindOneFirst(l.value.items, a, b);
    }
  }

  /** A name that is one subscripted token is one walk step. */
  lemma ValueOfOneToken(d: Document, tk: string, default: Value, raise: bool)
    requires d.Obj? && '[' in tk && Split(tk, '.') == [tk]
    ensures ValueOf(d, tk, default, raise) ==
      match Step(d, tk) case Ok(v) => Ok(v) case Err(e) => if raise then Err(Rethrown(e)) else Ok(default)
  {
    assert Walk(d, [tk]) == (match Step(d, tk) case Err(e) => Err(e) case Ok(next) => Walk(next, []));
  }

  /** `findOneDoc({a: b})` on a list of objects is the first item whose
      attribute `a` is the text `b`. */
  lemma FindOneFirst(xs: seq<Value>, a: string, b: string)
    requires AllObjects(xs) && '.' !in a
    ensures FindOne(Arr(xs), Dict([Member(a, Str(b))]), Plain) ==
      if FirstWith(xs, a, b).Some? then Ok(Some(FirstWith(xs, a, b).value)) else Ok(None)
  {
    var g := GroupsOf(Dict([Member(a, Str(b))]));
    ScanQty(xs, g, 1, Plain);
    ScanFirstWith(xs, a, b);
    assert FindDocs(Arr(xs), Dict([Member(a, Str(b))]), Some(1), Plain) ==
      (if |Scan(xs, g, None, Plain).value| == 0 then Ok(None) else Ok(Some(Scan(xs, g, None, Plain).value)));
  }

  /** The list name and the inside of `[a=b]`: the name is empty. */
  lemma ListBracketShape(a: string, b: string)
    requires '[' !in a && '=' !in a && '[' !in b && '=' !in b
    ensures var attr := "[" + a + "=" + b + "]";
      attr != "" && !StartsWith(attr, ArrayWord) && '[' in attr &&
      Split(attr, '[') == ["", a + "=" + b + "]"] &&
      !IsDigits(RemoveChar(a + "=" + b + "]", ']'))
  {
    var attr := "[" + a + "=" + b + "]";
    var inner := a + "=" + b + "]";
    assert attr == "" + ['['] + inner;
    assert '[' !in inner;
    SplitAtFirst("", '[', inner);
    SplitNoSep(inner, '[');
    assert '=' in inner;
    assert '=' in RemoveChar(inner, ']');
    assert attr[0] == '[';
  }

  /** The whole of `[a=b]` cut at `=`: `[a` and `b]`. */
  lemma ListEqualsShape(a: string, b: string)
    requires '=' !in a && '=' !in b && '.' !in a
    ensures Split("[" + a + "=" + b + "]", '=') == ["[" + a, b + "]"]
    ensures '.' !in "[" + a
  {
    var p1, p2 := "[" + a, b + "]";
    assert "[" + a + "=" + b + "]" == p1 + ['='] + p2;
    assert '=' !in p1 && '=' !in p2;
    SplitAtFirst(p1, '=', p2);
    SplitNoSep(p2, '=');
  }

  /** A text without whitespace keeps its ends under `strip()` when a
      bracket is put before or after it. */
  lemma StripBracketed(a: string)
    requires forall i :: 0 <= i < |a| ==> !IsSpace(a[i])
    ensures Strip("[" + a) == "[" + a && Strip(a + "]") == a + "]"
  {
    var p1, p2 := "[" + a, a + "]";
    assert p1[0] == '[' && p2[|p2| - 1] == ']';
    assert p1[|p1| - 1] == if |a| == 0 then '[' else a[|a| - 1];
    assert p2[0] == if |a| == 0 then ']' else a[0];
    StripEnds(p1);
    StripEnds(p2);
  }

  /** A condition subscript on a list of objects, read off its pieces: the
      list name is empty, so `findOneDoc` runs on the document itself and
      picks the reference's first match. */
  lemma ListSubscriptFirst(xs: seq<Value>, attr: string, p1: string, p2: string, default: Value, raise: bool)
    requires |xs| > 0 && AllObjects(xs) && '.' !in p1 && ListSubscript(Arr(xs), attr)
    requires Split(attr, '[')[0] == "" && !IsDigits(RemoveChar(Split(attr, '[')[1], ']'))
    requires |Split(attr, '=')| >= 2 && Strip(Split(attr, '=')[0]) == p1 && Strip(Split(attr, '=')[1]) == p2
    ensures ValueFetched(Arr(xs), attr, default, raise) ==
      if FirstWith(xs, p1, p2).Some? then Ok(Doc(FirstWith(xs, p1, p2).value)) else Ok(Raw(Null))
  {
    assert Wrap(Arr(xs), false) == Doc(Arr(xs));
    FindOneFirst(xs, p1, p2);
  }

  /** `value('[a=b]')` on a non-empty list of objects. The list branch cuts
      the whole attribute at `=`, so the condition compares the key `[a`
      with the text `b]`; a match comes back as the `jDocument` that
      `findOneDoc` built, no match as `None` (jdocument.py:445-465). */
  lemma ListCondition(xs: seq<Value>, a: string, b: string, default: Value, raise: bool)
    requires |xs| > 0 && AllObjects(xs)
    requires '.' !in a && '[' !in a && '=' !in a
    requires '[' !in b && '=' !in b
    requires forall i :: 0 <= i < |a| ==> !IsSpace(a[i])
    requires forall i :: 0 <= i < |b| ==> !IsSpace(b[i])
    ensures var m := FirstWith(xs, "[" + a, b + "]");
      ValueFetched(Arr(xs), "[" + a + "=" + b + "]", default, raise) ==
        if m.Some? then Ok(Doc(m.value)) else Ok(Raw(Null))
  {
    var attr := "[" + a + "=" + b + "]";
    var p1, p2 := "[" + a, b + "]";
    ListBracketShape(a, b);
    ListEqualsShape(a, b);
    StripBracketed(a);
    StripBracketed(b);
    ListSubscriptFirst(xs, attr, p1, p2, default, raise);
  }

  /** The consequence of comparing with the text `b`: when the attribute of
      every item is a number, `k[a=b]` finds nothing, even for `b == "3"`
      and an item holding the integer 3. */
  lemma NumbersNeverMatchText(d: Document, k: string, a: string, b: string, default: Value)
    requires d.Obj? && '[' !in k && '.' !in k && k != ArrayWord
    requires '.' !in a && '[' !in a && '=' !in a && Strip(a) == a
    requires '.' !in b && '[' !in b && '=' !in b && ']' !in b && Strip(b) == b
    requires var l := Lookup(d.fields, k);
      l.Some? && l.value.Arr? && AllObjects(l.value.items) &&
      forall i :: 0 <= i < |l.value.items| ==> LookupOrNull(l.value.items[i].fields, a).Num?
    ensures ValueOf(d, k + "[" + a + "=" + b + "]", default, false) == Ok(default)
  {
    var xs := Lookup(d.fields, k).value.items;
    ConditionSubscript(d, k, a, b, default, false);
    assert FirstWith(xs, a, b).None?;
  }

  /** On a list of objects, a plain path is read on every item, with the
      error flag dropped (jdocument.py:442-444, 470). */
  lemma {:induction false} BroadcastObjects(xs: seq<Value>, attr: string, default: Value, raise: bool)
    requires AllObjects(xs) && attr != "" && '[' !in attr && !StartsWith(attr, ArrayWord)
    ensures var r := ValueOf(Arr(xs), attr, default, raise);
      r.Ok? && r.value.Arr? && |r.value.items| == |xs| &&
      forall i :: 0 <= i < |xs| ==> r.value.items[i] == ValueOf(xs[i], attr, default, false).value
  {
    BroadcastEach(xs, attr, default);
  }

  lemma {:induction false} BroadcastEach(xs: seq<Value>, attr: string, default: Value)
    requires AllObjects(xs)
    ensures var r := Broadcast(xs, attr, default);
      r.Ok? && forall i :: 0 <= i < |xs| ==> r.value[i] == ValueOf(xs[i], attr, default, false).value
  {
    if |xs| > 0 {
      TailObjects(xs);
      BroadcastEach(xs[1..], attr, default);
      BroadcastHead(xs, attr, default);
      var r := Broadcast(xs, attr, default);
      forall i | 0 <= i < |xs|
        ensures r.value[i] == ValueOf(xs[i], attr, default, false).value
      {
        if i > 0 {
          assert xs[1..][i - 1] == xs[i];
        }
      }
    }
  }

  lemma TailObjects(xs: seq<Value>)
    requires |xs| > 0 && AllObjects(xs)
    ensures AllObjects(xs[1..])
  {
    forall i | 0 <= i < |xs[1..]|
      ensures xs[1..][i].Obj?
    {
      assert xs[1..][i] == xs[i + 1];
    }
  }

  /** Broadcasting over an object item and a rest that succeeds. */
  lemma BroadcastHead(xs: seq<Value>, attr: string, default: Value)
    requires |xs| > 0 && xs[0].Obj? && Broadcast(xs[1..], attr, default).Ok?
    ensures Broadcast(xs, attr, default) ==
      Ok([ValueOf(xs[0], attr, default, false).value] + Broadcast(xs[1..], attr, default).value)
  {
    assert AsDocument(xs[0]) == Ok(xs[0]);
  }
}

=== FILE: pyvalues.dfy ===
/** The Python semantics the library leans on when it touches JSON values:
    truthiness, `==`, the ordering operators, `str()`/`repr()` and `in`. */
module PyValues {
  import opened Outcomes
  import opened Text
  import opened Json

  // ---------------------------------------------------------------- truthiness

  /** `bool(v)`: `None`, `False`, `0`, `''`, `[]` and `{}` are false. */
  predicate Truthy(v: Value)
  {
    match v
    case Null => false
    case Bool(b) => b
    case Num(n) => n != 0
    case Str(s) => |s| > 0
    case Arr(xs) => |xs| > 0
    case Obj(fs) => |fs| > 0
  }

  /** `bool` is a subclass of `int` in Python: `True == 1`, `False + 1 == 1`. */
  predicate IsNumeric(v: Value) { v.Num? || v.Bool? }

  function NumOf(v: Value): int
    requires IsNumeric(v)
  {
    if v.Num? then v.n else if v.b then 1 else 0
  }

  // ---------------------------------------------------------------- equality

  /** Python `a == b`: numbers and booleans compare by value, lists element by
      element, dicts by key set and per-key value whatever the key order. */
  predicate PyEq(a: Value, b: Value)
    decreases Size(a), 0
  {
    if IsNumeric(a) && IsNumeric(b) then NumOf(a) == NumOf(b)
    else match (a, b)
      case (Null, Null) => true
      case (Str(s), Str(t)) => s == t
      case (Arr(xs), Arr(ys)) => |xs| == |ys| && SeqEq(xs, ys)
      case (Obj(fa), Obj(fb)) => |fa| == |fb| && AllIn(fa, fb)
      case _ => false
  }

  predicate SeqEq(xs: seq<Value>, ys: seq<Value>)
    requires |xs| == |ys|
    decreases SizeSeq(xs), 1
  {
    |xs| == 0 || (PyEq(xs[0], ys[0]) && SeqEq(xs[1..], ys[1..]))
  }

  /** Every key of `fa` is in `fb`, bound to an equal value. */
  predicate AllIn(fa: seq<Member>, fb: seq<Member>)
    decreases SizeFields(fa), 1
  {
    |fa| == 0 ||
    (match Lookup(fb, fa[0].key)
     case Some(w) => PyEq(fa[0].val, w) && AllIn(fa[1..], fb)
     case None => false)
  }

  lemma {:induction false} LookupUnique(fs: seq<Member>, i: int)
    requires UniqueKeys(fs) && 0 <= i < |fs|
    ensures Lookup(fs, fs[i].key) == Some(fs[i].val)
  {
    if i > 0 {
      assert fs[0].key != fs[i].key;
      assert UniqueKeys(fs[1..]) by {
        forall a, b | 0 <= a < b < |fs| - 1 ensures fs[1..][a].key != fs[1..][b].key {
          assert fs[a + 1].key != fs[b + 1].key;
        }
      }
      LookupUnique(fs[1..], i - 1);
    }
  }

  /** `v == v` holds for every JSON value whose dicts have unique keys. */
  lemma {:induction false} PyEqRefl(v: Value)
    requires WellFormed(v)
    ensures PyEq(v, v)
    decreases Size(v), 0
  {
    match v
    case Arr(xs) => SeqEqRefl(xs);
    case Obj(fs) => AllInSelf(fs, fs);
    case _ =>
  }

  lemma {:induction false} SeqEqRefl(xs: seq<Value>)
    requires WellFormedSeq(xs)
    ensures SeqEq(xs, xs)
    decreases SizeSeq(xs), 1
  {
    if |xs| > 0 {
      PyEqRefl(xs[0]);
      SeqEqRefl(xs[1..]);
    }
  }

  lemma {:induction false} AllInSelf(fa: seq<Member>, fb: seq<Member>)
    requires WellFormedFields(fa) && UniqueKeys(fb)
    requires forall i :: 0 <= i < |fa| ==> fa[i] in fb
    ensures AllIn(fa, fb)
    decreases SizeFields(fa), 1
  {
    if |fa| > 0 {
      var j :| 0 <= j < |fb| && fb[j] == fa[0];
      LookupUnique(fb, j);
      PyEqRefl(fa[0].val);
      assert forall i :: 0 <= i < |fa[1..]| ==> fa[1..][i] == fa[i + 1];
      AllInSelf(fa[1..], fb);
    }
  }

  // ---------------------------------------------------------------- ordering

  /** Code-point lexicographic order on strings (Python `str < str`). */
  predicate StrLess(a: string, b: string)
  {
    |b| > 0 && (|a| == 0 || a[0] < b[0] || (a[0] == b[0] && StrLess(a[1..], b[1..])))
  }

  lemma {:induction false} StrLessIrreflexive(a: string)
    ensures !StrLess(a, a)
  {
    if |a| > 0 {
      StrLessIrreflexive(a[1..]);
    }
  }

  lemma {:induction false} StrLessTransitive(a: string, b: string, c: string)
    requires StrLess(a, b) && StrLess(b, c)
    ensures StrLess(a, c)
  {
    if |a| > 0 && a[0] == b[0] && b[0] == c[0] {
      StrLessTransitive(a[1..], b[1..], c[1..]);
    }
  }

  lemma {:induction false} StrLessTotal(a: string, b: string)
    ensures a == b || StrLess(a, b) || StrLess(b, a)
  {
    if |a| > 0 && |b| > 0 && a[0] == b[0] {
      StrLessTotal(a[1..], b[1..]);
      if a[1..] == b[1..] {
        assert a == [a[0]] + a[1..] && b == [b[0]] + b[1..];
      }
    }
  }

  /** The four ordering operators of Python. */
  datatype CmpOp = Lt | Le | Gt | Ge

  function OpInt(op: CmpOp, x: int, y: int): bool
  {
    match op
    case Lt => x < y
    case Le => x <= y
    case Gt => x > y
    case Ge => x >= y
  }

  function OpStr(op: CmpOp, s: string, t: string): bool
  {
    match op
    case Lt => StrLess(s, t)
    case Le => StrLess(s, t) || s == t
    case Gt => StrLess(t, s)
    case Ge => StrLess(t, s) || s == t
  }

  /** The first position where two lists differ under `==`, if any. */
  function FirstDiff(xs: seq<Value>, ys: seq<Value>): (r: Option<nat>)
    ensures r.Some? ==> r.value < |xs| && r.value < |ys| && !PyEq(xs[r.value], ys[r.value])
    ensures r.Some? ==> forall j :: 0 <= j < r.value ==> PyEq(xs[j], ys[j])
    ensures r.None? ==> forall j :: 0 <= j < |xs| && j < |ys| ==> PyEq(xs[j], ys[j])
  {
    if |xs| == 0 || |ys| == 0 then None
    else if !PyEq(xs[0], ys[0]) then Some(0)
    else match FirstDiff(xs[1..], ys[1..])
      case None => None
      case Some(i) => Some(i + 1)
  }

  /** `a < b`, `a <= b`, `a > b`, `a >= b`: numbers (booleans included) and
      strings among themselves, lists lexicographically (first item that
      differs under `==`, otherwise the lengths); anything else, `None` and
      dicts included, raises `TypeError`. */
  function PyCmp(a: Value, b: Value, op: CmpOp): (r: Result<bool>)
    ensures r.Err? ==> r.error == TypeError
    ensures IsNumeric(a) && IsNumeric(b) ==> r == Ok(OpInt(op, NumOf(a), NumOf(b)))
    ensures a.Str? && b.Str? ==> r == Ok(OpStr(op, a.s, b.s))
    ensures (a.Null? || a.Obj? || b.Null? || b.Obj?) ==> r == Err(TypeError)
    decreases Size(a)
  {
    if IsNumeric(a) && IsNumeric(b) then Ok(OpInt(op, NumOf(a), NumOf(b)))
    else match (a, b)
      case (Str(s), Str(t)) => Ok(OpStr(op, s, t))
      case (Arr(xs), Arr(ys)) =>
        (match FirstDiff(xs, ys)
         case Some(i) =>
           ElementSmaller(xs, xs[i]);
           PyCmp(xs[i], ys[i], op)
         case None => Ok(OpInt(op, |xs|, |ys|)))
      case _ => Err(TypeError)
  }

  // ---------------------------------------------------------------- str() and repr()

  function HexDigit(d: nat): char
    requires d < 16
  {
    if d < 10 then DigitChar(d) else ('a' as int + (d - 10)) as char
  }

  /** One character of a string literal as `repr` writes it inside quote `q`;
      the characters up to U+00FF that Python does not print (the controls,
      the no-break space, the soft hyphen) become `\xhh`. */
  function EscapeChar(c: char, q: char): string
  {
    if c == q || c == '\\' then ['\\', c]
    else if c == '\n' then "\\n"
    else if c == '\r' then "\\r"
    else if c == '\t' then "\\t"
    else if c < ' ' || '\U{7F}' <= c <= '\U{A0}' || c == '\U{AD}' then "\\x" + [HexDigit(c as int / 16), HexDigit(c as int % 16)]
    else [c]
  }

  function Escape(s: string, q: char): string
  {
    if |s| == 0 then "" else EscapeChar(s[0], q) + Escape(s[1..], q)
  }

  /** `repr(s)`: single quotes, unless the text holds a `'` and no `"`. */
  function ReprStr(s: string): string
  {
    var q := if '\'' in s && '"' !in s then '"' else '\'';
    [q] + Escape(s, q) + [q]
  }

  /** `repr(v)` of a JSON value, which is also `str(v)` for dicts and lists. */
  function Repr(v: Value): string
    decreases Size(v), 0
  {
    match v
    case Null => "None"
    case Bool(b) => if b then "True" else "False"
    case Num(n) => IntToString(n)
    case Str(s) => ReprStr(s)
    case Arr(xs) => "[" + ReprItems(xs) + "]"
    case Obj(fs) => "{" + ReprFields(fs) + "}"
  }

  function ReprItems(xs: seq<Value>): string
    decreases SizeSeq(xs), 1
  {
    if |xs| == 0 then ""
    else if |xs| == 1 then Repr(xs[0])
    else Repr(xs[0]) + ", " + ReprItems(xs[1..])
  }

  function ReprFields(fs: seq<Member>): string
    decreases SizeFields(fs), 1
  {
    if |fs| == 0 then ""
    else
      var entry := ReprStr(fs[0].key) + ": " + Repr(fs[0].val);
      if |fs| == 1 then entry else entry + ", " + ReprFields(fs[1..])
  }

  /** A character `repr` writes out unchanged. */
  predicate PlainChar(c: char)
  {
    c != '\'' && c != '\\' && ' ' <= c && !('\U{7F}' <= c <= '\U{A0}') && c != '\U{AD}'
  }

  /** Text without quotes, backslashes or control characters is shown as is,
      between single quotes. */
  lemma {:induction false} ReprPlainStr(s: string)
    requires forall i :: 0 <= i < |s| ==> PlainChar(s[i])
    ensures Repr(Str(s)) == "'" + s + "'"
  {
    EscapePlain(s);
  }

  lemma {:induction false} EscapePlain(s: string)
    requires forall i :: 0 <= i < |s| ==> PlainChar(s[i])
    ensures Escape(s, '\'') == s
  {
    if |s| > 0 {
      assert PlainChar(s[0]);
      EscapePlain(s[1..]);
      assert s == [s[0]] + s[1..];
    }
  }

  /** `str(v)`: a string is itself, anything else is its `repr`. */
  function StrOf(v: Value): (r: string)
    ensures v.Str? ==> r == v.s
    ensures !v.Str? ==> r == Repr(v)
  {
    if v.Str? then v.s else Repr(v)
  }
}

=== FILE: remover.dfy ===
/** `jDoc.removeAttrib(attrib, attribs)` (jdocument.py:685-745): deleting
    attributes from an object document, from every item of a list document,
    or, through a dotted name, from the objects the name leads to.

    Python runs a dotted removal in two phases. First `obj = obj.get(seg)`
    walks every segment but the last; `get` on a list document builds a
    fresh list whose items are the stored dicts themselves. Then
    `obj.removeAttrib(last)` deletes through those shared dicts, so the
    stored document changes even though the walk only read it. The model
    keeps the two phases: `Navigate` is the walk (it decides whether the
    call raises before deleting anything) and `Apply` performs the same
    deletions on the stored value directly. */
module Remover {
  import opened Outcomes
  import opened Text
  import opened Json
  import opened PyValues
  import opened Documents
  import opened Resolver
  import opened PathFacts

  /** A name the remover can follow: a dotted name has no subscript. */
  predicate Removable(attrib: string)
  {
    '.' in attrib ==> '[' !in attrib
  }

  /** The segments walked and the last one, which is deleted. */
  function Init(attrib: string): seq<string>
  {
    var segs := Split(attrib, '.');
    segs[..|segs| - 1]
  }

  function Last(attrib: string): (r: string)
    ensures '.' !in r
  {
    var segs := Split(attrib, '.');
    segs[|segs| - 1]
  }

  /** The first phase: `for atSub in at: obj = obj.get(atSub)`. A value
      `get` does not wrap has no `get` (nor `removeAttrib`) method. */
  function Navigate(d: Document, segs: seq<string>): (r: Result<Document>)
    decreases |segs|
  {
    if |segs| == 0 then Ok(d)
    else
      match Get(d, segs[0], Null, false, false)
      case Err(e) => Err(e)
      case Ok(Raw(_)) => Err(AttributeError)
      case Ok(Doc(t)) => Navigate(t, segs[1..])
  }

  /** Whether the removal goes down a dotted name; it orders the measures
      of the recursive family below. */
  function Depth(attrib: string): nat
  {
    if '.' in attrib then 1 else 0
  }

  /** `removeAttrib(attrib)` on a document (jdocument.py:706-745). On an
      object: an empty name removes nothing, a plain name is deleted when
      present (count 1), a dotted name is walked, then deleted. On a list:
      every item, in order, as `jDocument(item)`. */
  function RemoveAttrib(d: Document, attrib: string): (o: Outcome<Document, nat>)
    requires Removable(attrib)
    ensures d.Obj? <==> o.doc.Obj?
    ensures d.Obj? && attrib != "" && '.' !in attrib ==>
      o == Outcome(Obj(Delete(d.fields, attrib)), Ok(if attrib in Keys(d.fields) then 1 else 0))
    ensures d.Obj? && attrib == "" ==> o == Outcome(d, Ok(0))
    decreases Depth(attrib), Size(d), 1, 0
  {
    if d.Obj? then
      if attrib == "" then Outcome(d, Ok(0))
      else if '.' !in attrib then
        Outcome(Obj(Delete(d.fields, attrib)), Ok(if attrib in Keys(d.fields) then 1 else 0))
      else
        match Navigate(d, Init(attrib))
        case Err(e) => Outcome(d, Err(e))
        case Ok(_) =>
          var o := Apply(d, Init(attrib), Last(attrib));
          Outcome(o.doc, o.result)
    else
      var o := RemoveEach(d.items, attrib);
      Outcome(Arr(o.doc), o.result)
  }

  /** `for obj in self: q += obj.removeAttrib(...)` on a list: a dict or a
      list item is changed in place, `None` becomes a fresh empty object
      (whose changes are lost), any other item is handed to the JSON text
      decoder. The first exception stops the loop. */
  function RemoveEach(xs: seq<Value>, attrib: string): (o: Outcome<seq<Value>, nat>)
    requires Removable(attrib)
    ensures |o.doc| == |xs|
    decreases Depth(attrib), SizeSeq(xs), 2, 0
  {
    if |xs| == 0 then Outcome([], Ok(0))
    else
      var head := RemoveItem(xs[0], attrib);
      if head.result.Err? then Outcome([head.doc] + xs[1..], Err(head.result.error))
      else
        var rest := RemoveEach(xs[1..], attrib);
        Outcome([head.doc] + rest.doc, Add(head.result.value, rest.result))
  }

  /** `q += ...` after the rest of the list: the first exception wins. */
  function Add(n: nat, rest: Result<nat>): (r: Result<nat>)
    ensures rest.Ok? ==> r == Ok(n + rest.value)
    ensures rest.Err? ==> r == rest
  {
    match rest
    case Ok(m) => Ok(n + m)
    case Err(e) => Err(e)
  }

  /** One item of the list loop: a dict or a list is changed in place,
      `None` becomes a fresh empty object whose changes are lost, any other
      item is handed to the JSON text decoder, which rejects it. */
  function RemoveItem(x: Value, attrib: string): (o: Outcome<Value, nat>)
    requires Removable(attrib)
    ensures x.Obj? || x.Arr? ==> o == RemoveAttrib(x, attrib)
    ensures !x.Obj? && !x.Arr? ==> o.doc == x
    decreases Depth(attrib), Size(x), 1, 1
  {
    match x
    case Obj(_) => RemoveAttrib(x, attrib)
    case Arr(_) => RemoveAttrib(x, attrib)
    case Null => Outcome(x, RemoveAttrib(Obj([]), attrib).result)
    case _ => Outcome(x, Err(CodecInput))
  }

  /** The second phase on the stored value: the deletions that
      `obj.removeAttrib(last)` performs on the dicts the walk reached. A
      list is walked item by item, as the fresh list `get` built holds the
      items' values in the same order; an item without the key, or `None`,
      contributes nothing. */
  function Apply(v: Value, segs: seq<string>, last: string): (o: Outcome<Value, nat>)
    requires '.' !in last
    ensures v.Obj? <==> o.doc.Obj?
    ensures v.Arr? <==> o.doc.Arr?
    decreases 1, Size(v), 0, |segs|
  {
    if |segs| == 0 then
      match v
      case Obj(_) => var o := RemoveAttrib(v, last); Outcome(o.doc, o.result)
      case Arr(_) => var o := RemoveAttrib(v, last); Outcome(o.doc, o.result)
      case Null => Outcome(v, Ok(0))
      case _ => Outcome(v, Err(CodecInput))
    else
      match v
      case Obj(fs) =>
        if segs[0] == "" then Apply(v, segs[1..], last)
        else
          (match Lookup(fs, segs[0])
           case None => Outcome(v, Ok(0))
           case Some(c) =>
             var o := Apply(c, segs[1..], last);
             Outcome(Obj(Put(fs, segs[0], o.doc)), o.result))
      case Arr(xs) =>
        if segs[0] == "" then Apply(v, segs[1..], last)
        else if StartsWith(segs[0], ArrayWord) then Outcome(v, Ok(0))
        else
          var o := ApplyEach(xs, segs, last);
          Outcome(Arr(o.doc), o.result)
      case Null => Outcome(v, Ok(0))
      case _ => Outcome(v, Err(CodecInput))
  }

  function ApplyEach(xs: seq<Value>, segs: seq<string>, last: string): (o: Outcome<seq<Value>, nat>)
    requires '.' !in last
    ensures |o.doc| == |xs|
    decreases 1, SizeSeq(xs), 1, |segs|
  {
    if |xs| == 0 then Outcome([], Ok(0))
    else
      var head := Apply(xs[0], segs, last);
      match head.result
      case Err(e) => Outcome([head.doc] + xs[1..], Err(e))
      case Ok(n) =>
        var rest := ApplyEach(xs[1..], segs, last);
        Outcome([head.doc] + rest.doc, match rest.result case Ok(m) => Ok(n + m) case Err(e) => Err(e))
  }

  /** `removeAttrib(attribs=[...])`: each name in turn, on both kinds of
      document, the counts added up and the changes kept when one raises.
      An empty list is false and behaves as no name at all. */
  function RemoveAttribs(d: Document, attribs: seq<string>): (o: Outcome<Document, nat>)
    requires forall i :: 0 <= i < |attribs| ==> Removable(attribs[i])
    ensures d.Obj? <==> o.doc.Obj?
    ensures |attribs| == 0 ==> o == RemoveAttrib(d, "")
    decreases |attribs|
  {
    if |attribs| == 0 then RemoveAttrib(d, "")
    else RemoveSeveral(d, attribs)
  }

  function RemoveSeveral(d: Document, attribs: seq<string>): (o: Outcome<Document, nat>)
    requires forall i :: 0 <= i < |attribs| ==> Removable(attribs[i])
    ensures d.Obj? <==> o.doc.Obj?
    ensures |attribs| == 0 ==> o == Outcome(d, Ok(0))
    decreases |attribs|
  {
    if |attribs| == 0 then Outcome(d, Ok(0))
    else
      var first := RemoveAttrib(d, attribs[0]);
      match first.result
      case Err(e) => first
      case Ok(n) =>
        var rest := RemoveSeveral(first.doc, attribs[1..]);
        Outcome(rest.doc, Add(n, rest.result))
  }

  // ---------------------------------------------------------------- properties

  /** A plain name: the count says whether it was there, it is gone
      afterwards, every other key keeps its value. */
  lemma RemovePlain(d: Document, k: string)
    requires d.Obj? && k != "" && '.' !in k
    ensures var o := RemoveAttrib(d, k);
      o.doc.Obj? && (o.result == Ok(1) <==> k in Keys(d.fields)) &&
      (o.result == Ok(0) <==> k !in Keys(d.fields)) &&
      k !in Keys(o.doc.fields) &&
      forall k' :: k' != k ==> Lookup(o.doc.fields, k') == Lookup(d.fields, k')
  {
  }

  /** Removing the same plain name twice: the second call finds nothing
      and changes nothing. */
  lemma RemoveTwice(d: Document, k: string)
    requires d.Obj? && '.' !in k
    ensures var o := RemoveAttrib(d, k);
      RemoveAttrib(o.doc, k) == Outcome(o.doc, Ok(0))
  {
  }

  /** How many items of a list are objects holding `k`. */
  function Holding(xs: seq<Value>, k: string): (n: nat)
    ensures n <= |xs|
  {
    if |xs| == 0 then 0
    else (if xs[0].Obj? && k in Keys(xs[0].fields) then 1 else 0) + Holding(xs[1..], k)
  }

  /** On a list of objects a plain name is deleted from every item; the
      count is the number of items that held it. */
  lemma RemoveFromObjects(xs: seq<Value>, k: string)
    requires AllObjects(xs) && k != "" && '.' !in k
    ensures var o := RemoveAttrib(Arr(xs), k);
      o.result == Ok(Holding(xs, k)) && o.doc.Arr? && |o.doc.items| == |xs| &&
      forall i :: 0 <= i < |xs| ==> o.doc.items[i] == Obj(Delete(xs[i].fields, k))
  {
    RemoveEachObjects(xs, k);
    forall i | 0 <= i < |xs|
      ensures DeleteFromEach(xs, k)[i] == Obj(Delete(xs[i].fields, k))
    {
      DeleteFromEachAt(xs, k, i);
    }
  }

  /** Every object item with `k` deleted; other items as they are. */
  function DeleteFromEach(xs: seq<Value>, k: string): seq<Value>
  {
    if |xs| == 0 then []
    else [if xs[0].Obj? then Obj(Delete(xs[0].fields, k)) else xs[0]] + DeleteFromEach(xs[1..], k)
  }

  lemma {:induction false} DeleteFromEachAt(xs: seq<Value>, k: string, i: nat)
    requires i < |xs|
    ensures |DeleteFromEach(xs, k)| == |xs|
    ensures DeleteFromEach(xs, k)[i] == if xs[i].Obj? then Obj(Delete(xs[i].fields, k)) else xs[i]
    decreases |xs|
  {
    if i == 0 {
      if |xs| > 1 {
        DeleteFromEachAt(xs[1..], k, 0);
      }
    } else {
      DeleteFromEachAt(xs[1..], k, i - 1);
    }
  }

  lemma {:induction false} RemoveEachObjects(xs: seq<Value>, k: string)
    requires AllObjects(xs) && k != "" && '.' !in k
    ensures var o := RemoveEach(xs, k);
      o.result == Ok(Holding(xs, k)) && o.doc == DeleteFromEach(xs, k)
  {
    if |xs| > 0 {
      assert AllObjects(xs[1..]) by {
        forall i | 0 <= i < |xs[1..]| ensures xs[1..][i].Obj? {
          assert xs[1..][i] == xs[i + 1];
        }
      }
      RemoveEachObjects(xs[1..], k);
      var n := if k in Keys(xs[0].fields) then 1 else 0;
      ItemPlain(xs[0], k);
      RemoveEachHead(xs, k, n);
      HoldingCons(xs, k);
    }
  }

  lemma ItemPlain(x: Value, k: string)
    requires x.Obj? && k != "" && '.' !in k
    ensures RemoveItem(x, k) == Outcome(Obj(Delete(x.fields, k)), Ok(if k in Keys(x.fields) then 1 else 0))
  {
    assert RemoveItem(x, k) == RemoveAttrib(x, k);
  }

  lemma HoldingCons(xs: seq<Value>, k: string)
    requires |xs| > 0 && xs[0].Obj?
    ensures Add(if k in Keys(xs[0].fields) then 1 else 0, Ok(Holding(xs[1..], k))) == Ok(Holding(xs, k))
  {
    HoldingStep(xs, k);
    AddOk(if k in Keys(xs[0].fields) then 1 else 0, Holding(xs[1..], k), Holding(xs, k));
  }

  lemma HoldingStep(xs: seq<Value>, k: string)
    requires |xs| > 0 && xs[0].Obj?
    ensures Holding(xs, k) == (if k in Keys(xs[0].fields) then 1 else 0) + Holding(xs[1..], k)
  {
  }

  /** The list loop past an item whose removal succeeded with count `n`. */
  lemma RemoveEachHead(xs: seq<Value>, k: string, n: nat)
    requires Removable(k) && |xs| > 0 && RemoveItem(xs[0], k).result == Ok(n)
    ensures RemoveEach(xs, k).doc == [RemoveItem(xs[0], k).doc] + RemoveEach(xs[1..], k).doc
    ensures RemoveEach(xs, k).result == Add(n, RemoveEach(xs[1..], k).result)
  {
  }

  /** `get` of a plain, non-empty name on an object. */
  lemma GetMember(fs: seq<Member>, k: string)
    requires k != "" && '.' !in k && '[' !in k
    ensures Get(Obj(fs), k, Null, false, false) == Ok(Wrap(LookupOrNull(fs, k), false))
  {
  }

  /** The walk over plain segments through nested objects succeeds. */
  lemma {:induction false} NavigateObjects(v: Value, segs: seq<string>, fs: seq<Member>)
    requires v.Obj? && forall i :: 0 <= i < |segs| ==> segs[i] != "" && '.' !in segs[i] && '[' !in segs[i]
    requires PathLookup(v, segs) == Some(Obj(fs))
    ensures Navigate(v, segs) == Ok(Obj(fs))
    decreases |segs|
  {
    if |segs| > 0 {
      GetMember(v.fields, segs[0]);
      var c := Lookup(v.fields, segs[0]).value;
      PathObject(c, segs[1..], fs);
      NavigateObjects(c, segs[1..], fs);
    }
  }

  /** A path that ends at an object passes only through objects. */
  lemma PathObject(v: Value, segs: seq<string>, fs: seq<Member>)
    requires PathLookup(v, segs) == Some(Obj(fs))
    ensures v.Obj?
  {
  }

  /** The deletion at the end of plain segments through nested objects:
      the object the path reaches loses `last`; every key off the path is
      untouched. */
  lemma {:induction false} ApplyObjects(v: Value, segs: seq<string>, last: string, fs: seq<Member>)
    requires '.' !in last && last != ""
    requires forall i :: 0 <= i < |segs| ==> segs[i] != ""
    requires PathLookup(v, segs) == Some(Obj(fs))
    ensures var o := Apply(v, segs, last);
      o.result == Ok(if last in Keys(fs) then 1 else 0) &&
      PathLookup(o.doc, segs) == Some(Obj(Delete(fs, last)))
    ensures |segs| > 0 ==> forall k :: k != segs[0] ==> Lookup(Apply(v, segs, last).doc.fields, k) == Lookup(v.fields, k)
    decreases |segs|
  {
    if |segs| > 0 {
      var c := Lookup(v.fields, segs[0]).value;
      ApplyObjects(c, segs[1..], last, fs);
      var o := Apply(v, segs, last);
      assert PathLookup(o.doc, segs) == PathLookup(Apply(c, segs[1..], last).doc, segs[1..]);
    }
  }

  /** `removeAttrib('k1.k2...kn.last')` when `k1...kn` lead through objects
      to an object: that object loses `last` (count 1 when it had it), and
      keys other than `k1` of the document are untouched. */
  lemma RemoveNested(d: Document, keys: seq<string>, fs: seq<Member>)
    requires d.Obj? && PlainPath(keys) && |keys| >= 2
    requires PathLookup(d, keys[..|keys| - 1]) == Some(Obj(fs))
    ensures Removable(Join(keys, '.'))
    ensures var o := RemoveAttrib(d, Join(keys, '.'));
      var last := keys[|keys| - 1];
      o.result == Ok(if last in Keys(fs) then 1 else 0) &&
      PathLookup(o.doc, keys[..|keys| - 1]) == Some(Obj(Delete(fs, last))) &&
      forall k :: k != keys[0] ==> Lookup(o.doc.fields, k) == Lookup(d.fields, k)
  {
    var at := Join(keys, '.');
    DottedParts(keys);
    NavigateObjects(d, Init(at), fs);
    ApplyObjects(d, Init(at), Last(at), fs);
    RemoveDotted(d, at);
  }

  /** A dotted name built from plain keys splits back into them. */
  lemma DottedParts(keys: seq<string>)
    requires PlainPath(keys) && |keys| >= 2
    ensures var at := Join(keys, '.');
      '.' in at && '[' !in at && at != "" &&
      Init(at) == keys[..|keys| - 1] && Last(at) == keys[|keys| - 1]
  {
    var at := Join(keys, '.');
    assert at == keys[0] + ['.'] + Join(keys[1..], '.');
    assert at[|keys[0]|] == '.';
    JoinSplit(keys, '.');
    JoinChars(keys, '.', '[');
  }

  /** A dotted removal that the walk lets through is the deletion phase. */
  lemma RemoveDotted(d: Document, at: string)
    requires d.Obj? && '.' in at && '[' !in at && Navigate(d, Init(at)).Ok?
    ensures RemoveAttrib(d, at) == Outcome(Apply(d, Init(at), Last(at)).doc, Apply(d, Init(at), Last(at)).result)
  {
  }

  /** Several distinct plain names on an object: each is gone, the count is
      how many were there, other keys keep their values. */
  lemma {:induction false} RemoveSeveralPlain(d: Document, ks: seq<string>)
    requires d.Obj? && forall i :: 0 <= i < |ks| ==> ks[i] != "" && '.' !in ks[i]
    requires forall i, j :: 0 <= i < j < |ks| ==> ks[i] != ks[j]
    ensures forall i :: 0 <= i < |ks| ==> Removable(ks[i])
    ensures var o := RemoveSeveral(d, ks);
      o.doc.Obj? && o.result == Ok(Present(d.fields, ks)) &&
      (forall i :: 0 <= i < |ks| ==> ks[i] !in Keys(o.doc.fields)) &&
      (forall k :: k !in ks ==> Lookup(o.doc.fields, k) == Lookup(d.fields, k))
    decreases |ks|
  {
    if |ks| > 0 {
      var n := if ks[0] in Keys(d.fields) then 1 else 0;
      var d1 := Obj(Delete(d.fields, ks[0]));
      assert RemoveAttrib(d, ks[0]) == Outcome(d1, Ok(n));
      TailPlainDistinct(ks);
      RemoveSeveralPlain(d1, ks[1..]);
      RemoveSeveralHead(d, ks, n);
      PresentAfterDelete(d.fields, ks[1..], ks[0]);
      PresentCons(d.fields, ks);
      var o := RemoveSeveral(d, ks);
      GoneAll(ks, d1.fields, o.doc.fields);
      OthersKept(ks, d.fields, o.doc.fields);
    }
  }

  /** The first name is gone after its own removal, and later removals and
      keeps leave it so. */
  lemma GoneAll(ks: seq<string>, before: seq<Member>, after: seq<Member>)
    requires |ks| > 0 && ks[0] !in Keys(before)
    requires forall i :: 0 <= i < |ks[1..]| ==> ks[1..][i] !in Keys(after)
    requires forall k :: k !in ks[1..] ==> Lookup(after, k) == Lookup(before, k)
    ensures forall i :: 0 <= i < |ks| ==> ks[i] !in Keys(after)
  {
    forall i | 0 <= i < |ks|
      ensures ks[i] !in Keys(after)
    {
      if i > 0 {
        assert ks[1..][i - 1] == ks[i];
      } else if ks[0] !in ks[1..] {
        assert Lookup(after, ks[0]) == None;
      }
    }
  }

  /** A name that is none of the removed ones keeps its value through the
      first deletion and the rest. */
  lemma OthersKept(ks: seq<string>, fs: seq<Member>, after: seq<Member>)
    requires |ks| > 0
    requires forall k :: k !in ks[1..] ==> Lookup(after, k) == Lookup(Delete(fs, ks[0]), k)
    ensures forall k :: k !in ks ==> Lookup(after, k) == Lookup(fs, k)
  {
    forall k | k !in ks
      ensures Lookup(after, k) == Lookup(fs, k)
    {
      assert k != ks[0] && k !in ks[1..];
    }
  }

  lemma PresentCons(fs: seq<Member>, ks: seq<string>)
    requires |ks| > 0
    ensures Add(if ks[0] in Keys(fs) then 1 else 0, Ok(Present(fs, ks[1..]))) == Ok(Present(fs, ks))
  {
    PresentStep(fs, ks);
    AddOk(if ks[0] in Keys(fs) then 1 else 0, Present(fs, ks[1..]), Present(fs, ks));
  }

  lemma PresentStep(fs: seq<Member>, ks: seq<string>)
    requires |ks| > 0
    ensures Present(fs, ks) == (if ks[0] in Keys(fs) then 1 else 0) + Present(fs, ks[1..])
  {
  }

  lemma AddOk(n: nat, m: nat, k: nat)
    requires k == n + m
    ensures Add(n, Ok(m)) == Ok(k)
  {
  }

  /** The names after the first are still plain and distinct, and none of
      them is the first. */
  lemma TailPlainDistinct(ks: seq<string>)
    requires |ks| > 0 && forall i :: 0 <= i < |ks| ==> ks[i] != "" && '.' !in ks[i]
    requires forall i, j :: 0 <= i < j < |ks| ==> ks[i] != ks[j]
    ensures forall i :: 0 <= i < |ks[1..]| ==> ks[1..][i] != "" && '.' !in ks[1..][i]
    ensures forall i, j :: 0 <= i < j < |ks[1..]| ==> ks[1..][i] != ks[1..][j]
    ensures ks[0] !in ks[1..]
  {
    forall i, j | 0 <= i < j < |ks[1..]|
      ensures ks[1..][i] != ks[1..][j]
    {
      assert ks[1..][i] == ks[i + 1] && ks[1..][j] == ks[j + 1];
    }
    forall i | 0 <= i < |ks[1..]|
      ensures ks[1..][i] != ks[0]
    {
      assert ks[1..][i] == ks[i + 1];
    }
  }

  /** The loop over several names after a first removal that succeeded with
      count `n`. */
  lemma RemoveSeveralHead(d: Document, ks: seq<string>, n: nat)
    requires |ks| > 0 && forall i :: 0 <= i < |ks| ==> Removable(ks[i])
    requires RemoveAttrib(d, ks[0]).result == Ok(n)
    ensures var rest := RemoveSeveral(RemoveAttrib(d, ks[0]).doc, ks[1..]);
      RemoveSeveral(d, ks) == Outcome(rest.doc, Add(n, rest.result))
  {
  }

  /** How many of the names are keys of the dict. */
  function Present(fs: seq<Member>, ks: seq<string>): (n: nat)
    ensures n <= |ks|
  {
    if |ks| == 0 then 0 else (if ks[0] in Keys(fs) then 1 else 0) + Present(fs, ks[1..])
  }

  lemma {:induction false} PresentAfterDelete(fs: seq<Member>, ks: seq<string>, k: string)
    requires k !in ks
    ensures Present(Delete(fs, k), ks) == Present(fs, ks)
    decreases |ks|
  {
    if |ks| > 0 {
      PresentAfterDelete(fs, ks[1..], k);
      assert Lookup(Delete(fs, k), ks[0]) == Lookup(fs, ks[0]);
    }
  }
}

=== FILE: resolver.dfy ===
/** Reading a document: the path language of `value`/`get`
    (jdocument.py:413-601) and the simple filter engine behind `findDocs` and
    `findOneDoc` (jdocument.py:888-1027). The two are one recursive family:
    a `name[attr=literal]` subscript runs a `findOneDoc` on the list it names,
    and a filter on a dotted attribute reads it with `get`. Every function is
    measured by the size of the value it inspects. */
module Resolver {
  import opened Outcomes
  import opened Text
  import opened Json
  import opened PyValues
  import opened Documents
  import opened Macros

  /** How `findDocs` compares a rule with an attribute: plain `!=`, or the
      macro language of `_findDocs_TestAttrib` (`flagMacros=True`). */
  datatype Mode = Plain | WithMacros(search: (string, string) -> bool)

  /** A filter is one dict of `attribute: rule` pairs or a list of them. */
  datatype Filters = Dict(conds: seq<Member>) | Groups(groups: seq<seq<Member>>)

  /** `[filters] if isinstance(filters, dict) else filters` (jdocument.py:1013). */
  function GroupsOf(f: Filters): seq<seq<Member>>
  {
    match f
    case Dict(c) => [c]
    case Groups(gs) => gs
  }

  /** Every `(attribute, rule)` pair of every group, in the order they are tried. */
  function Conditions(groups: seq<seq<Member>>): (cs: seq<Member>)
    ensures forall g, c :: g in groups && c in g ==> c in cs
    ensures forall c :: c in cs ==> exists g :: g in groups && c in g
  {
    if |groups| == 0 then [] else groups[0] + Conditions(groups[1..])
  }

  /** The literal `'Array'` a path uses to address the list document itself. */
  const ArrayWord: string := "Array"

  // ---------------------------------------------------------------- elementary Python steps

  /** `x[k]` for a string key: dicts only. */
  function Sub(x: Value, k: string): (r: Result<Value>)
    ensures r.Ok? ==> Size(r.value) < Size(x)
    ensures x.Obj? && k in Keys(x.fields) ==> r == Ok(LookupOrNull(x.fields, k))
    ensures x.Obj? && k !in Keys(x.fields) ==> r == Err(KeyError)
    ensures !x.Obj? ==> r == Err(TypeError)
  {
    match x
    case Obj(fs) =>
      (match Lookup(fs, k)
       case Some(v) => Ok(v)
       case None => Err(KeyError))
    case _ => Err(TypeError)
  }

  /** The position Python's `xs[i]` addresses, negative indexes counting from the end. */
  predicate InRange(n: nat, i: int) { -(n as int) <= i < n }

  function Position(n: nat, i: int): (p: nat)
    requires InRange(n, i)
    ensures p < n
  {
    if i < 0 then n + i else i
  }

  /** `x[i]` for an integer: list items, characters of a string; a dict has
      no integer keys. */
  function Index(x: Value, i: int): (r: Result<Value>)
    ensures r.Ok? ==> Size(r.value) <= Size(x)
    ensures x.Arr? ==> r == (if InRange(|x.items|, i) then Ok(x.items[Position(|x.items|, i)]) else Err(IndexError))
    ensures x.Obj? ==> r == Err(KeyError)
  {
    match x
    case Arr(xs) =>
      if InRange(|xs|, i) then
        ElementSmaller(xs, xs[Position(|xs|, i)]);
        Ok(xs[Position(|xs|, i)])
      else Err(IndexError)
    case Str(s) =>
      if InRange(|s|, i) then Ok(Str([s[Position(|s|, i)]])) else Err(IndexError)
    case Obj(_) => Err(KeyError)
    case _ => Err(TypeError)
  }

  /** `valAttr` of `_findDocs_TestDoc` (jdocument.py:953-967): dicts and lists
      read from the document are compared through their `str()`. */
  function Stringified(f: Fetched): Fetched
  {
    match f
    case Raw(Obj(_)) => Raw(Str(Repr(f.v)))
    case Raw(Arr(_)) => Raw(Str(Repr(f.v)))
    case _ => f
  }

  /** One condition test: `ruleExpr != valAttr`, or the macro language. */
  function TestRule(rule: Value, val: Fetched, mode: Mode): Result<bool>
  {
    match mode
    case Plain => Ok(RuleEq(rule, val))
    case WithMacros(search) => TestAttrib(rule, val, search)
  }

  // ---------------------------------------------------------------- the recursive family

  /** `jDoc.get(attribute, defaultValue, flagRaiseError, flagReturnEmptyListAsDoc)`:
      `value`'s result, with raw data passed through the wrapping rule; a
      `jDocument` that `value` returned is neither a dict nor a list and
      comes back as it is. */
  function Get(d: Document, attr: string, default: Value, raise: bool, emptyListAsDoc: bool): (r: Result<Fetched>)
    ensures r.Ok? <==> ValueOf(d, attr, default, raise).Ok?
    ensures r.Ok? ==> Unwrap(r.value) == ValueOf(d, attr, default, raise).value
    ensures r.Ok? && !ListSubscript(d, attr) ==> r.value == Wrap(ValueOf(d, attr, default, raise).value, emptyListAsDoc)
    ensures r.Ok? && ListSubscript(d, attr) ==> r.value == ValueFetched(d, attr, default, raise).value
    decreases Size(d), 6, 0
  {
    match ValueFetched(d, attr, default, raise)
    case Ok(Raw(v)) => Ok(Wrap(v, emptyListAsDoc))
    case Ok(Doc(x)) => Ok(Doc(x))
    case Err(e) => Err(e)
  }

  /** The branch of `value` for a subscripted name on a list document
      (jdocument.py:442-466), the only one that returns a `jDocument`. */
  predicate ListSubscript(d: Document, attr: string)
  {
    d.Arr? && attr != "" && !StartsWith(attr, ArrayWord) && '[' in attr
  }

  /** `jDoc.value(attribute, defaultValue, flagRaiseError)` for a string
      attribute, as the caller receives it: a subscripted name on a list
      document hands back the `jDocument` `findOneDoc` built, or `None`
      (jdocument.py:463-465); every other branch returns raw data. */
  function ValueFetched(d: Document, attr: string, default: Value, raise: bool): (r: Result<Fetched>)
    ensures r.Ok? <==> ValueOf(d, attr, default, raise).Ok?
    ensures r.Ok? ==> Unwrap(r.value) == ValueOf(d, attr, default, raise).value
    ensures !ListSubscript(d, attr) && r.Ok? ==> r.value.Raw?
    ensures ListSubscript(d, attr) && r.Ok? ==> (r.value.Doc? <==> r.value != Raw(Null))
    decreases Size(d), 5, 1
  {
    if ListSubscript(d, attr) then ArraySubscript(d, attr)
    else
      match ValueOf(d, attr, default, raise)
      case Ok(v) => Ok(Raw(v))
      case Err(e) => Err(e)
  }

  /** The data `jDoc.value(attribute, defaultValue, flagRaiseError)` returns
      for a string attribute (jdocument.py:435-531): `ValueFetched`,
      with the `jDocument` of a list-document subscript replaced by the
      data it wraps. */
  function ValueOf(d: Document, attr: string, default: Value, raise: bool): (r: Result<Value>)
    ensures attr == "" ==> r == Ok(d)
    ensures default == Null && r.Ok? ==> Size(r.value) <= Size(d)
    ensures !raise && (d.Obj? || StartsWith(attr, ArrayWord)) ==> r.Ok?
    ensures raise && (d.Obj? || StartsWith(attr, ArrayWord)) && r.Err? ==> r.error.Rethrown?
    decreases Size(d), 5, 0
  {
    if attr == "" then Ok(d)
    else if d.Arr? && !StartsWith(attr, ArrayWord) then
      if '[' in attr then
        match ArraySubscript(d, attr)
        case Ok(f) => Ok(Unwrap(f))
        case Err(e) => Err(e)
      else
        match Broadcast(d.items, attr, default)
        case Ok(vs) => Ok(Arr(vs))
        case Err(e) => Err(e)
    else if '.' !in attr && '[' !in attr then Direct(d, attr, default, raise)
    else
      match Walk(d, Split(attr, '.'))
      case Ok(v) => Ok(v)
      case Err(e) => if raise then Err(Rethrown(e)) else Ok(default)
  }

  /** `self._jdata[attribute]` with its `except` (jdocument.py:478-489): the
      `KeyError` of an absent key, or the `TypeError` of a list document
      indexed by a string, becomes the default, or with the flag a plain
      `Exception` naming that class. */
  function Direct(d: Document, attr: string, default: Value, raise: bool): (r: Result<Value>)
    ensures d.Obj? && attr in Keys(d.fields) ==> r == Ok(LookupOrNull(d.fields, attr))
    ensures (d.Arr? || attr !in Keys(d.fields)) ==>
      r == (if raise then Err(Rethrown(if d.Obj? then KeyError else TypeError)) else Ok(default))
  {
    match Sub(d, attr)
    case Ok(v) => Ok(v)
    case Err(e) => if raise then Err(Rethrown(e)) else Ok(default)
  }

  /** The subscript branch of a list document (jdocument.py:445-467), which
      has no `except`. A numeric subscript indexes the list with a string and
      always raises; a condition splits the whole attribute at `=` and runs
      `findOneDoc` on `self.get(name)`, whose result is a `jDocument` or
      `None`. */
  function ArraySubscript(d: Document, attr: string): (r: Result<Fetched>)
    requires d.Arr? && '[' in attr
    ensures r.Ok? ==> Size(Unwrap(r.value)) <= Size(d)
    ensures r.Ok? ==> (r.value.Doc? <==> r.value != Raw(Null))
    decreases Size(d), 4, 1
  {
    var parts := Split(attr, '[');
    var lst := parts[0];
    var pont := RemoveChar(parts[1], ']');
    if IsDigits(pont) then Err(TypeError)
    else
      var expr := Split(attr, '=');
      if |expr| < 2 then Err(IndexError)
      else
        var p1 := Strip(expr[0]);
        var p2 := Strip(expr[1]);
        var named :=
          if lst == "" then Ok(d.items)
          else Broadcast(d.items, lst, Null);
        match named
        case Err(e) => Err(e)
        case Ok(vs) =>
          match Wrap(Arr(vs), false)
          case Raw(_) => Err(AttributeError)
          case Doc(xd) =>
            match FindOne(xd, Dict([Member(p1, Str(p2))]), Plain)
            case Err(e) => Err(e)
            case Ok(None) => Ok(Raw(Null))
            case Ok(Some(m)) => Ok(Doc(m))
  }

  /** `[jDocument(obj).value(attribute, defaultValue) for obj in self._jdata]`
      (jdocument.py:470): every item is read with the error flag off. */
  function Broadcast(items: seq<Value>, attr: string, default: Value): (r: Result<seq<Value>>)
    ensures r.Ok? ==> |r.value| == |items|
    ensures r.Ok? && default == Null ==> SizeSeq(r.value) <= SizeSeq(items)
    decreases SizeSeq(items) + 1, 4, 0
  {
    if |items| == 0 then Ok([])
    else
      match AsDocument(items[0])
      case Err(e) => Err(e)
      case Ok(doc) =>
        match ValueOf(doc, attr, default, false)
        case Err(e) => Err(e)
        case Ok(v) =>
          match Broadcast(items[1..], attr, default)
          case Err(e) => Err(e)
          case Ok(vs) => Ok([v] + vs)
  }

  /** The token walk of jdocument.py:496-521; any exception ends it. */
  function Walk(cursor: Value, toks: seq<string>): (r: Result<Value>)
    ensures r.Ok? ==> Size(r.value) <= Size(cursor)
    decreases Size(cursor), 3, |toks|
  {
    if |toks| == 0 then Ok(cursor)
    else
      match Step(cursor, toks[0])
      case Err(e) => Err(e)
      case Ok(next) => Walk(next, toks[1..])
  }

  /** One token of the walk: `name`, `name[i]`, `name[attr=literal]`, with
      `Array` standing for the current list itself (jdocument.py:497-519). */
  function Step(dic: Value, tk: string): (r: Result<Value>)
    ensures r.Ok? ==> Size(r.value) <= Size(dic)
    ensures '[' !in tk ==> r == Sub(dic, tk)
    decreases Size(dic), 2, 0
  {
    if '[' !in tk then Sub(dic, tk)
    else
      var parts := Split(tk, '[');
      var lst := parts[0];
      var inner := parts[1];
      var pont := RemoveChar(inner, ']');
      if IsDigits(RemoveChar(pont, '-')) then
        match ParseInt(pont)
        case None => Err(ValueError)
        case Some(i) =>
          if lst == ArrayWord then Index(dic, i)
          else
            match Sub(dic, lst)
            case Err(e) => Err(e)
            case Ok(l) => Index(l, i)
      else
        var expr := Split(inner, '=');
        if |expr| < 2 then Err(IndexError)
        else
          var p1 := Strip(expr[0]);
          var p2 := Strip(RemoveChar(expr[1], ']'));
          var target := if lst == ArrayWord then Ok(dic) else Sub(dic, lst);
          match target
          case Err(e) => Err(e)
          case Ok(t) =>
            match AsDocument(t)
            case Err(e) => Err(e)
            case Ok(td) =>
              match FindOne(td, Dict([Member(p1, Str(p2))]), Plain)
              case Err(e) => Err(e)
              case Ok(None) => Err(AttributeError)
              case Ok(Some(m)) => Ok(m)
  }

  /** `findOneDoc` (jdocument.py:888-909): `findDocs(filters, qty=1)`, then
      the first match wrapped as a document. */
  function FindOne(d: Document, f: Filters, mode: Mode): (r: Result<Option<Document>>)
    ensures r.Ok? && r.value.Some? ==> Size(r.value.value) < Size(d)
    ensures d.Obj? ==> r == Err(ShapeError)
    decreases Size(d), 1, 2
  {
    match FindDocs(d, f, Some(1), mode)
    case Err(e) => Err(e)
    case Ok(None) => Ok(None)
    case Ok(Some(ms)) =>
      ElementSmaller(d.items, ms[0]);
      match AsDocument(ms[0])
      case Err(e) => Err(e)
      case Ok(m) => Ok(Some(m))
  }

  /** `findDocs(filters, qty, flagMacros)` (jdocument.py:987-1027): raises on
      an object document; an empty result is `None`. */
  function FindDocs(d: Document, f: Filters, qty: Option<int>, mode: Mode): (r: Result<Option<seq<Value>>>)
    ensures d.Obj? ==> r == Err(ShapeError)
    ensures r.Ok? && r.value.Some? ==> |r.value.value| > 0 && forall x :: x in r.value.value ==> x in d.items
    decreases Size(d), 1, 1
  {
    if d.Obj? then Err(ShapeError)
    else
      match Scan(d.items, GroupsOf(f), qty, mode)
      case Err(e) => Err(e)
      case Ok(ms) => if |ms| == 0 then Ok(None) else Ok(Some(ms))
  }

  /** `filter(self._findDocs_TestDoc, self._jdata)` with the `qty` counter
      threaded through (jdocument.py:947-950, 981-982): a counter that is set
      and below 1 (only a negative one, since 0 is false) rejects the item;
      a set, non-zero counter is decremented after a match. */
  function Scan(items: seq<Value>, groups: seq<seq<Member>>, q: Option<int>, mode: Mode): (r: Result<seq<Value>>)
    ensures r.Ok? ==> |r.value| <= |items| && forall x :: x in r.value ==> x in items
    decreases SizeSeq(items) + 1, 1, 0
  {
    if |items| == 0 then Ok([])
    else if q.Some? && q.value != 0 && q.value < 1 then
      match Scan(items[1..], groups, q, mode)
      case Err(e) => Err(e)
      case Ok(rest) => Ok(rest)
    else
      match MatchDoc(items[0], Conditions(groups), mode)
      case Err(e) => Err(e)
      case Ok(false) =>
        (match Scan(items[1..], groups, q, mode)
         case Err(e) => Err(e)
         case Ok(rest) => Ok(rest))
      case Ok(true) =>
        var q' := if q.Some? && q.value != 0 then Some(q.value - 1) else q;
        match Scan(items[1..], groups, q', mode)
        case Err(e) => Err(e)
        case Ok(rest) => Ok([items[0]] + rest)
  }

  /** The attribute a condition reads (jdocument.py:954-961): a dotted name
      through `jDocument(docDic).get(at, None)`, a plain one through
      `docDic.get(at, None)`, which only dicts have. */
  function ReadAttr(doc: Value, at: string): (r: Result<Fetched>)
    ensures '.' !in at ==> r == (if doc.Obj? then Ok(Raw(LookupOrNull(doc.fields, at))) else Err(AttributeError))
    decreases Size(doc), 7, 0
  {
    if '.' in at then
      match AsDocument(doc)
      case Err(e) => Err(e)
      case Ok(dd) => Get(dd, at, Null, false, false)
    else if doc.Obj? then Ok(Raw(LookupOrNull(doc.fields, at)))
    else Err(AttributeError)
  }

  /** `_findDocs_TestDoc` without its counter: every condition, in order,
      until one fails or raises. */
  function MatchDoc(doc: Value, conds: seq<Member>, mode: Mode): (r: Result<bool>)
    ensures |conds| == 0 ==> r == Ok(true)
    decreases Size(doc), 8, |conds|
  {
    if |conds| == 0 then Ok(true)
    else
      match ReadAttr(doc, conds[0].key)
      case Err(e) => Err(e)
      case Ok(val) =>
        match TestRule(conds[0].val, Stringified(val), mode)
        case Err(e) => Err(e)
        case Ok(false) => Ok(false)
        case Ok(true) => MatchDoc(doc, conds[1..], mode)
  }
}

=== FILE: search.dfy ===
/** The structured filter of `searchDocs`/`testDoc` (jdocument.py:1173-1348):
    a list of groups, each group a list of conditions `attribute operator
    value`; the groups are ORed and the conditions of a group ANDed, both
    walked left to right with an early exit, and one flag carried across
    the whole walk.

    The filter arrives as a `jDocument`; here it is already decoded into
    groups of `Cond` records: an absent `Attribute` or `Operator` is written
    `""` (for both, `None` behaves as the empty string does), an absent
    `Value` is `Null`. */
module Search {
  import opened Outcomes
  import opened Text
  import opened Json
  import opened PyValues
  import opened Documents
  import opened Resolver

  datatype Cond = Cond(attribute: string, operator: string, value: Value)

  /** The attribute name that searches the document's whole JSON text. */
  const AllWord: string := "all"

  // ---------------------------------------------------------------- one condition

  /** A string filter value is lowered, and then so is a string attribute
      value; nothing else is touched (jdocument.py:1279-1284). */
  function FoldValue(value: Fetched): Fetched
  {
    match value
    case Raw(Str(s)) => Raw(Str(Lower(s)))
    case _ => value
  }

  function FoldAttribute(value: Fetched, attribVal: Fetched): Fetched
  {
    match (value, attribVal)
    case (Raw(Str(_)), Raw(Str(t))) => Raw(Str(Lower(t)))
    case _ => attribVal
  }

  function Not(r: Result<bool>): (n: Result<bool>)
    ensures n.Ok? <==> r.Ok?
    ensures r.Ok? ==> n.value == !r.value
    ensures r.Err? ==> n == r
  {
    match r
    case Ok(b) => Ok(!b)
    case Err(e) => Err(e)
  }

  /** The operator dispatch for an ordinary attribute (jdocument.py:1286-1338),
      on the already folded value and attribute value. */
  function Compare(op: string, value: Fetched, attribVal: Fetched, search: (string, string) -> bool): (r: Result<bool>)
    ensures op == "eq" && !FTruthy(value) ==> r == Ok(attribVal == Raw(Null))
    ensures op == "dif" && !FTruthy(value) ==> r == Ok(attribVal != Raw(Null))
    ensures op == "eq" && FTruthy(value) ==> r == Ok(FEq(attribVal, value))
    ensures op == "dif" && FTruthy(value) ==> r == Ok(!FEq(attribVal, value))
    ensures op != "eq" && op != "dif" && (!FTruthy(value) || !FTruthy(attribVal)) ==> r == Ok(false)
  {
    if op == "eq" then Ok(if !FTruthy(value) then attribVal == Raw(Null) else FEq(attribVal, value))
    else if op == "dif" then Ok(if !FTruthy(value) then attribVal != Raw(Null) else !FEq(attribVal, value))
    else if !FTruthy(value) || !FTruthy(attribVal) then Ok(false)
    else if op == "lteq" then FCmp(attribVal, value, Le)
    else if op == "gteq" then FCmp(attribVal, value, Ge)
    else if op == "lt" then FCmp(attribVal, value, Lt)
    else if op == "gt" then FCmp(attribVal, value, Gt)
    else if op == "ct" then Ok(Contains(FStr(attribVal), FStr(value)))
    else if op == "nct" then Ok(!Contains(FStr(attribVal), FStr(value)))
    else if op == "in" then PyIn(attribVal, value)
    else if op == "nin" then Not(PyIn(attribVal, value))
    else if op == "RegExp" then
      (match attribVal
       case Raw(Str(t)) =>
         (match value
          case Raw(Str(p)) => Ok(!search(p, t))
          case _ => Err(TypeError))
       case _ => Ok(false))
    else Err(OperatorError)
  }

  /** One condition against one document (jdocument.py:1259-1338): the
      attribute is read with `get` first, whatever the operator; `all`
      searches the lowered JSON text of the document for the lowered value. */
  function TestCond(host: Host, doc: Document, c: Cond): (r: Result<bool>)
  {
    var value := Wrap(c.value, false);
    match Get(doc, c.attribute, Null, false, false)
    case Err(e) => Err(e)
    case Ok(attribVal) =>
      if c.attribute == AllWord then
        if c.operator == "ct" || c.operator == "nct" then
          match value
          case Raw(Str(s)) =>
            var found := Contains(Lower(host.dump(doc)), Lower(s));
            Ok(if c.operator == "ct" then found else !found)
          case _ => Err(AttributeError)
        else Err(OperatorError)
      else Compare(c.operator, FoldValue(value), FoldAttribute(value, attribVal), host.search)
  }

  // ---------------------------------------------------------------- the walk

  /** The inner loop: `flag` is the flag as the group finds it; a false
      condition ends the group, an exception ends the search. An empty group
      leaves the flag as it was. */
  function TestAnd(host: Host, doc: Document, conds: seq<Cond>, flag: bool): (r: Result<bool>)
  {
    if |conds| == 0 then Ok(flag)
    else match TestCond(host, doc, conds[0])
      case Err(e) => Err(e)
      case Ok(b) => if !b then Ok(false) else TestAnd(host, doc, conds[1..], true)
  }

  /** The outer loop: a group that leaves the flag true ends the search. */
  function TestOr(host: Host, doc: Document, groups: seq<seq<Cond>>, flag: bool): (r: Result<bool>)
  {
    if |groups| == 0 then Ok(flag)
    else match TestAnd(host, doc, groups[0], flag)
      case Err(e) => Err(e)
      case Ok(b) => if b then Ok(true) else TestOr(host, doc, groups[1..], b)
  }

  /** `testDoc(jDoc, jOrFilters)`: the flag starts true. */
  function TestDoc(host: Host, doc: Document, groups: seq<seq<Cond>>): Result<bool>
  {
    TestOr(host, doc, groups, true)
  }

  // ---------------------------------------------------------------- searchDocs

  /** `list(filter(_searchDocs_TestDoc, items))`: each item is wrapped with
      `jDocument(item)` and tested; the first exception ends the search. */
  function Keep(host: Host, items: seq<Value>, groups: seq<seq<Cond>>): (r: Result<seq<Value>>)
    ensures r.Ok? ==> |r.value| <= |items| && forall x :: x in r.value ==> x in items
  {
    if |items| == 0 then Ok([])
    else match AsDocument(items[0])
      case Err(e) => Err(e)
      case Ok(doc) =>
        match TestDoc(host, doc, groups)
        case Err(e) => Err(e)
        case Ok(b) =>
          match Keep(host, items[1..], groups)
          case Err(e) => Err(e)
          case Ok(rest) => Ok(if b then [items[0]] + rest else rest)
  }

  /** `[Raw(x) for x in xs]`: items taken from the document's own data. */
  function Raws(xs: seq<Value>): (r: seq<Fetched>)
    ensures |r| == |xs| && forall i :: 0 <= i < |xs| ==> r[i] == Raw(xs[i])
  {
    seq(|xs|, i requires 0 <= i < |xs| => Raw(xs[i]))
  }

  /** `searchDocs(jOrFilters)` without an expression filter, given as the
      items of the list document it returns. An object document is tested
      itself and, when it passes, comes back as a `jDocument` inside the list
      (`jDocument([jDocument(self._jdata)])`); on a list document the kept
      items are the raw dicts, and an empty filter list is falsy so no item
      passes. `qty` is stored by the source and never read, so it is not a
      parameter here. */
  function SearchDocs(host: Host, d: Document, groups: seq<seq<Cond>>): (r: Result<seq<Fetched>>)
    ensures d.Obj? && r.Ok? ==> r.value == [] || r.value == [Doc(d)]
    ensures d.Arr? && r.Ok? ==> forall i :: 0 <= i < |r.value| ==> r.value[i].Raw? && r.value[i].v in d.items
    ensures d.Arr? && |groups| == 0 ==> r == Ok([])
  {
    if d.Obj? then
      match TestDoc(host, d, groups)
      case Err(e) => Err(e)
      case Ok(b) => Ok(if b then [Doc(d)] else [])
    else if |groups| == 0 then Ok([])
    else
      match Keep(host, d.items, groups)
      case Err(e) => Err(e)
      case Ok(rs) => Ok(Raws(rs))
  }
}

=== FILE: searchfacts.dfy ===
/** What `testDoc` and `searchDocs` compute, stated apart from the loops
    that compute it: the OR of the AND groups (with the empty-group quirk
    of the shared flag), the short circuits, and the per-operator meaning
    of one condition. */
module SearchFacts {
  import opened Outcomes
  import opened Text
  import opened Json
  import opened PyValues
  import opened Documents
  import opened Resolver
  import opened FilterFacts
  import opened Search

  /** The operators the dispatch knows (jdocument.py:1286-1335). */
  const Operators: set<string> := {"eq", "dif", "lteq", "gteq", "lt", "gt", "ct", "nct", "in", "nin", "RegExp"}

  /** A non-empty group whose every condition holds. */
  predicate GroupHolds(host: Host, doc: Document, g: seq<Cond>)
  {
    |g| > 0 && forall i :: 0 <= i < |g| ==> TestCond(host, doc, g[i]) == Ok(true)
  }

  /** No condition of the filter raises on this document. */
  predicate Defined(host: Host, doc: Document, groups: seq<seq<Cond>>)
  {
    forall k, i :: 0 <= k < |groups| && 0 <= i < |groups[k]| ==> TestCond(host, doc, groups[k][i]).Ok?
  }

  /** The filter's meaning: some group holds, or there is no group at all,
      or the first group is empty — an empty group passes on the flag it
      finds, which is true only before any group has failed. */
  predicate Matches(host: Host, doc: Document, groups: seq<seq<Cond>>)
  {
    |groups| == 0 || |groups[0]| == 0 || exists k :: 0 <= k < |groups| && GroupHolds(host, doc, groups[k])
  }

  // ---------------------------------------------------------------- the walk

  /** With every condition defined, an AND group is its conjunction; an empty
      group returns the flag it was given. */
  lemma {:induction false} AndValue(host: Host, doc: Document, conds: seq<Cond>, flag: bool)
    requires forall i :: 0 <= i < |conds| ==> TestCond(host, doc, conds[i]).Ok?
    ensures TestAnd(host, doc, conds, flag) == Ok(if |conds| == 0 then flag else GroupHolds(host, doc, conds))
    decreases |conds|
  {
    if |conds| > 0 {
      if TestCond(host, doc, conds[0]) == Ok(true) {
        var rest := conds[1..];
        AndValue(host, doc, rest, true);
        if |rest| > 0 {
          if GroupHolds(host, doc, rest) {
            forall i | 0 <= i < |conds| ensures TestCond(host, doc, conds[i]) == Ok(true) {
              if i > 0 { assert conds[i] == rest[i - 1]; }
            }
          } else {
            var i :| 0 <= i < |rest| && TestCond(host, doc, rest[i]) != Ok(true);
            assert conds[i + 1] == rest[i];
          }
        }
      }
    }
  }

  /** With every condition defined, the OR walk is true when the flag it
      starts with survives an empty first group, or when some group holds. */
  lemma {:induction false} OrValue(host: Host, doc: Document, groups: seq<seq<Cond>>, flag: bool)
    requires Defined(host, doc, groups)
    ensures TestOr(host, doc, groups, flag) ==
      Ok((flag && (|groups| == 0 || |groups[0]| == 0)) || exists k :: 0 <= k < |groups| && GroupHolds(host, doc, groups[k]))
    decreases |groups|
  {
    if |groups| > 0 {
      var g := groups[0];
      AndValue(host, doc, g, flag);
      var b := if |g| == 0 then flag else GroupHolds(host, doc, g);
      if !b {
        var rest := groups[1..];
        assert Defined(host, doc, rest) by {
          forall k, i | 0 <= k < |rest| && 0 <= i < |rest[k]| ensures TestCond(host, doc, rest[k][i]).Ok? {
            assert rest[k] == groups[k + 1];
          }
        }
        OrValue(host, doc, rest, false);
        if exists k :: 0 <= k < |groups| && GroupHolds(host, doc, groups[k]) {
          var k :| 0 <= k < |groups| && GroupHolds(host, doc, groups[k]);
          assert k > 0;
          assert rest[k - 1] == groups[k];
        }
        if exists k :: 0 <= k < |rest| && GroupHolds(host, doc, rest[k]) {
          var k :| 0 <= k < |rest| && GroupHolds(host, doc, rest[k]);
          assert groups[k + 1] == rest[k];
        }
      }
    }
  }

  /** `testDoc` decides `Matches` whenever no condition raises. */
  lemma TestDocSpec(host: Host, doc: Document, groups: seq<seq<Cond>>)
    requires Defined(host, doc, groups)
    ensures TestDoc(host, doc, groups) == Ok(Matches(host, doc, groups))
  {
    OrValue(host, doc, groups, true);
  }

  /** The AND loop breaks at the first false condition: nothing after it is
      evaluated, so a condition that would raise there raises nothing. */
  lemma {:induction false} AndStopsAtFalse(host: Host, doc: Document, pre: seq<Cond>, c: Cond, post: seq<Cond>, flag: bool)
    requires forall i :: 0 <= i < |pre| ==> TestCond(host, doc, pre[i]) == Ok(true)
    requires TestCond(host, doc, c) == Ok(false)
    ensures TestAnd(host, doc, pre + [c] + post, flag) == Ok(false)
    decreases |pre|
  {
    if |pre| > 0 {
      assert (pre + [c] + post)[1..] == pre[1..] + [c] + post;
      AndStopsAtFalse(host, doc, pre[1..], c, post, true);
    } else {
      assert (pre + [c] + post)[0] == c;
    }
  }

  /** The first condition that raises ends the whole search with its error. */
  lemma {:induction false} AndRaises(host: Host, doc: Document, pre: seq<Cond>, c: Cond, post: seq<Cond>, flag: bool, e: Error)
    requires forall i :: 0 <= i < |pre| ==> TestCond(host, doc, pre[i]) == Ok(true)
    requires TestCond(host, doc, c) == Err(e)
    ensures TestAnd(host, doc, pre + [c] + post, flag) == Err(e)
    decreases |pre|
  {
    if |pre| > 0 {
      assert (pre + [c] + post)[1..] == pre[1..] + [c] + post;
      AndRaises(host, doc, pre[1..], c, post, true, e);
    } else {
      assert (pre + [c] + post)[0] == c;
    }
  }

  /** The OR loop breaks at the first group that holds: later groups are
      never evaluated. */
  lemma {:induction false} OrStopsAtTrue(host: Host, doc: Document, pre: seq<seq<Cond>>, g: seq<Cond>, post: seq<seq<Cond>>, flag: bool)
    requires Defined(host, doc, pre)
    requires GroupHolds(host, doc, g)
    ensures TestOr(host, doc, pre + [g] + post, flag) == Ok(true)
    decreases |pre|
  {
    var all := pre + [g] + post;
    if |pre| > 0 {
      AndValue(host, doc, pre[0], flag);
      assert all[0] == pre[0];
      assert all[1..] == pre[1..] + [g] + post;
      var b := if |pre[0]| == 0 then flag else GroupHolds(host, doc, pre[0]);
      if !b {
        DefinedTail(host, doc, pre);
        OrStopsAtTrue(host, doc, pre[1..], g, post, b);
      }
    } else {
      assert all[0] == g;
      AndValue(host, doc, g, flag);
    }
  }

  lemma DefinedTail(host: Host, doc: Document, groups: seq<seq<Cond>>)
    requires |groups| > 0 && Defined(host, doc, groups)
    ensures Defined(host, doc, groups[1..])
  {
    var rest := groups[1..];
    forall k, i | 0 <= k < |rest| && 0 <= i < |rest[k]|
      ensures TestCond(host, doc, rest[k][i]).Ok?
    {
      assert rest[k] == groups[k + 1];
    }
  }

  // ---------------------------------------------------------------- one condition

  lemma FoldTruthy(value: Fetched, attribVal: Fetched)
    ensures FTruthy(FoldValue(value)) <==> FTruthy(value)
    ensures FTruthy(FoldAttribute(value, attribVal)) <==> FTruthy(attribVal)
  {
  }

  /** `eq` and `dif` with a falsy value test for a missing (or null)
      attribute, whatever the attribute's type. */
  lemma EqFalsyValue(host: Host, doc: Document, attr: string, v: Value)
    requires doc.Obj? && attr != AllWord && !Truthy(v)
    ensures TestCond(host, doc, Cond(attr, "eq", v)) == Ok(ValueOf(doc, attr, Null, false).value == Null)
    ensures TestCond(host, doc, Cond(attr, "dif", v)) == Ok(ValueOf(doc, attr, Null, false).value != Null)
  {
    var a := Get(doc, attr, Null, false, false);
    assert a.Ok?;
    FoldTruthy(Wrap(v, false), a.value);
    assert a.value == Raw(Null) <==> ValueOf(doc, attr, Null, false).value == Null;
    assert FoldAttribute(Wrap(v, false), a.value) == Raw(Null) <==> a.value == Raw(Null);
  }

  /** `eq` on a text attribute with a non-empty text value ignores case. */
  lemma EqIgnoresCase(host: Host, doc: Document, attr: string, s: string, t: string)
    requires attr != AllWord && |s| > 0
    requires Get(doc, attr, Null, false, false) == Ok(Raw(Str(t)))
    ensures TestCond(host, doc, Cond(attr, "eq", Str(s))) == Ok(Lower(t) == Lower(s))
    ensures TestCond(host, doc, Cond(attr, "dif", Str(s))) == Ok(Lower(t) != Lower(s))
  {
  }

  /** Any operator other than `eq` and `dif` is false when either side is
      falsy — even an operator the dispatch does not know. */
  lemma FalsyNeverMatches(host: Host, doc: Document, c: Cond, a: Fetched)
    requires c.attribute != AllWord && c.operator != "eq" && c.operator != "dif"
    requires Get(doc, c.attribute, Null, false, false) == Ok(a)
    requires !Truthy(c.value) || !FTruthy(a)
    ensures TestCond(host, doc, c) == Ok(false)
  {
    FoldTruthy(Wrap(c.value, false), a);
  }

  /** An unknown operator raises once both sides are truthy. */
  lemma UnknownOperatorRaises(host: Host, doc: Document, c: Cond, a: Fetched)
    requires c.attribute != AllWord && c.operator !in Operators
    requires Get(doc, c.attribute, Null, false, false) == Ok(a)
    requires Truthy(c.value) && FTruthy(a)
    ensures TestCond(host, doc, c) == Err(OperatorError)
  {
    FoldTruthy(Wrap(c.value, false), a);
  }

  /** Numbers compare by value under the four ordering operators. */
  lemma NumbersCompare(host: Host, doc: Document, attr: string, n: int, m: int)
    requires attr != AllWord && n != 0 && m != 0
    requires Get(doc, attr, Null, false, false) == Ok(Raw(Num(m)))
    ensures TestCond(host, doc, Cond(attr, "lt", Num(n))) == Ok(m < n)
    ensures TestCond(host, doc, Cond(attr, "lteq", Num(n))) == Ok(m <= n)
    ensures TestCond(host, doc, Cond(attr, "gt", Num(n))) == Ok(m > n)
    ensures TestCond(host, doc, Cond(attr, "gteq", Num(n))) == Ok(m >= n)
  {
  }

  /** `RegExp` keeps the documents whose lowered text the lowered pattern
      does NOT match, and is false on a non-text attribute. */
  lemma RegExpInverted(host: Host, doc: Document, attr: string, p: string, a: Fetched)
    requires attr != AllWord && |p| > 0 && FTruthy(a)
    requires Get(doc, attr, Null, false, false) == Ok(a)
    ensures a.Raw? && a.v.Str? ==> TestCond(host, doc, Cond(attr, "RegExp", Str(p))) == Ok(!host.search(Lower(p), Lower(a.v.s)))
    ensures !(a.Raw? && a.v.Str?) ==> TestCond(host, doc, Cond(attr, "RegExp", Str(p))) == Ok(false)
  {
    FoldTruthy(Wrap(Str(p), false), a);
  }

  /** The negated operators are the negations of `ct` and `in` — errors
      included — on `all`, and elsewhere once both sides are truthy. On a
      falsy side both are false instead (see `FalsyNeverMatches`). */
  lemma Complements(host: Host, doc: Document, attr: string, v: Value)
    requires attr == AllWord || (Truthy(v) && (Get(doc, attr, Null, false, false).Ok? ==> FTruthy(Get(doc, attr, Null, false, false).value)))
    ensures TestCond(host, doc, Cond(attr, "nct", v)) == Not(TestCond(host, doc, Cond(attr, "ct", v)))
    ensures TestCond(host, doc, Cond(attr, "nin", v)) == Not(TestCond(host, doc, Cond(attr, "in", v)))
  {
    ComplementsContains(host, doc, attr, v);
    ComplementsIn(host, doc, attr, v);
  }

  lemma ComplementsContains(host: Host, doc: Document, attr: string, v: Value)
    requires attr == AllWord || (Truthy(v) && (Get(doc, attr, Null, false, false).Ok? ==> FTruthy(Get(doc, attr, Null, false, false).value)))
    ensures TestCond(host, doc, Cond(attr, "nct", v)) == Not(TestCond(host, doc, Cond(attr, "ct", v)))
  {
    var a := Get(doc, attr, Null, false, false);
    if a.Ok? && attr != AllWord {
      FoldTruthy(Wrap(v, false), a.value);
    }
  }

  lemma ComplementsIn(host: Host, doc: Document, attr: string, v: Value)
    requires attr == AllWord || (Truthy(v) && (Get(doc, attr, Null, false, false).Ok? ==> FTruthy(Get(doc, attr, Null, false, false).value)))
    ensures TestCond(host, doc, Cond(attr, "nin", v)) == Not(TestCond(host, doc, Cond(attr, "in", v)))
  {
    var a := Get(doc, attr, Null, false, false);
    if a.Ok? && attr != AllWord {
      FoldTruthy(Wrap(v, false), a.value);
    }
  }

  /** `all` searches the lowered JSON text of an object document for the
      lowered value; only `ct` and `nct` are accepted, and only with text. */
  lemma AllSearchesText(host: Host, doc: Document, op: string, v: Value)
    requires doc.Obj?
    ensures op == "ct" && v.Str? ==> TestCond(host, doc, Cond(AllWord, op, v)) == Ok(Contains(Lower(host.dump(doc)), Lower(v.s)))
    ensures op == "nct" && v.Str? ==> TestCond(host, doc, Cond(AllWord, op, v)) == Ok(!Contains(Lower(host.dump(doc)), Lower(v.s)))
    ensures (op == "ct" || op == "nct") && !v.Str? ==> TestCond(host, doc, Cond(AllWord, op, v)) == Err(AttributeError)
    ensures op != "ct" && op != "nct" ==> TestCond(host, doc, Cond(AllWord, op, v)) == Err(OperatorError)
  {
    assert Get(doc, AllWord, Null, false, false).Ok?;
  }

  // ---------------------------------------------------------------- searchDocs

  /** An object document comes back, wrapped, as the one item of the list
      when it matches; otherwise the list is empty. */
  lemma SearchObject(host: Host, d: Document, groups: seq<seq<Cond>>)
    requires d.Obj? && Defined(host, d, groups)
    ensures SearchDocs(host, d, groups) == Ok(if Matches(host, d, groups) then [Doc(d)] else [])
  {
    TestDocSpec(host, d, groups);
  }

  predicate DefinedOnAll(host: Host, items: seq<Value>, groups: seq<seq<Cond>>)
  {
    forall i :: 0 <= i < |items| ==> items[i].Obj? && Defined(host, items[i], groups)
  }

  lemma {:induction false} KeepSpec(host: Host, items: seq<Value>, groups: seq<seq<Cond>>)
    requires DefinedOnAll(host, items, groups)
    ensures var r := Keep(host, items, groups);
      r.Ok? && IsSubseq(r.value, items) &&
      (forall x :: x in r.value ==> x.Obj? && Matches(host, x, groups)) &&
      (forall i :: 0 <= i < |items| && Matches(host, items[i], groups) ==> items[i] in r.value)
    decreases |items|
  {
    if |items| > 0 {
      var rest := items[1..];
      DefinedOnAllTail(host, items, groups);
      KeepSpec(host, rest, groups);
      KeepHead(host, items, groups);
      var r := Keep(host, items, groups);
      var rs := Keep(host, rest, groups).value;
      forall i | 0 <= i < |items| && Matches(host, items[i], groups) ensures items[i] in r.value {
        if i > 0 { assert items[i] == rest[i - 1]; }
      }
      if Matches(host, items[0], groups) {
        assert r.value[1..] == rs;
      }
    }
  }

  lemma DefinedOnAllTail(host: Host, items: seq<Value>, groups: seq<seq<Cond>>)
    requires |items| > 0 && DefinedOnAll(host, items, groups)
    ensures items[0].Obj? && Defined(host, items[0], groups) && DefinedOnAll(host, items[1..], groups)
  {
    var rest := items[1..];
    forall i | 0 <= i < |rest| ensures rest[i].Obj? && Defined(host, rest[i], groups) {
      assert rest[i] == items[i + 1];
    }
  }

  /** The head item is kept exactly when it matches, in front of what the
      rest keeps. */
  lemma KeepHead(host: Host, items: seq<Value>, groups: seq<seq<Cond>>)
    requires |items| > 0 && items[0].Obj? && Defined(host, items[0], groups)
    requires Keep(host, items[1..], groups).Ok?
    ensures var rs := Keep(host, items[1..], groups).value;
      Keep(host, items, groups) == Ok(if Matches(host, items[0], groups) then [items[0]] + rs else rs)
  {
    TestDocSpec(host, items[0], groups);
  }

  /** A list document keeps, in order, exactly the items the filter matches. */
  lemma SearchList(host: Host, d: Document, groups: seq<seq<Cond>>)
    requires d.Arr? && |groups| > 0 && DefinedOnAll(host, d.items, groups)
    ensures var r := SearchDocs(host, d, groups);
      r.Ok? && r.value == Raws(Keep(host, d.items, groups).value) &&
      var ks := Keep(host, d.items, groups).value;
      IsSubseq(ks, d.items) &&
      (forall x :: x in ks ==> x.Obj? && Matches(host, x, groups)) &&
      (forall i :: 0 <= i < |d.items| && Matches(host, d.items[i], groups) ==> d.items[i] in ks)
  {
    KeepSpec(host, d.items, groups);
  }

  /** With no filter groups an object document matches, but a list document
      keeps nothing: the empty filter list is false before any item is tried. */
  lemma SearchEmptyFilters(host: Host, d: Document)
    ensures d.Obj? ==> SearchDocs(host, d, []) == Ok([Doc(d)])
    ensures d.Arr? ==> SearchDocs(host, d, []) == Ok([])
  {
  }
}

=== FILE: sortdocs.dfy ===
/** `sortDocs` (jdocument.py:1086-1120): the stable in-place sort of a list
    document by one attribute, by several attributes given as a dict of
    `attribute: order`, or by a list of such specifications.

    Every pass is Python's `list.sort` with the key `(not e[a], e[a])`: the
    items whose attribute is truthy come first, then the items are ordered by
    the attribute's own `<`. `reverse=True` is modelled as Python defines it,
    the reverse of the stable sort of the reversed list. */
module Sorting {
  import opened Outcomes
  import opened Json
  import opened PyValues
  import opened Resolver
  import opened StableSort

  // ---------------------------------------------------------------- the sort key

  /** The key tuple `(not v, v)`, as a two-item list: Python compares tuples
      and lists by the same lexicographic rule. */
  function TupleKey(v: Value): Value
  {
    Arr([Bool(!Truthy(v)), v])
  }

  /** `e[a]`, or `None` where the lookup fails (such an item never reaches
      the comparison: the key computation raises first). */
  function Field(x: Value, a: string): Value
  {
    match Sub(x, a)
    case Ok(v) => v
    case Err(_) => Null
  }

  function KeyOf(a: string, x: Value): Value
  {
    TupleKey(Field(x, a))
  }

  function KeyFn(a: string): Value -> Value
  {
    x => KeyOf(a, x)
  }

  /** `k1 < k2` answered `True` without raising. */
  predicate Before(k1: Value, k2: Value)
  {
    PyCmp(k1, k2, Lt) == Ok(true)
  }

  /** `list.sort` computes every key before comparing anything: the first
      item whose `e[a]` raises decides the exception. */
  function FirstKeyError(xs: seq<Value>, a: string): (r: Option<Error>)
    ensures r.None? <==> forall i :: 0 <= i < |xs| ==> Sub(xs[i], a).Ok?
    ensures r.Some? ==> exists i :: 0 <= i < |xs| && Sub(xs[i], a) == Err(r.value) &&
                           forall j :: 0 <= j < i ==> Sub(xs[j], a).Ok?
  {
    if |xs| == 0 then None
    else match Sub(xs[0], a)
      case Err(e) => Some(e)
      case Ok(_) =>
        var r := FirstKeyError(xs[1..], a);
        FirstKeyErrorCons(xs, a, r);
        r
  }

  /** The first failing key of a list whose head succeeds is the first
      failing key of its tail, one position further on. */
  lemma FirstKeyErrorCons(xs: seq<Value>, a: string, r: Option<Error>)
    requires |xs| > 0 && Sub(xs[0], a).Ok?
    requires r.None? <==> forall i :: 0 <= i < |xs[1..]| ==> Sub(xs[1..][i], a).Ok?
    requires r.Some? ==> exists i :: 0 <= i < |xs[1..]| && Sub(xs[1..][i], a) == Err(r.value) &&
                           forall j :: 0 <= j < i ==> Sub(xs[1..][j], a).Ok?
    ensures r.None? <==> forall i :: 0 <= i < |xs| ==> Sub(xs[i], a).Ok?
    ensures r.Some? ==> exists i :: 0 <= i < |xs| && Sub(xs[i], a) == Err(r.value) &&
                          forall j :: 0 <= j < i ==> Sub(xs[j], a).Ok?
  {
    assert forall i :: 0 < i < |xs| ==> xs[i] == xs[1..][i - 1];
    if r.Some? {
      var i :| 0 <= i < |xs[1..]| && Sub(xs[1..][i], a) == Err(r.value) &&
               forall j :: 0 <= j < i ==> Sub(xs[1..][j], a).Ok?;
      assert Sub(xs[i + 1], a) == Err(r.value);
      forall j | 0 <= j < i + 1
        ensures Sub(xs[j], a).Ok?
      {
        if j > 0 {
          assert xs[j] == xs[1..][j - 1];
        }
      }
    }
  }

  /** Every two keys can be ordered with `<` without a `TypeError`. */
  predicate Comparable(xs: seq<Value>, a: string)
  {
    forall i, j :: 0 <= i < |xs| && 0 <= j < |xs| ==> PyCmp(KeyOf(a, xs[i]), KeyOf(a, xs[j]), Lt).Ok?
  }

  /** One `list.sort(key=lambda e: (not e[a], e[a]), reverse=desc)`. */
  function Pass(xs: seq<Value>, a: string, desc: bool): (r: Result<seq<Value>>)
    ensures r.Ok? ==> multiset(r.value) == multiset(xs) && |r.value| == |xs|
    ensures FirstKeyError(xs, a).Some? ==> r == Err(FirstKeyError(xs, a).value)
    ensures FirstKeyError(xs, a).None? && !Comparable(xs, a) ==> r == Err(TypeError)
  {
    match FirstKeyError(xs, a)
    case Some(e) => Err(e)
    case None =>
      if !Comparable(xs, a) then Err(TypeError)
      else if desc then Ok(SortDesc(xs, KeyFn(a), Before))
      else Ok(Sort(xs, KeyFn(a), Before))
  }

  /** The value `sort(reverse=(order != 1))` receives for `reverse`. */
  predicate Descends(order: Value)
  {
    !PyEq(order, Num(1))
  }

  // ---------------------------------------------------------------- sortDocs

  /** `sortDocs(spec)`: a string sorts by that attribute, a dict sorts by
      each of its attributes in turn, a list applies its specifications from
      the last to the first; any other value has no `items()`. The returned
      document is the sorted document itself. */
  function SortDocs(d: Document, spec: Value): (o: Outcome<Document, Document>)
    ensures d.Obj? ==> o == Outcome(d, Err(ShapeError))
    ensures d.Arr? ==> o.doc.Arr? && multiset(o.doc.items) == multiset(d.items)
    ensures o.result.Ok? ==> o.result.value == o.doc
    ensures d.Arr? && !(spec.Str? || spec.Obj? || spec.Arr?) ==> o == Outcome(d, Err(AttributeError))
    decreases Size(spec), 1
  {
    if !d.Arr? then Outcome(d, Err(ShapeError))
    else match spec
      case Arr(specs) => SortSeveral(d, specs)
      case Str(a) =>
        (match Pass(d.items, a, false)
         case Ok(r) => Outcome(Arr(r), Ok(Arr(r)))
         case Err(e) => Outcome(d, Err(e)))
      case Obj(orders) => SortOrders(d, orders)
      case _ => Outcome(d, Err(AttributeError))
  }

  /** `map(sortDocs, reversed(specs))`: the last specification first, down
      to the first one; an exception stops the walk and keeps the passes
      already made. */
  function SortSeveral(d: Document, specs: seq<Value>): (o: Outcome<Document, Document>)
    requires d.Arr?
    ensures o.doc.Arr? && multiset(o.doc.items) == multiset(d.items)
    ensures o.result.Ok? ==> o.result.value == o.doc
    decreases SizeSeq(specs) + 1, 0
  {
    if |specs| == 0 then Outcome(d, Ok(d))
    else
      SizeSeqInit(specs);
      var o1 := SortDocs(d, specs[|specs| - 1]);
      if o1.result.Err? then o1 else SortSeveral(o1.doc, specs[..|specs| - 1])
  }

  /** `for a, order in spec.items(): sort by a, reverse=(order != 1)`; an
      exception keeps the passes already made. */
  function SortOrders(d: Document, orders: seq<Member>): (o: Outcome<Document, Document>)
    requires d.Arr?
    ensures o.doc.Arr? && multiset(o.doc.items) == multiset(d.items)
    ensures o.result.Ok? ==> o.result.value == o.doc
    decreases |orders|
  {
    if |orders| == 0 then Outcome(d, Ok(d))
    else
      var p := Pass(d.items, orders[0].key, Descends(orders[0].val));
      if p.Err? then Outcome(d, Err(p.error))
      else
        SortOrders(Arr(p.value), orders[1..])
  }

  // ---------------------------------------------------------------- what the key order means

  /** Comparing two key tuples: items with a truthy attribute come first;
      among equally truthy ones, equal values tie and the others compare
      with the attribute's own `<` (which may raise). */
  lemma TupleOrder(v: Value, w: Value)
    ensures PyCmp(TupleKey(v), TupleKey(w), Lt) ==
      if Truthy(v) != Truthy(w) then Ok(Truthy(v))
      else if PyEq(v, w) then Ok(false)
      else PyCmp(v, w, Lt)
  {
    var xs := [Bool(!Truthy(v)), v];
    var ys := [Bool(!Truthy(w)), w];
    assert xs[1..] == [v] && ys[1..] == [w];
    assert [v][1..] == [] && [w][1..] == [];
    if Truthy(v) == Truthy(w) {
      assert FirstDiff(xs, ys) == (if PyEq(v, w) then None else Some(1));
    } else {
      assert FirstDiff(xs, ys) == Some(0);
    }
  }

  /** The order the key puts on numeric attributes (booleans count as 0
      and 1): non-zero values first, then ascending. */
  predicate NumBefore(v: Value, w: Value)
    requires IsNumeric(v) && IsNumeric(w)
  {
    (NumOf(v) != 0 && NumOf(w) == 0) ||
    ((NumOf(v) != 0) == (NumOf(w) != 0) && NumOf(v) < NumOf(w))
  }

  /** The order the key puts on string attributes: non-empty strings first,
      then code-point order. */
  predicate TextBefore(s: string, t: string)
  {
    s != [] && (t == [] || StrLess(s, t))
  }

  lemma NumericKeyOrder(v: Value, w: Value)
    requires IsNumeric(v) && IsNumeric(w)
    ensures Before(TupleKey(v), TupleKey(w)) <==> NumBefore(v, w)
  {
    TupleOrder(v, w);
  }

  lemma TextKeyOrder(s: string, t: string)
    ensures Before(TupleKey(Str(s)), TupleKey(Str(t))) <==> TextBefore(s, t)
  {
    TupleOrder(Str(s), Str(t));
    StrLessIrreflexive(s);
  }

  /** Every attribute is present and numeric. */
  predicate NumericKeys(xs: seq<Value>, a: string)
  {
    forall i :: 0 <= i < |xs| ==> Sub(xs[i], a).Ok? && IsNumeric(Sub(xs[i], a).value)
  }

  /** Every attribute is present and a string. */
  predicate TextKeys(xs: seq<Value>, a: string)
  {
    forall i :: 0 <= i < |xs| ==> Sub(xs[i], a).Ok? && Sub(xs[i], a).value.Str?
  }

  function KeySet(xs: seq<Value>, a: string): (ks: set<Value>)
    ensures KeysIn(xs, KeyFn(a), ks)
  {
    set i | 0 <= i < |xs| :: KeyOf(a, xs[i])
  }

  lemma NumericStrictWeak(xs: seq<Value>, a: string)
    requires NumericKeys(xs, a)
    ensures StrictWeakOn(Before, KeySet(xs, a))
  {
    var ks := KeySet(xs, a);
    forall k | k in ks
      ensures k == TupleKey(k.items[1]) && IsNumeric(k.items[1])
    {
      var i :| 0 <= i < |xs| && k == KeyOf(a, xs[i]);
    }
    forall k1, k2 | k1 in ks && k2 in ks
      ensures Before(k1, k2) <==> NumBefore(k1.items[1], k2.items[1])
    {
      NumericKeyOrder(k1.items[1], k2.items[1]);
    }
  }

  lemma TextStrictWeak(xs: seq<Value>, a: string)
    requires TextKeys(xs, a)
    ensures StrictWeakOn(Before, KeySet(xs, a))
  {
    var ks := KeySet(xs, a);
    forall k | k in ks
      ensures k == TupleKey(Str(k.items[1].s)) && k.items[1].Str?
    {
      var i :| 0 <= i < |xs| && k == KeyOf(a, xs[i]);
    }
    forall k1, k2 | k1 in ks && k2 in ks
      ensures Before(k1, k2) <==> TextBefore(k1.items[1].s, k2.items[1].s)
    {
      TextKeyOrder(k1.items[1].s, k2.items[1].s);
    }
    forall s | s in (set k | k in ks :: k.items[1].s)
      ensures !TextBefore(s, s)
    {
      StrLessIrreflexive(s);
    }
    forall s, t, u | TextBefore(s, t) && TextBefore(t, u)
      ensures TextBefore(s, u)
    {
      if u != [] {
        StrLessTransitive(s, t, u);
      }
    }
    forall s, t, u | TextBefore(s, u)
      ensures TextBefore(s, t) || TextBefore(t, u)
    {
      StrLessTotal(s, t);
      if t != [] && u != [] && StrLess(t, s) {
        StrLessTransitive(t, s, u);
      }
    }
  }

  // ---------------------------------------------------------------- one step of each walk

  lemma OrdersStep(d: Document, orders: seq<Member>)
    requires d.Arr? && |orders| > 0 && Pass(d.items, orders[0].key, Descends(orders[0].val)).Ok?
    ensures SortOrders(d, orders) ==
      SortOrders(Arr(Pass(d.items, orders[0].key, Descends(orders[0].val)).value), orders[1..])
  {
  }

  // ---------------------------------------------------------------- sorting by attributes of one type

  /** With every attribute numeric, or every attribute a string, nothing
      raises and the key order is a strict weak order. */
  lemma UniformPass(xs: seq<Value>, a: string)
    requires NumericKeys(xs, a) || TextKeys(xs, a)
    ensures FirstKeyError(xs, a).None? && Comparable(xs, a)
    ensures StrictWeakOn(Before, KeySet(xs, a))
  {
    forall i, j | 0 <= i < |xs| && 0 <= j < |xs|
      ensures PyCmp(KeyOf(a, xs[i]), KeyOf(a, xs[j]), Lt).Ok?
    {
      TupleOrder(Field(xs[i], a), Field(xs[j], a));
    }
    if NumericKeys(xs, a) {
      NumericStrictWeak(xs, a);
    } else {
      TextStrictWeak(xs, a);
    }
  }

  /** One pass by name over attributes of one type. */
  lemma NamePass(d: Document, a: string)
    requires d.Arr? && (NumericKeys(d.items, a) || TextKeys(d.items, a))
    ensures var r := Sort(d.items, KeyFn(a), Before);
      SortDocs(d, Str(a)) == Outcome(Arr(r), Ok(Arr(r)))
  {
    UniformPass(d.items, a);
  }

  lemma NumericKeysPermutation(xs: seq<Value>, ys: seq<Value>, a: string)
    requires multiset(xs) == multiset(ys) && NumericKeys(xs, a)
    ensures NumericKeys(ys, a)
  {
    forall i | 0 <= i < |ys|
      ensures Sub(ys[i], a).Ok? && IsNumeric(Sub(ys[i], a).value)
    {
      assert ys[i] in multiset(xs);
      var k :| 0 <= k < |xs| && xs[k] == ys[i];
    }
  }

  lemma TextKeysPermutation(xs: seq<Value>, ys: seq<Value>, a: string)
    requires multiset(xs) == multiset(ys) && TextKeys(xs, a)
    ensures TextKeys(ys, a)
  {
    forall i | 0 <= i < |ys|
      ensures Sub(ys[i], a).Ok? && Sub(ys[i], a).value.Str?
    {
      assert ys[i] in multiset(xs);
      var k :| 0 <= k < |xs| && xs[k] == ys[i];
    }
  }

  /** `sortDocs("a")` with numeric attributes: non-zero values first, each
      group ascending; items whose keys tie keep their relative order. */
  lemma SortByNumber(d: Document, a: string)
    requires d.Arr? && NumericKeys(d.items, a)
    ensures var o := SortDocs(d, Str(a));
      o.result.Ok? && NumericKeys(o.doc.items, a) &&
      forall i, j :: 0 <= i < j < |o.doc.items| ==> !NumBefore(Field(o.doc.items[j], a), Field(o.doc.items[i], a))
    ensures forall i :: 0 <= i < |d.items| ==>
      Ties(SortDocs(d, Str(a)).doc.items, KeyFn(a), Before, KeyOf(a, d.items[i])) ==
      Ties(d.items, KeyFn(a), Before, KeyOf(a, d.items[i]))
  {
    var xs := d.items;
    UniformPass(xs, a);
    var r := Sort(xs, KeyFn(a), Before);
    assert SortDocs(d, Str(a)) == Outcome(Arr(r), Ok(Arr(r)));
    SortAscending(xs, KeyFn(a), Before, KeySet(xs, a));
    NumericKeysPermutation(xs, r, a);
    forall i, j | 0 <= i < j < |r|
      ensures !NumBefore(Field(r[j], a), Field(r[i], a))
    {
      NumericKeyOrder(Field(r[j], a), Field(r[i], a));
    }
    forall i | 0 <= i < |xs|
      ensures Ties(r, KeyFn(a), Before, KeyOf(a, xs[i])) == Ties(xs, KeyFn(a), Before, KeyOf(a, xs[i]))
    {
      SortStable(xs, KeyFn(a), Before, KeySet(xs, a), KeyOf(a, xs[i]));
    }
  }

  /** `sortDocs("a")` with string attributes: non-empty strings first, each
      group in code-point order; ties keep their relative order. */
  lemma SortByText(d: Document, a: string)
    requires d.Arr? && TextKeys(d.items, a)
    ensures var o := SortDocs(d, Str(a));
      o.result.Ok? && TextKeys(o.doc.items, a) &&
      forall i, j :: 0 <= i < j < |o.doc.items| ==> !TextBefore(Field(o.doc.items[j], a).s, Field(o.doc.items[i], a).s)
    ensures forall i :: 0 <= i < |d.items| ==>
      Ties(SortDocs(d, Str(a)).doc.items, KeyFn(a), Before, KeyOf(a, d.items[i])) ==
      Ties(d.items, KeyFn(a), Before, KeyOf(a, d.items[i]))
  {
    var xs := d.items;
    UniformPass(xs, a);
    var r := Sort(xs, KeyFn(a), Before);
    assert SortDocs(d, Str(a)) == Outcome(Arr(r), Ok(Arr(r)));
    SortAscending(xs, KeyFn(a), Before, KeySet(xs, a));
    TextKeysPermutation(xs, r, a);
    forall i, j | 0 <= i < j < |r|
      ensures !TextBefore(Field(r[j], a).s, Field(r[i], a).s)
    {
      TextKeyOrder(Field(r[j], a).s, Field(r[i], a).s);
    }
    forall i | 0 <= i < |xs|
      ensures Ties(r, KeyFn(a), Before, KeyOf(a, xs[i])) == Ties(xs, KeyFn(a), Before, KeyOf(a, xs[i]))
    {
      SortStable(xs, KeyFn(a), Before, KeySet(xs, a), KeyOf(a, xs[i]));
    }
  }

  /** `sortDocs({"a": order})` with `order != 1` reverses the whole key
      order, so the zero values come FIRST, then the others descending;
      ties still keep their relative order. */
  lemma SortByNumberDescending(d: Document, a: string, order: Value)
    requires d.Arr? && NumericKeys(d.items, a) && Descends(order)
    ensures var o := SortDocs(d, Obj([Member(a, order)]));
      o.result.Ok? && NumericKeys(o.doc.items, a) &&
      forall i, j :: 0 <= i < j < |o.doc.items| ==> !NumBefore(Field(o.doc.items[i], a), Field(o.doc.items[j], a))
    ensures forall i :: 0 <= i < |d.items| ==>
      Ties(SortDocs(d, Obj([Member(a, order)])).doc.items, KeyFn(a), Before, KeyOf(a, d.items[i])) ==
      Ties(d.items, KeyFn(a), Before, KeyOf(a, d.items[i]))
  {
    var xs := d.items;
    UniformPass(xs, a);
    var r := SortDesc(xs, KeyFn(a), Before);
    assert Pass(xs, a, true) == Ok(r);
    OrdersStep(d, [Member(a, order)]);
    assert [Member(a, order)][1..] == [];
    assert SortDocs(d, Obj([Member(a, order)])) == SortOrders(Arr(r), []);
    SortDescDescending(xs, KeyFn(a), Before, KeySet(xs, a));
    NumericKeysPermutation(xs, r, a);
    forall i, j | 0 <= i < j < |r|
      ensures !NumBefore(Field(r[i], a), Field(r[j], a))
    {
      NumericKeyOrder(Field(r[i], a), Field(r[j], a));
    }
    forall i | 0 <= i < |xs|
      ensures Ties(r, KeyFn(a), Before, KeyOf(a, xs[i])) == Ties(xs, KeyFn(a), Before, KeyOf(a, xs[i]))
    {
      SortDescStable(xs, KeyFn(a), Before, KeySet(xs, a), KeyOf(a, xs[i]));
    }
  }

  /** Sorting an already sorted list again changes nothing. */
  lemma SortByNameIdempotent(d: Document, a: string)
    requires d.Arr? && (NumericKeys(d.items, a) || TextKeys(d.items, a))
    ensures SortDocs(SortDocs(d, Str(a)).doc, Str(a)) == SortDocs(d, Str(a))
  {
    var xs := d.items;
    UniformPass(xs, a);
    var r := Sort(xs, KeyFn(a), Before);
    assert SortDocs(d, Str(a)) == Outcome(Arr(r), Ok(Arr(r)));
    SortAscending(xs, KeyFn(a), Before, KeySet(xs, a));
    if NumericKeys(xs, a) {
      NumericKeysPermutation(xs, r, a);
    } else {
      TextKeysPermutation(xs, r, a);
    }
    UniformPass(r, a);
    SortSorted(r, KeyFn(a), Before);
  }

  // ---------------------------------------------------------------- errors

  /** A list item that is a dict without the attribute makes the sort raise
      `KeyError` when it is the first item whose lookup fails; the list is
      left as it was. */
  lemma MissingAttributeRaises(d: Document, a: string)
    requires d.Arr? && (forall i :: 0 <= i < |d.items| ==> d.items[i].Obj?)
    requires exists i :: 0 <= i < |d.items| && a !in Keys(d.items[i].fields)
    ensures SortDocs(d, Str(a)) == Outcome(d, Err(KeyError))
  {
    var e := FirstKeyError(d.items, a);
    assert e.Some?;
  }

  /** A truthy number and a non-empty string under the same attribute cannot
      be ordered: the sort raises `TypeError`. The list still holds the
      same items, in an order that depends on how far the sort got. */
  lemma MixedTypesRaise(d: Document, a: string, i: nat, j: nat)
    requires d.Arr? && (forall k :: 0 <= k < |d.items| ==> Sub(d.items[k], a).Ok?)
    requires i < |d.items| && j < |d.items|
    requires Field(d.items[i], a).Num? && Field(d.items[i], a).n != 0
    requires Field(d.items[j], a).Str? && Field(d.items[j], a).s != []
    ensures var o := SortDocs(d, Str(a));
      o.result == Err(TypeError) && o.doc.Arr? && multiset(o.doc.items) == multiset(d.items)
  {
    var v, w := Field(d.items[i], a), Field(d.items[j], a);
    TupleOrder(v, w);
    assert PyCmp(v, w, Lt) == Err(TypeError);
    assert PyCmp(KeyOf(a, d.items[i]), KeyOf(a, d.items[j]), Lt).Err?;
    assert FirstKeyError(d.items, a).None? && !Comparable(d.items, a);
  }

  // ---------------------------------------------------------------- several attributes

  /** A list of specifications applies its LAST one first: sorting by
      `specs + [s]` is sorting by `s`, then, unless that raised, by `specs`
      on the result. */
  lemma SeveralLastFirst(d: Document, specs: seq<Value>, s: Value)
    requires d.Arr?
    ensures var o1 := SortDocs(d, s);
      SortDocs(d, Arr(specs + [s])) ==
        if o1.result.Err? then o1 else SortDocs(o1.doc, Arr(specs))
  {
    var all := specs + [s];
    assert all[|all| - 1] == s && all[..|all| - 1] == specs;
  }

  /** Two stable passes, by `b` and then by `a`: ordered by `a`, and by `b`
      among items whose `a` values are equal. */
  lemma NumericTwoPasses(xs: seq<Value>, a: string, b: string)
    requires NumericKeys(xs, a) && NumericKeys(xs, b)
    ensures var r := Sort(Sort(xs, KeyFn(b), Before), KeyFn(a), Before);
      NumericKeys(r, a) && NumericKeys(r, b) &&
      forall i, j :: 0 <= i < j < |r| ==>
        !NumBefore(Field(r[j], a), Field(r[i], a)) &&
        (NumOf(Field(r[i], a)) == NumOf(Field(r[j], a)) ==> !NumBefore(Field(r[j], b), Field(r[i], b)))
  {
    var r := Sort(Sort(xs, KeyFn(b), Before), KeyFn(a), Before);
    TwoPassesKeys(xs, a, b);
    TwoPassesOrder(xs, a, b);
    forall i, j | 0 <= i < j < |r|
      ensures !NumBefore(Field(r[j], a), Field(r[i], a))
      ensures NumOf(Field(r[i], a)) == NumOf(Field(r[j], a)) ==> !NumBefore(Field(r[j], b), Field(r[i], b))
    {
      PairOrder(r[i], r[j], a, b);
    }
  }

  lemma TwoPassesOrder(xs: seq<Value>, a: string, b: string)
    requires NumericKeys(xs, a) && NumericKeys(xs, b)
    ensures var r := Sort(Sort(xs, KeyFn(b), Before), KeyFn(a), Before);
      Ascending(r, KeyFn(a), Before) &&
      forall i, j :: 0 <= i < j < |r| && Tie(Before, KeyFn(a)(r[i]), KeyFn(a)(r[j])) ==> !Before(KeyFn(b)(r[j]), KeyFn(b)(r[i]))
  {
    UniformPass(xs, a);
    UniformPass(xs, b);
    SortTwice(xs, KeyFn(a), Before, KeySet(xs, a), KeyFn(b), Before, KeySet(xs, b));
  }

  lemma TwoPassesKeys(xs: seq<Value>, a: string, b: string)
    requires NumericKeys(xs, a) && NumericKeys(xs, b)
    ensures var r := Sort(Sort(xs, KeyFn(b), Before), KeyFn(a), Before);
      NumericKeys(r, a) && NumericKeys(r, b)
  {
    var r := Sort(Sort(xs, KeyFn(b), Before), KeyFn(a), Before);
    NumericKeysPermutation(xs, r, a);
    NumericKeysPermutation(xs, r, b);
  }

  /** The key facts about two items, read back as facts about their
      numeric attributes. */
  lemma PairOrder(x: Value, y: Value, a: string, b: string)
    requires Sub(x, a).Ok? && IsNumeric(Sub(x, a).value) && Sub(y, a).Ok? && IsNumeric(Sub(y, a).value)
    requires Sub(x, b).Ok? && IsNumeric(Sub(x, b).value) && Sub(y, b).Ok? && IsNumeric(Sub(y, b).value)
    requires !Before(KeyFn(a)(y), KeyFn(a)(x))
    requires Tie(Before, KeyFn(a)(x), KeyFn(a)(y)) ==> !Before(KeyFn(b)(y), KeyFn(b)(x))
    ensures !NumBefore(Field(y, a), Field(x, a))
    ensures NumOf(Field(x, a)) == NumOf(Field(y, a)) ==> !NumBefore(Field(y, b), Field(x, b))
  {
    NumericKeyOrder(Field(y, a), Field(x, a));
    NumericKeyOrder(Field(x, a), Field(y, a));
    NumericKeyOrder(Field(y, b), Field(x, b));
  }

  /** Both numeric passes go through: neither raises. */
  lemma NumericPassesOk(xs: seq<Value>, a: string, b: string)
    requires NumericKeys(xs, a) && NumericKeys(xs, b)
    ensures Pass(xs, b, false) == Ok(Sort(xs, KeyFn(b), Before))
    ensures Pass(Sort(xs, KeyFn(b), Before), a, false) ==
            Ok(Sort(Sort(xs, KeyFn(b), Before), KeyFn(a), Before))
  {
    var ys := Sort(xs, KeyFn(b), Before);
    UniformPass(xs, b);
    NumericKeysPermutation(xs, ys, a);
    UniformPass(ys, a);
  }

  /** `sortDocs(["a", "b"])` with numeric attributes: ordered by `a`, and by
      `b` among items whose `a` values are equal. */
  lemma SortByTwoNames(d: Document, a: string, b: string)
    requires d.Arr? && NumericKeys(d.items, a) && NumericKeys(d.items, b)
    ensures var o := SortDocs(d, Arr([Str(a), Str(b)]));
      var r := o.doc.items;
      o.result.Ok? && NumericKeys(r, a) && NumericKeys(r, b) &&
      forall i, j :: 0 <= i < j < |r| ==>
        !NumBefore(Field(r[j], a), Field(r[i], a)) &&
        (NumOf(Field(r[i], a)) == NumOf(Field(r[j], a)) ==> !NumBefore(Field(r[j], b), Field(r[i], b)))
  {
    TwoNamesResult(d, a, b);
    NumericTwoPasses(d.items, a, b);
  }

  lemma TwoNamesResult(d: Document, a: string, b: string)
    requires d.Arr? && NumericKeys(d.items, a) && NumericKeys(d.items, b)
    ensures var r := Sort(Sort(d.items, KeyFn(b), Before), KeyFn(a), Before);
      SortDocs(d, Arr([Str(a), Str(b)])) == Outcome(Arr(r), Ok(Arr(r)))
  {
    var xs := d.items;
    var ys := Sort(xs, KeyFn(b), Before);
    NamePass(d, b);
    NumericKeysPermutation(xs, ys, a);
    NamePass(Arr(ys), a);
    SeveralLastFirst(d, [Str(a)], Str(b));
    SeveralLastFirst(Arr(ys), [], Str(a));
    assert [Str(a)] + [Str(b)] == [Str(a), Str(b)];
    assert [] + [Str(a)] == [Str(a)];
  }

  /** `sortDocs({"a": 1, "b": 1})` with numeric attributes: each attribute
      is a separate stable pass, so the LAST one decides the order and `a`
      only breaks ties of `b`. */
  lemma SortByTwoOrders(d: Document, a: string, b: string)
    requires d.Arr? && NumericKeys(d.items, a) && NumericKeys(d.items, b)
    ensures var o := SortDocs(d, Obj([Member(a, Num(1)), Member(b, Num(1))]));
      var r := o.doc.items;
      o.result.Ok? && NumericKeys(r, a) && NumericKeys(r, b) &&
      forall i, j :: 0 <= i < j < |r| ==>
        !NumBefore(Field(r[j], b), Field(r[i], b)) &&
        (NumOf(Field(r[i], b)) == NumOf(Field(r[j], b)) ==> !NumBefore(Field(r[j], a), Field(r[i], a)))
  {
    TwoOrdersResult(d, a, b);
    NumericTwoPasses(d.items, b, a);
  }

  lemma TwoOrdersResult(d: Document, a: string, b: string)
    requires d.Arr? && NumericKeys(d.items, a) && NumericKeys(d.items, b)
    ensures var r := Sort(Sort(d.items, KeyFn(a), Before), KeyFn(b), Before);
      SortDocs(d, Obj([Member(a, Num(1)), Member(b, Num(1))])) == Outcome(Arr(r), Ok(Arr(r)))
  {
    var xs := d.items;
    var orders := [Member(a, Num(1)), Member(b, Num(1))];
    NumericPassesOk(xs, b, a);
    var ys := Sort(xs, KeyFn(a), Before);
    ObjectSpec(d, orders);
    assert !Descends(Num(1));
    OrdersStep(d, orders);
    assert orders[1..] == [Member(b, Num(1))];
    LastOrder(Arr(ys), Member(b, Num(1)));
  }

  /** A dict specification is its orders, taken in turn. */
  lemma ObjectSpec(d: Document, orders: seq<Member>)
    requires d.Arr?
    ensures SortDocs(d, Obj(orders)) == SortOrders(d, orders)
  {
  }

  /** A single ascending order that does not raise is one pass. */
  lemma LastOrder(d: Document, m: Member)
    requires d.Arr? && !Descends(m.val) && Pass(d.items, m.key, false).Ok?
    ensures var r := Pass(d.items, m.key, false).value;
      SortOrders(d, [m]) == Outcome(Arr(r), Ok(Arr(r)))
  {
    assert [m][1..] == [];
  }
}

=== FILE: stablesort.dfy ===
/** A stable sort by key: what Python's `list.sort(key=..., reverse=...)`
    promises, written as an insertion sort. The order on keys only has to be
    a strict weak order on the keys that actually occur. With `reverse=True`
    CPython reverses the list, sorts it stably and reverses it again, so
    items with equal keys still keep their original order. */
module StableSort {

  /** `x` goes after every item whose key is not greater than its own. */
  function Insert<T, K>(x: T, ys: seq<T>, key: T -> K, lt: (K, K) -> bool): (r: seq<T>)
    ensures multiset(r) == multiset(ys) + multiset{x}
    ensures |r| == |ys| + 1
  {
    if |ys| == 0 || lt(key(x), key(ys[0])) then [x] + ys
    else
      assert ys == [ys[0]] + ys[1..];
      [ys[0]] + Insert(x, ys[1..], key, lt)
  }

  /** Ascending sort: each item, from left to right, is inserted into the
      sorted prefix before it. */
  function Sort<T, K>(xs: seq<T>, key: T -> K, lt: (K, K) -> bool): (r: seq<T>)
    ensures multiset(r) == multiset(xs)
    ensures |r| == |xs|
  {
    if |xs| == 0 then []
    else
      assert xs == xs[..|xs| - 1] + [xs[|xs| - 1]];
      Insert(xs[|xs| - 1], Sort(xs[..|xs| - 1], key, lt), key, lt)
  }

  function Reverse<T>(xs: seq<T>): (r: seq<T>)
    ensures |r| == |xs| && forall i :: 0 <= i < |xs| ==> r[i] == xs[|xs| - 1 - i]
  {
    seq(|xs|, i requires 0 <= i < |xs| => xs[|xs| - 1 - i])
  }

  /** Reversing permutes. */
  lemma {:induction false} ReversePerm<T>(xs: seq<T>)
    ensures multiset(Reverse(xs)) == multiset(xs)
  {
    if |xs| > 0 {
      ReversePerm(xs[1..]);
      ReverseCons(xs);
      assert xs == [xs[0]] + xs[1..];
    }
  }

  lemma ReverseCons<T>(xs: seq<T>)
    requires |xs| > 0
    ensures Reverse(xs) == Reverse(xs[1..]) + [xs[0]]
  {
    var l, r := Reverse(xs), Reverse(xs[1..]) + [xs[0]];
    forall i | 0 <= i < |xs|
      ensures l[i] == r[i]
    {
      if i < |xs| - 1 {
        assert r[i] == xs[1..][|xs| - 2 - i];
      }
    }
  }

  /** `sort(reverse=True)`: reverse, sort, reverse. */
  function SortDesc<T, K>(xs: seq<T>, key: T -> K, lt: (K, K) -> bool): (r: seq<T>)
    ensures multiset(r) == multiset(xs)
  {
    ReversePerm(xs);
    ReversePerm(Sort(Reverse(xs), key, lt));
    Reverse(Sort(Reverse(xs), key, lt))
  }

  /** No later item has a smaller key than an earlier one. */
  predicate Ascending<T, K>(r: seq<T>, key: T -> K, lt: (K, K) -> bool)
  {
    forall i, j :: 0 <= i < j < |r| ==> !lt(key(r[j]), key(r[i]))
  }

  /** No later item has a greater key than an earlier one. */
  predicate Descending<T, K>(r: seq<T>, key: T -> K, lt: (K, K) -> bool)
  {
    forall i, j :: 0 <= i < j < |r| ==> !lt(key(r[i]), key(r[j]))
  }

  /** `lt` is irreflexive, transitive and negatively transitive on `ks`. */
  predicate StrictWeakOn<K>(lt: (K, K) -> bool, ks: set<K>)
  {
    (forall a :: a in ks ==> !lt(a, a)) &&
    (forall a, b, c :: a in ks && b in ks && c in ks && lt(a, b) && lt(b, c) ==> lt(a, c)) &&
    (forall a, b, c :: a in ks && b in ks && c in ks && lt(a, c) ==> lt(a, b) || lt(b, c))
  }

  predicate KeysIn<T, K>(xs: seq<T>, key: T -> K, ks: set<K>)
  {
    forall i :: 0 <= i < |xs| ==> key(xs[i]) in ks
  }

  /** Neither key is smaller than the other. */
  predicate Tie<K>(lt: (K, K) -> bool, a: K, b: K)
  {
    !lt(a, b) && !lt(b, a)
  }

  /** The items whose key ties with `p`, in order. */
  function Ties<T, K>(xs: seq<T>, key: T -> K, lt: (K, K) -> bool, p: K): (r: seq<T>)
    ensures |r| <= |xs|
  {
    if |xs| == 0 then []
    else (if Tie(lt, key(xs[0]), p) then [xs[0]] else []) + Ties(xs[1..], key, lt, p)
  }

  // ---------------------------------------------------------------- the order facts used below

  lemma Asym<K>(lt: (K, K) -> bool, ks: set<K>, a: K, b: K)
    requires StrictWeakOn(lt, ks) && a in ks && b in ks && lt(a, b)
    ensures !lt(b, a)
  {
  }

  /** Contrapositive of transitivity: if `a < b` and not `c < b`, then not `c < a`. */
  lemma NotBelow<K>(lt: (K, K) -> bool, ks: set<K>, a: K, b: K, c: K)
    requires StrictWeakOn(lt, ks) && a in ks && b in ks && c in ks && lt(a, b) && !lt(c, b)
    ensures !lt(c, a)
  {
  }

  lemma Between<K>(lt: (K, K) -> bool, ks: set<K>, a: K, b: K, c: K)
    requires StrictWeakOn(lt, ks) && a in ks && b in ks && c in ks && lt(a, c)
    ensures lt(a, b) || lt(b, c)
  {
  }

  // ---------------------------------------------------------------- sortedness

  lemma {:induction false} InsertAscending<T, K>(x: T, ys: seq<T>, key: T -> K, lt: (K, K) -> bool, ks: set<K>)
    requires StrictWeakOn(lt, ks) && KeysIn(ys, key, ks) && key(x) in ks
    requires Ascending(ys, key, lt)
    ensures Ascending(Insert(x, ys, key, lt), key, lt)
    ensures KeysIn(Insert(x, ys, key, lt), key, ks)
    decreases |ys|
  {
    var r := Insert(x, ys, key, lt);
    if |ys| == 0 {
    } else if lt(key(x), key(ys[0])) {
      assert r == [x] + ys;
      forall i, j | 0 <= i < j < |r|
        ensures !lt(key(r[j]), key(r[i]))
      {
        if i == 0 {
          assert r[j] == ys[j - 1];
          if j == 1 {
            Asym(lt, ks, key(x), key(ys[0]));
          } else {
            NotBelow(lt, ks, key(x), key(ys[0]), key(ys[j - 1]));
          }
        } else {
          assert r[i] == ys[i - 1] && r[j] == ys[j - 1];
        }
      }
    } else {
      var rest := Insert(x, ys[1..], key, lt);
      TailAscending(ys, key, lt, ks);
      InsertAscending(x, ys[1..], key, lt, ks);
      assert r == [ys[0]] + rest;
      forall i, j | 0 <= i < j < |r|
        ensures !lt(key(r[j]), key(r[i]))
      {
        if i == 0 {
          assert r[j] == rest[j - 1];
          assert r[j] in multiset(ys[1..]) + multiset{x};
          if r[j] != x {
            assert r[j] in ys[1..];
            var k :| 0 <= k < |ys[1..]| && ys[1..][k] == r[j];
            assert ys[k + 1] == r[j];
          }
        } else {
          assert r[i] == rest[i - 1] && r[j] == rest[j - 1];
        }
      }
    }
  }

  lemma TailAscending<T, K>(ys: seq<T>, key: T -> K, lt: (K, K) -> bool, ks: set<K>)
    requires |ys| > 0 && KeysIn(ys, key, ks) && Ascending(ys, key, lt)
    ensures KeysIn(ys[1..], key, ks) && Ascending(ys[1..], key, lt)
  {
    forall i, j | 0 <= i < j < |ys[1..]|
      ensures !lt(key(ys[1..][j]), key(ys[1..][i]))
    {
      assert ys[1..][j] == ys[j + 1] && ys[1..][i] == ys[i + 1];
    }
    forall i | 0 <= i < |ys[1..]|
      ensures key(ys[1..][i]) in ks
    {
      assert ys[1..][i] == ys[i + 1];
    }
  }

  lemma InitKeys<T, K>(xs: seq<T>, key: T -> K, ks: set<K>)
    requires |xs| > 0 && KeysIn(xs, key, ks)
    ensures KeysIn(xs[..|xs| - 1], key, ks) && key(xs[|xs| - 1]) in ks
  {
    var init := xs[..|xs| - 1];
    forall i | 0 <= i < |init|
      ensures key(init[i]) in ks
    {
      assert init[i] == xs[i];
    }
  }

  /** The sort puts the keys in ascending order. */
  lemma {:induction false} SortAscending<T, K>(xs: seq<T>, key: T -> K, lt: (K, K) -> bool, ks: set<K>)
    requires StrictWeakOn(lt, ks) && KeysIn(xs, key, ks)
    ensures Ascending(Sort(xs, key, lt), key, lt) && KeysIn(Sort(xs, key, lt), key, ks)
    decreases |xs|
  {
    if |xs| > 0 {
      var init := xs[..|xs| - 1];
      InitKeys(xs, key, ks);
      SortAscending(init, key, lt, ks);
      InsertAscending(xs[|xs| - 1], Sort(init, key, lt), key, lt, ks);
    }
  }

  /** An already sorted list is left as it is. */
  lemma {:induction false} SortSorted<T, K>(xs: seq<T>, key: T -> K, lt: (K, K) -> bool)
    requires Ascending(xs, key, lt)
    ensures Sort(xs, key, lt) == xs
    decreases |xs|
  {
    if |xs| > 0 {
      var init := xs[..|xs| - 1];
      var x := xs[|xs| - 1];
      SortSorted(init, key, lt);
      InsertLast(x, init, key, lt);
      assert init + [x] == xs;
    }
  }

  lemma {:induction false} InsertLast<T, K>(x: T, ys: seq<T>, key: T -> K, lt: (K, K) -> bool)
    requires forall i :: 0 <= i < |ys| ==> !lt(key(x), key(ys[i]))
    ensures Insert(x, ys, key, lt) == ys + [x]
    decreases |ys|
  {
    if |ys| > 0 {
      InsertLast(x, ys[1..], key, lt);
      assert [ys[0]] + (ys[1..] + [x]) == ys + [x];
    }
  }

  // ---------------------------------------------------------------- stability

  lemma {:induction false} TiesConcat<T, K>(a: seq<T>, b: seq<T>, key: T -> K, lt: (K, K) -> bool, p: K)
    ensures Ties(a + b, key, lt, p) == Ties(a, key, lt, p) + Ties(b, key, lt, p)
    decreases |a|
  {
    if |a| == 0 {
      assert a + b == b;
    } else {
      var h := if Tie(lt, key(a[0]), p) then [a[0]] else [];
      var ta, tb := Ties(a[1..], key, lt, p), Ties(b, key, lt, p);
      assert (a + b)[0] == a[0];
      assert (a + b)[1..] == a[1..] + b;
      assert Ties(a + b, key, lt, p) == h + Ties(a[1..] + b, key, lt, p);
      assert Ties(a, key, lt, p) == h + ta;
      TiesConcat(a[1..], b, key, lt, p);
      assert h + (ta + tb) == (h + ta) + tb;
    }
  }

  /** A tie class has no member after an item whose key is greater than
      the class in a sorted list. */
  lemma {:induction false} NoTiesAfter<T, K>(ys: seq<T>, key: T -> K, lt: (K, K) -> bool, ks: set<K>, p: K)
    requires StrictWeakOn(lt, ks) && KeysIn(ys, key, ks) && p in ks
    requires Ascending(ys, key, lt) && |ys| > 0 && lt(p, key(ys[0]))
    ensures Ties(ys, key, lt, p) == []
    decreases |ys|
  {
    assert !Tie(lt, key(ys[0]), p);
    if |ys| > 1 {
      Between(lt, ks, p, key(ys[1]), key(ys[0]));
      TailAscending(ys, key, lt, ks);
      NoTiesAfter(ys[1..], key, lt, ks, p);
    }
  }

  lemma {:induction false} InsertTies<T, K>(x: T, ys: seq<T>, key: T -> K, lt: (K, K) -> bool, ks: set<K>, p: K)
    requires StrictWeakOn(lt, ks) && KeysIn(ys, key, ks) && key(x) in ks && p in ks
    requires Ascending(ys, key, lt)
    ensures Ties(Insert(x, ys, key, lt), key, lt, p) ==
            Ties(ys, key, lt, p) + (if Tie(lt, key(x), p) then [x] else [])
    decreases |ys|
  {
    if |ys| == 0 {
      assert Insert(x, ys, key, lt) == [x];
    } else if lt(key(x), key(ys[0])) {
      InsertTiesFront(x, ys, key, lt, ks, p);
    } else {
      TailAscending(ys, key, lt, ks);
      InsertTies(x, ys[1..], key, lt, ks, p);
      InsertTiesLater(x, ys, key, lt, p);
    }
  }

  /** `x` inserted in front of a list whose first key is greater: a tie
      class of `x` has no other member there. */
  lemma InsertTiesFront<T, K>(x: T, ys: seq<T>, key: T -> K, lt: (K, K) -> bool, ks: set<K>, p: K)
    requires StrictWeakOn(lt, ks) && KeysIn(ys, key, ks) && key(x) in ks && p in ks
    requires Ascending(ys, key, lt) && |ys| > 0 && lt(key(x), key(ys[0]))
    ensures Ties(Insert(x, ys, key, lt), key, lt, p) ==
            Ties(ys, key, lt, p) + (if Tie(lt, key(x), p) then [x] else [])
  {
    assert Insert(x, ys, key, lt) == [x] + ys;
    TiesConcat([x], ys, key, lt, p);
    if Tie(lt, key(x), p) {
      Between(lt, ks, key(x), p, key(ys[0]));
      NoTiesAfter(ys, key, lt, ks, p);
    }
  }

  /** `x` inserted past the first item: that item's tie contribution stays
      in front. */
  lemma InsertTiesLater<T, K>(x: T, ys: seq<T>, key: T -> K, lt: (K, K) -> bool, p: K)
    requires |ys| > 0 && !lt(key(x), key(ys[0]))
    requires Ties(Insert(x, ys[1..], key, lt), key, lt, p) ==
             Ties(ys[1..], key, lt, p) + (if Tie(lt, key(x), p) then [x] else [])
    ensures Ties(Insert(x, ys, key, lt), key, lt, p) ==
            Ties(ys, key, lt, p) + (if Tie(lt, key(x), p) then [x] else [])
  {
    var y, rest := ys[0], Insert(x, ys[1..], key, lt);
    var h := if Tie(lt, key(y), p) then [y] else [];
    var e := if Tie(lt, key(x), p) then [x] else [];
    var t := Ties(ys[1..], key, lt, p);
    assert Insert(x, ys, key, lt) == [y] + rest;
    assert ([y] + rest)[0] == y && ([y] + rest)[1..] == rest;
    assert Ties([y] + rest, key, lt, p) == h + Ties(rest, key, lt, p);
    assert Ties(ys, key, lt, p) == h + t;
    AppendAssoc(h, t, e);
  }

  lemma AppendAssoc<T>(a: seq<T>, b: seq<T>, c: seq<T>)
    ensures a + (b + c) == (a + b) + c
  {
  }

  /** Stability: items whose keys tie keep their original order. */
  lemma {:induction false} SortStable<T, K>(xs: seq<T>, key: T -> K, lt: (K, K) -> bool, ks: set<K>, p: K)
    requires StrictWeakOn(lt, ks) && KeysIn(xs, key, ks) && p in ks
    ensures Ties(Sort(xs, key, lt), key, lt, p) == Ties(xs, key, lt, p)
    decreases |xs|
  {
    if |xs| > 0 {
      var init := xs[..|xs| - 1];
      var x := xs[|xs| - 1];
      assert init + [x] == xs;
      assert Ties([x], key, lt, p) == (if Tie(lt, key(x), p) then [x] else []);
      InitKeys(xs, key, ks);
      SortStable(init, key, lt, ks, p);
      SortAscending(init, key, lt, ks);
      InsertTies(x, Sort(init, key, lt), key, lt, ks, p);
      TiesConcat(init, [x], key, lt, p);
    }
  }

  // ---------------------------------------------------------------- reverse=True

  lemma {:induction false} TiesReverse<T, K>(xs: seq<T>, key: T -> K, lt: (K, K) -> bool, p: K)
    ensures Ties(Reverse(xs), key, lt, p) == Reverse(Ties(xs, key, lt, p))
    decreases |xs|
  {
    if |xs| > 0 {
      var h := if Tie(lt, key(xs[0]), p) then [xs[0]] else [];
      var t := Ties(xs[1..], key, lt, p);
      assert Ties([xs[0]], key, lt, p) == h;
      assert Ties(xs, key, lt, p) == h + t;
      assert Reverse(h) == h;
      TiesReverse(xs[1..], key, lt, p);
      ReverseCons(xs);
      TiesConcat(Reverse(xs[1..]), [xs[0]], key, lt, p);
      ReverseConcat(h, t);
    }
  }

  lemma ReverseConcat<T>(a: seq<T>, b: seq<T>)
    ensures Reverse(a + b) == Reverse(b) + Reverse(a)
  {
    var l, r := Reverse(a + b), Reverse(b) + Reverse(a);
    forall i | 0 <= i < |l|
      ensures l[i] == r[i]
    {
      ReverseConcatAt(a, b, i);
    }
  }

  lemma ReverseConcatAt<T>(a: seq<T>, b: seq<T>, i: int)
    requires 0 <= i < |a| + |b|
    ensures Reverse(a + b)[i] == (Reverse(b) + Reverse(a))[i]
  {
    var ab, ra, rb := a + b, Reverse(a), Reverse(b);
    assert Reverse(ab)[i] == ab[|ab| - 1 - i];
    if i < |b| {
      assert (rb + ra)[i] == rb[i] == b[|b| - 1 - i];
      assert ab[|ab| - 1 - i] == b[|b| - 1 - i];
    } else {
      assert (rb + ra)[i] == ra[i - |b|] == a[|a| - 1 - (i - |b|)];
      assert ab[|ab| - 1 - i] == a[|a| - 1 - (i - |b|)];
    }
  }

  lemma ReverseReverse<T>(xs: seq<T>)
    ensures Reverse(Reverse(xs)) == xs
  {
    var r := Reverse(Reverse(xs));
    forall i | 0 <= i < |xs|
      ensures r[i] == xs[i]
    {
    }
  }

  lemma KeysInReverse<T, K>(xs: seq<T>, key: T -> K, ks: set<K>)
    requires KeysIn(xs, key, ks)
    ensures KeysIn(Reverse(xs), key, ks)
  {
    forall i | 0 <= i < |xs|
      ensures key(Reverse(xs)[i]) in ks
    {
      assert Reverse(xs)[i] == xs[|xs| - 1 - i];
    }
  }

  /** `reverse=True` puts the keys in descending order. */
  lemma SortDescDescending<T, K>(xs: seq<T>, key: T -> K, lt: (K, K) -> bool, ks: set<K>)
    requires StrictWeakOn(lt, ks) && KeysIn(xs, key, ks)
    ensures Descending(SortDesc(xs, key, lt), key, lt)
  {
    KeysInReverse(xs, key, ks);
    SortAscending(Reverse(xs), key, lt, ks);
    ReverseAscending(Sort(Reverse(xs), key, lt), key, lt);
  }

  lemma ReverseAscending<T, K>(s: seq<T>, key: T -> K, lt: (K, K) -> bool)
    requires Ascending(s, key, lt)
    ensures Descending(Reverse(s), key, lt)
  {
    var r := Reverse(s);
    forall i, j | 0 <= i < j < |r|
      ensures !lt(key(r[i]), key(r[j]))
    {
      assert r[i] == s[|s| - 1 - i] && r[j] == s[|s| - 1 - j];
    }
  }

  /** `reverse=True` keeps tied items in their original order. */
  lemma SortDescStable<T, K>(xs: seq<T>, key: T -> K, lt: (K, K) -> bool, ks: set<K>, p: K)
    requires StrictWeakOn(lt, ks) && KeysIn(xs, key, ks) && p in ks
    ensures Ties(SortDesc(xs, key, lt), key, lt, p) == Ties(xs, key, lt, p)
  {
    var s := Sort(Reverse(xs), key, lt);
    KeysInReverse(xs, key, ks);
    SortStable(Reverse(xs), key, lt, ks, p);
    TiesReverse(s, key, lt, p);
    TiesReverse(xs, key, lt, p);
    ReverseReverse(Ties(xs, key, lt, p));
  }

  // ---------------------------------------------------------------- two sorts in a row

  lemma {:induction false} TiesIn<T, K>(xs: seq<T>, key: T -> K, lt: (K, K) -> bool, p: K)
    ensures forall x :: x in Ties(xs, key, lt, p) ==> x in xs && Tie(lt, key(x), p)
    decreases |xs|
  {
    if |xs| > 0 {
      TiesIn(xs[1..], key, lt, p);
    }
  }

  lemma KeysInPermutation<T, K>(xs: seq<T>, ys: seq<T>, key: T -> K, ks: set<K>)
    requires multiset(xs) == multiset(ys) && KeysIn(xs, key, ks)
    ensures KeysIn(ys, key, ks)
  {
    forall i | 0 <= i < |ys|
      ensures key(ys[i]) in ks
    {
      assert ys[i] in multiset(ys);
      assert ys[i] in xs;
      var k :| 0 <= k < |xs| && xs[k] == ys[i];
    }
  }

  /** Keeping only the items of one tie class keeps a list ascending in any
      other key. */
  lemma {:induction false} TiesAscending<T, K, L>(ys: seq<T>, ka: T -> K, lta: (K, K) -> bool, p: K, kb: T -> L, ltb: (L, L) -> bool)
    requires Ascending(ys, kb, ltb)
    ensures Ascending(Ties(ys, ka, lta, p), kb, ltb)
    decreases |ys|
  {
    if |ys| > 0 {
      assert Ascending(ys[1..], kb, ltb) by {
        forall i, j | 0 <= i < j < |ys[1..]|
          ensures !ltb(kb(ys[1..][j]), kb(ys[1..][i]))
        {
          assert ys[1..][j] == ys[j + 1] && ys[1..][i] == ys[i + 1];
        }
      }
      TiesAscending(ys[1..], ka, lta, p, kb, ltb);
      TiesIn(ys[1..], ka, lta, p);
      var t := Ties(ys[1..], ka, lta, p);
      var r := Ties(ys, ka, lta, p);
      if Tie(lta, ka(ys[0]), p) {
        assert r == [ys[0]] + t;
        forall i, j | 0 <= i < j < |r|
          ensures !ltb(kb(r[j]), kb(r[i]))
        {
          assert r[j] == t[j - 1];
          if i == 0 {
            assert r[j] in ys[1..];
            var k :| 0 <= k < |ys[1..]| && ys[1..][k] == r[j];
            assert ys[k + 1] == r[j];
          } else {
            assert r[i] == t[i - 1];
          }
        }
      } else {
        assert r == t;
      }
    }
  }

  /** Where `r[j]` lands in its tie class: after the tied items before it. */
  lemma TiesPosition<T, K>(r: seq<T>, key: T -> K, lt: (K, K) -> bool, p: K, j: nat)
    requires j < |r| && Tie(lt, key(r[j]), p)
    ensures |Ties(r[..j], key, lt, p)| < |Ties(r, key, lt, p)|
    ensures Ties(r, key, lt, p)[|Ties(r[..j], key, lt, p)|] == r[j]
  {
    TiesConcat(r[..j], r[j..], key, lt, p);
    assert r[..j] + r[j..] == r;
    assert r[j..][0] == r[j];
  }

  lemma TiesPrefixGrows<T, K>(r: seq<T>, key: T -> K, lt: (K, K) -> bool, p: K, i: nat, j: nat)
    requires i < j <= |r| && Tie(lt, key(r[i]), p)
    ensures |Ties(r[..i], key, lt, p)| < |Ties(r[..j], key, lt, p)|
  {
    TiesConcat(r[..i], r[i..j], key, lt, p);
    assert r[..i] + r[i..j] == r[..j];
    assert r[i..j][0] == r[i];
    assert r[i..j] == [r[i]] + r[i..j][1..];
    TiesConcat([r[i]], r[i..j][1..], key, lt, p);
  }

  /** Sorting by `kb` and then by `ka` orders by `ka`, and by `kb` among
      items whose `ka` keys tie: the second sort decides, the first breaks
      its ties. */
  lemma SortTwice<T, K, L>(xs: seq<T>, ka: T -> K, lta: (K, K) -> bool, ksa: set<K>, kb: T -> L, ltb: (L, L) -> bool, ksb: set<L>)
    requires StrictWeakOn(lta, ksa) && KeysIn(xs, ka, ksa)
    requires StrictWeakOn(ltb, ksb) && KeysIn(xs, kb, ksb)
    ensures var r := Sort(Sort(xs, kb, ltb), ka, lta);
      Ascending(r, ka, lta) &&
      forall i, j :: 0 <= i < j < |r| && Tie(lta, ka(r[i]), ka(r[j])) ==> !ltb(kb(r[j]), kb(r[i]))
  {
    var ys := Sort(xs, kb, ltb);
    SortAscending(xs, kb, ltb, ksb);
    KeysInPermutation(xs, ys, ka, ksa);
    SortAscending(ys, ka, lta, ksa);
    var r := Sort(ys, ka, lta);
    forall i, j | 0 <= i < j < |r| && Tie(lta, ka(r[i]), ka(r[j]))
      ensures !ltb(kb(r[j]), kb(r[i]))
    {
      var p := ka(r[i]);
      SortStable(ys, ka, lta, ksa, p);
      TiesAscending(ys, ka, lta, p, kb, ltb);
      TiesPosition(r, ka, lta, p, i);
      TiesPosition(r, ka, lta, p, j);
      TiesPrefixGrows(r, ka, lta, p, i, j);
      var t := Ties(r, ka, lta, p);
      assert t[|Ties(r[..i], ka, lta, p)|] == r[i];
      assert t[|Ties(r[..j], ka, lta, p)|] == r[j];
    }
  }
}

=== FILE: table.dfy ===
/** `dict2table` (json2table.py:20-186) without the list expansion: every
    object of the input is flattened to `path: leaf` pairs and becomes one
    row; every path becomes a column, back-filled with `None` for the rows
    before it appeared; column names may lose their prefixes; the columns
    are finally padded to a common length.

    `tab` is a dict from column name to a list of cells; here it is a
    sequence of `Column`s in insertion order, with distinct names. */
module Tables {
  import opened Outcomes
  import opened Text
  import opened Json

  // ---------------------------------------------------------------- flattening

  /** `parent_key + sep + kk if parent_key else kk`, with `sep` = `.`. */
  function NewKey(parent: string, k: string): (r: string)
    ensures parent != "" ==> parent + "." <= r
    ensures parent == "" ==> r == k
  {
    if parent == "" then k else parent + "." + k
  }

  /** No member holds a dict: each is a leaf of the flattened object. */
  predicate Leaves(fs: seq<Member>)
  {
    forall i :: 0 <= i < |fs| ==> !fs[i].val.Obj?
  }

  /** Under a non-empty parent, every key starts with `parent.`. */
  predicate UnderPrefix(fs: seq<Member>, parent: string)
  {
    parent != "" ==> forall i :: 0 <= i < |fs| ==> parent + "." <= fs[i].key
  }

  /** `dict(items)`: the items inserted in order, so a repeated key keeps its
      first position and takes its last value. */
  function DictOf(items: seq<Member>): (r: seq<Member>)
    ensures UniqueKeys(r)
  {
    if |items| == 0 then []
    else
      var init := DictOf(items[..|items| - 1]);
      var last := items[|items| - 1];
      PutKeys(init, last.key, last.val);
      Put(init, last.key, last.val)
  }

  /** The `items` list `_flatten` collects: a dict value is flattened under
      its own key and spliced in, any other value is one pair. */
  function Pairs(fs: seq<Member>, parent: string): seq<Member>
    decreases SizeFields(fs), 1
  {
    if |fs| == 0 then []
    else
      var k := NewKey(parent, fs[0].key);
      assert SizeFields(fs) == Size(fs[0].val) + SizeFields(fs[1..]);
      (if fs[0].val.Obj? then Flatten(fs[0].val.fields, k) else [Member(k, fs[0].val)]) + Pairs(fs[1..], parent)
  }

  /** `_flatten(d, parent_key)` (json2table.py:35-45). */
  function Flatten(fs: seq<Member>, parent: string): (r: seq<Member>)
    ensures UniqueKeys(r)
    decreases SizeFields(fs), 2
  {
    DictOf(Pairs(fs, parent))
  }

  // ---------------------------------------------------------------- the table

  datatype Column = Column(name: string, cells: seq<Value>)

  type Table = seq<Column>

  predicate UniqueNames(t: Table)
  {
    forall i, j :: 0 <= i < j < |t| ==> t[i].name != t[j].name
  }

  /** The position of the column named `name`. */
  function Find(t: Table, name: string): (r: Option<nat>)
    ensures r.Some? ==> r.value < |t| && t[r.value].name == name
    ensures r.None? <==> forall i :: 0 <= i < |t| ==> t[i].name != name
  {
    if |t| == 0 then None
    else if t[0].name == name then Some(0)
    else match Find(t[1..], name)
      case None => None
      case Some(i) => Some(i + 1)
  }

  function Nones(n: nat): (r: seq<Value>)
    ensures |r| == n && forall i :: 0 <= i < n ==> r[i] == Null
  {
    seq(n, _ => Null)
  }

  /** The row count as `_adicionarColuna` reads it: the length of the first
      column. */
  function FirstColumnLength(t: Table): nat
  {
    if |t| == 0 then 0 else |t[0].cells|
  }

  /** `_adicionarColuna(colName, val)` (json2table.py:48-67) as written when
      `asWritten`; otherwise with the column brought up to `row` cells before
      the value is appended, whether it is new or not. */
  function AddColumnWith(t: Table, name: string, val: Value, row: nat, asWritten: bool): (r: Table)
    ensures UniqueNames(t) ==> UniqueNames(r)
    ensures Find(t, name).Some? ==> |r| == |t|
    ensures Find(t, name).None? ==> |r| == |t| + 1 && r[..|t|] == t && r[|t|].name == name
    ensures forall i :: 0 <= i < |t| && t[i].name != name ==> r[i] == t[i]
    ensures forall i :: 0 <= i < |t| ==> r[i].name == t[i].name && t[i].cells <= r[i].cells
  {
    match Find(t, name)
    case Some(i) =>
      var before := t[i].cells;
      var cells := if asWritten || |before| >= row then before else before + Nones(row - |before|);
      t[i := Column(name, cells + [val])]
    case None =>
      var q := FirstColumnLength(t);
      var fill := if asWritten then (if q > 1 then Nones(q - 1) else []) else Nones(row);
      t + [Column(name, fill + [val])]
  }

  /** The back-fill as the source does it: an existing column just grows by
      the value; a new one first gets one `None` fewer than the first
      column's length — none at all while that length is 0 or 1. */
  function AddColumnAsWritten(t: Table, name: string, val: Value): (r: Table)
    ensures Find(t, name).Some? ==>
      var i := Find(t, name).value;
      |r| == |t| && r[i] == Column(name, t[i].cells + [val]) &&
      forall j :: 0 <= j < |t| && j != i ==> r[j] == t[j]
    ensures Find(t, name).None? ==>
      var n := if FirstColumnLength(t) > 1 then FirstColumnLength(t) - 1 else 0;
      |r| == |t| + 1 && r[..|t|] == t && r[|t|].name == name &&
      |r[|t|].cells| == n + 1 && r[|t|].cells[n] == val &&
      forall j :: 0 <= j < n ==> r[|t|].cells[j] == Null
  {
    AddColumnWith(t, name, val, 0, true)
  }

  /** The back-fill by row number: the column ends with `val` in row `row`,
      behind `None`s for the rows it was missing from. */
  function AddColumn(t: Table, name: string, val: Value, row: nat): (r: Table)
    ensures (forall i :: 0 <= i < |t| && t[i].name == name ==> |t[i].cells| <= row) ==>
      exists i :: (0 <= i < |r| && r[i].name == name && |r[i].cells| == row + 1 && r[i].cells[row] == val &&
                   forall j :: 0 <= j < row ==> r[i].cells[j] == if i < |t| && j < |t[i].cells| then t[i].cells[j] else Null)
  {
    var r := AddColumnWith(t, name, val, row, false);
    var i := if Find(t, name).Some? then Find(t, name).value else |t|;
    assert r[i].name == name;
    r
  }

  /** `_adicionarLinha(obj)`'s loop (json2table.py:75-76), one column per
      flattened pair, in order. */
  function AddFields(t: Table, fields: seq<Member>, row: nat, asWritten: bool): (r: Table)
    ensures UniqueNames(t) ==> UniqueNames(r)
    ensures |t| <= |r| && forall i :: 0 <= i < |t| ==> r[i].name == t[i].name && t[i].cells <= r[i].cells
    decreases |fields|
  {
    if |fields| == 0 then t
    else AddFields(AddColumnWith(t, fields[0].key, fields[0].val, row, asWritten), fields[1..], row, asWritten)
  }

  /** `_adicionarLinha(obj)` (json2table.py:70-77) for the row numbered `row`. */
  function AddRowWith(t: Table, obj: seq<Member>, row: nat, asWritten: bool): (r: Table)
    ensures UniqueNames(t) ==> UniqueNames(r)
  {
    AddFields(t, Flatten(obj, ""), row, asWritten)
  }

  /** The row loop (json2table.py:80-81): object `i` is row `i`. */
  function Build(objs: seq<seq<Member>>, asWritten: bool): (r: Table)
    ensures UniqueNames(r)
  {
    if |objs| == 0 then []
    else AddRowWith(Build(objs[..|objs| - 1], asWritten), objs[|objs| - 1], |objs| - 1, asWritten)
  }

  // ---------------------------------------------------------------- prefixes

  /** The column name after prefix removal (json2table.py:158-162): the
      last `.`-separated segment, or the whole name when it has no `.`. */
  function Segment(name: string): (r: string)
    ensures '.' !in r
    ensures '.' !in name ==> r == name
  {
    if '.' in name then
      var tks := Split(name, '.');
      tks[|tks| - 1]
    else name
  }

  /** `newTab[colAfter] = tab[colBefore]`: an existing name keeps its place
      and takes the new cells, a new name goes last. */
  function PutColumn(t: Table, name: string, cells: seq<Value>): (r: Table)
    ensures Find(t, name).Some? ==>
      |r| == |t| && r[Find(t, name).value] == Column(name, cells) &&
      forall i :: 0 <= i < |t| && i != Find(t, name).value ==> r[i] == t[i]
    ensures Find(t, name).None? ==> r == t + [Column(name, cells)]
    ensures UniqueNames(t) ==> UniqueNames(r)
  {
    match Find(t, name)
    case Some(i) => t[i := Column(name, cells)]
    case None => t + [Column(name, cells)]
  }

  /** The prefix-removal block (json2table.py:153-167). */
  function RemovePrefix(t: Table): (r: Table)
    ensures UniqueNames(r)
    ensures forall i :: 0 <= i < |r| ==> '.' !in r[i].name
  {
    if |t| == 0 then []
    else
      var last := t[|t| - 1];
      PutColumn(RemovePrefix(t[..|t| - 1]), Segment(last.name), last.cells)
  }

  // ---------------------------------------------------------------- padding

  /** The length of the longest column (json2table.py:171-174). */
  function Longest(t: Table): (n: nat)
    ensures forall i :: 0 <= i < |t| ==> |t[i].cells| <= n
    ensures |t| == 0 ==> n == 0
    ensures |t| > 0 ==> exists i :: 0 <= i < |t| && |t[i].cells| == n
  {
    if |t| == 0 then 0
    else
      var m := Longest(t[1..]);
      if |t[0].cells| >= m then |t[0].cells|
      else
        var i :| 0 <= i < |t[1..]| && |t[1..][i].cells| == m;
        assert t[i + 1] == t[1..][i];
        m
  }

  /** The padding block (json2table.py:176-182): every column is completed
      with trailing `None`s up to the longest one. */
  function Pad(t: Table): (r: Table)
    ensures |r| == |t|
    ensures forall i :: 0 <= i < |t| ==> r[i].name == t[i].name
    ensures forall i :: 0 <= i < |t| ==> |r[i].cells| == Longest(t)
    ensures forall i :: 0 <= i < |t| ==> t[i].cells <= r[i].cells
    ensures forall i, j :: 0 <= i < |t| && |t[i].cells| <= j < Longest(t) ==> r[i].cells[j] == Null
  {
    var n := Longest(t);
    seq(|t|, i requires 0 <= i < |t| => PadColumn(t[i], n))
  }

  function PadColumn(c: Column, n: nat): (r: Column)
    requires |c.cells| <= n
    ensures r.name == c.name && |r.cells| == n && c.cells <= r.cells
    ensures forall j :: |c.cells| <= j < n ==> r.cells[j] == Null
  {
    Column(c.name, c.cells + Nones(n - |c.cells|))
  }

  // ---------------------------------------------------------------- dict2table

  /** `dict2table(objs, flagRemovePrefix=removePrefix)` (json2table.py:20-186),
      with the back-fill chosen by `asWritten`: either way the result has
      unique names, equally long columns, and no `.` in a stripped name. */
  function DictToTableWith(objs: seq<seq<Member>>, removePrefix: bool, asWritten: bool): (r: Table)
    ensures UniqueNames(r)
    ensures forall i, j :: 0 <= i < j < |r| ==> |r[i].cells| == |r[j].cells|
    ensures removePrefix ==> forall i :: 0 <= i < |r| ==> '.' !in r[i].name
  {
    var t := Build(objs, asWritten);
    Pad(if removePrefix then RemovePrefix(t) else t)
  }

  /** `dict2table(objs, flagRemovePrefix=removePrefix)` as written. */
  function DictToTableAsWritten(objs: seq<seq<Member>>, removePrefix: bool): Table
  {
    DictToTableWith(objs, removePrefix, true)
  }

  /** `dict2table` with every object in its own row. */
  function DictToTable(objs: seq<seq<Member>>, removePrefix: bool): Table
  {
    DictToTableWith(objs, removePrefix, false)
  }
}

=== FILE: tablefacts.dfy ===
/** What `dict2table` computes, stated apart from the code: `_flatten` is
    the identity on flat objects and keeps one entry per leaf, `dict()`
    keeps the last value of a repeated key, every cell of the table is the
    value its row's object holds under its column's name, prefix removal
    keeps the last of colliding columns, and padding only appends. */
module TableFacts {
  import opened Outcomes
  import opened Text
  import opened Json
  import opened PyValues
  import opened Tables

  // ---------------------------------------------------------------- dict(items)

  lemma UniqueInit(items: seq<Member>)
    requires |items| > 0 && UniqueKeys(items)
    ensures UniqueKeys(items[..|items| - 1])
    ensures items[|items| - 1].key !in Keys(items[..|items| - 1])
  {
    var init := items[..|items| - 1];
    forall j | 0 <= j < |init| ensures Keys(init)[j] != items[|items| - 1].key {
      assert init[j] == items[j];
    }
  }

  /** `dict` of pairs whose keys are already distinct is those pairs. */
  lemma {:induction false} DictOfUnique(items: seq<Member>)
    requires UniqueKeys(items)
    ensures DictOf(items) == items
    decreases |items|
  {
    if |items| > 0 {
      var init := items[..|items| - 1];
      var last := items[|items| - 1];
      assert items == init + [last];
      DictOfLast(items);
      UniqueInit(items);
      DictOfUnique(init);
      PutMembers(init, last.key, last.val);
    }
  }

  /** `dict` of a non-empty list is the `dict` of all but the last pair with
      the last pair assigned. */
  lemma DictOfLast(items: seq<Member>)
    requires |items| > 0
    ensures DictOf(items) == Put(DictOf(items[..|items| - 1]), items[|items| - 1].key, items[|items| - 1].val)
  {
  }

  /** `dict` invents nothing: every member comes from the pairs. */
  lemma {:induction false} DictOfMembers(items: seq<Member>)
    ensures forall m :: m in DictOf(items) ==> m in items
    decreases |items|
  {
    if |items| > 0 {
      var init := items[..|items| - 1];
      var last := items[|items| - 1];
      DictOfMembers(init);
      PutMembers(DictOf(init), last.key, last.val);
    }
  }

  /** A repeated key takes the value of its last pair. */
  lemma {:induction false} DictOfLastWins(items: seq<Member>, k: string, i: int)
    requires 0 <= i < |items| && items[i].key == k
    requires forall j :: i < j < |items| ==> items[j].key != k
    ensures Lookup(DictOf(items), k) == Some(items[i].val)
    decreases |items|
  {
    if i < |items| - 1 {
      DictOfLastWins(items[..|items| - 1], k, i);
    }
  }

  /** A key of no pair is absent. */
  lemma {:induction false} DictOfNoKey(items: seq<Member>, k: string)
    requires k !in Keys(items)
    ensures Lookup(DictOf(items), k) == None
    decreases |items|
  {
    if |items| > 0 {
      var init := items[..|items| - 1];
      assert Keys(items)[|items| - 1] == items[|items| - 1].key;
      assert k !in Keys(init);
      DictOfNoKey(init, k);
    }
  }

  // ---------------------------------------------------------------- _flatten

  /** `_flatten` yields leaves only, each keyed under its parent's path. */
  lemma {:induction false} FlattenShape(fs: seq<Member>, parent: string)
    ensures Leaves(Flatten(fs, parent)) && UnderPrefix(Flatten(fs, parent), parent)
    decreases SizeFields(fs), 2
  {
    var items := Pairs(fs, parent);
    PairsShape(fs, parent);
    DictOfMembers(items);
    var r := Flatten(fs, parent);
    forall i | 0 <= i < |r| ensures !r[i].val.Obj? && (parent != "" ==> parent + "." <= r[i].key) {
      assert r[i] in items;
    }
  }

  lemma {:induction false} PairsShape(fs: seq<Member>, parent: string)
    ensures Leaves(Pairs(fs, parent)) && UnderPrefix(Pairs(fs, parent), parent)
    decreases SizeFields(fs), 1
  {
    if |fs| > 0 {
      var k := NewKey(parent, fs[0].key);
      assert SizeFields(fs) == Size(fs[0].val) + SizeFields(fs[1..]);
      var head := if fs[0].val.Obj? then Flatten(fs[0].val.fields, k) else [Member(k, fs[0].val)];
      if fs[0].val.Obj? {
        FlattenShape(fs[0].val.fields, k);
        Deeper(head, parent, k);
      }
      PairsShape(fs[1..], parent);
      assert Pairs(fs, parent) == head + Pairs(fs[1..], parent);
      ShapeConcat(head, Pairs(fs[1..], parent), parent);
    }
  }

  /** Keys under `parent.x.` are keys under `parent.`. */
  lemma Deeper(fs: seq<Member>, parent: string, k: string)
    requires parent != "" ==> parent + "." <= k && UnderPrefix(fs, k)
    ensures UnderPrefix(fs, parent)
  {
    if parent != "" {
      forall i | 0 <= i < |fs| ensures parent + "." <= fs[i].key {
        PrefixTransitive(parent + ".", k, fs[i].key);
      }
    }
  }

  lemma ShapeConcat(a: seq<Member>, b: seq<Member>, parent: string)
    requires Leaves(a) && UnderPrefix(a, parent) && Leaves(b) && UnderPrefix(b, parent)
    ensures Leaves(a + b) && UnderPrefix(a + b, parent)
  {
    forall i | 0 <= i < |a + b| ensures !(a + b)[i].val.Obj? && (parent != "" ==> parent + "." <= (a + b)[i].key) {
      if i >= |a| {
        assert (a + b)[i] == b[i - |a|];
      }
    }
  }

  lemma PrefixTransitive(a: string, b: string, c: string)
    requires a <= b && (b + "." <= c || b == c)
    ensures a <= c
  {
    if b + "." <= c {
      assert c[..|a|] == (b + ".")[..|a|];
    }
  }

  lemma {:induction false} PairsOfLeaves(fs: seq<Member>)
    requires Leaves(fs)
    ensures Pairs(fs, "") == fs
    decreases |fs|
  {
    if |fs| > 0 {
      PairsOfLeaves(fs[1..]);
      assert fs == [fs[0]] + fs[1..];
    }
  }

  /** A dict without nested dicts flattens to itself. */
  lemma FlattenFlat(fs: seq<Member>)
    requires UniqueKeys(fs) && Leaves(fs)
    ensures Flatten(fs, "") == fs
  {
    PairsOfLeaves(fs);
    DictOfUnique(fs);
  }

  lemma PairsOfOne(m: Member, parent: string)
    ensures Pairs([m], parent) ==
      (if m.val.Obj? then Flatten(m.val.fields, NewKey(parent, m.key)) else [Member(NewKey(parent, m.key), m.val)])
  {
    assert [m][1..] == [];
  }

  /** A nested dict is flattened under its key. */
  lemma FlattenNested(k: string, inner: seq<Member>)
    requires k != ""
    ensures Flatten([Member(k, Obj(inner))], "") == Flatten(inner, k)
  {
    PairsOfOne(Member(k, Obj(inner)), "");
    DictOfUnique(Flatten(inner, k));
  }

  /** An empty nested dict leaves no column behind. */
  lemma FlattenSkipsEmpty(k: string, rest: seq<Member>, parent: string)
    ensures Flatten([Member(k, Obj([]))] + rest, parent) == Flatten(rest, parent)
  {
    var fs := [Member(k, Obj([]))] + rest;
    assert fs[1..] == rest;
    assert Flatten([], NewKey(parent, k)) == DictOf(Pairs([], NewKey(parent, k))) == [];
    assert Pairs(fs, parent) == Pairs(rest, parent);
  }

  lemma {:induction false} PairsHoldLeaf(fs: seq<Member>, parent: string, i: int)
    requires 0 <= i < |fs| && !fs[i].val.Obj?
    ensures Member(NewKey(parent, fs[i].key), fs[i].val) in Pairs(fs, parent)
    decreases i
  {
    if i > 0 {
      PairsHoldLeaf(fs[1..], parent, i - 1);
    }
  }

  /** Every leaf of the dict gets an entry, keyed by its path. */
  lemma FlattenKeepsLeaf(fs: seq<Member>, parent: string, i: int)
    requires 0 <= i < |fs| && !fs[i].val.Obj?
    ensures NewKey(parent, fs[i].key) in Keys(Flatten(fs, parent))
  {
    var items := Pairs(fs, parent);
    var k := NewKey(parent, fs[i].key);
    PairsHoldLeaf(fs, parent, i);
    var j :| 0 <= j < |items| && items[j] == Member(k, fs[i].val);
    var last := LastIndex(items, k, j);
    DictOfLastWins(items, k, last);
  }

  /** The last position holding key `k`, at or after `j`. */
  lemma {:induction false} LastIndex(items: seq<Member>, k: string, j: int) returns (i: int)
    requires 0 <= j < |items| && items[j].key == k
    ensures j <= i < |items| && items[i].key == k
    ensures forall m :: i < m < |items| ==> items[m].key != k
    decreases |items| - j
  {
    if exists m :: j < m < |items| && items[m].key == k {
      var m :| j < m < |items| && items[m].key == k;
      i := LastIndex(items, k, m);
    } else {
      i := j;
    }
  }

  // ---------------------------------------------------------------- rows and columns

  /** The flattened objects, one per row. */
  function RowsOf(objs: seq<seq<Member>>): (rows: seq<seq<Member>>)
    ensures |rows| == |objs|
    ensures forall i :: 0 <= i < |objs| ==> rows[i] == Flatten(objs[i], "")
  {
    seq(|objs|, i requires 0 <= i < |objs| => Flatten(objs[i], ""))
  }

  /** The column `name` reaches down to row `i`. */
  predicate Covered(t: Table, name: string, i: nat)
  {
    exists c :: 0 <= c < |t| && t[c].name == name && i < |t[c].cells|
  }

  /** Every column reaches no further than the rows, and every cell is its
      row's value under its column's name. */
  predicate CellsMatch(t: Table, rows: seq<seq<Member>>)
  {
    (forall c :: 0 <= c < |t| ==> |t[c].cells| <= |rows|) &&
    (forall c, i :: 0 <= c < |t| && 0 <= i < |t[c].cells| && i < |rows| ==> t[c].cells[i] == LookupOrNull(rows[i], t[c].name))
  }

  /** Every key of every row has its column, reaching that row. */
  predicate AllCovered(t: Table, rows: seq<seq<Member>>)
  {
    forall i, j :: 0 <= i < |rows| && 0 <= j < |rows[i]| ==> Covered(t, rows[i][j].key, i)
  }

  predicate Aligned(t: Table, rows: seq<seq<Member>>)
  {
    UniqueNames(t) && CellsMatch(t, rows) && AllCovered(t, rows)
  }

  /** Midway through row `|rows|`, which is `flat`: its first `j` pairs are
      in place. */
  predicate Partial(t: Table, rows: seq<seq<Member>>, flat: seq<Member>, j: nat)
  {
    j <= |flat| && UniqueKeys(flat) &&
    UniqueNames(t) && CellsMatch(t, rows + [flat]) && AllCovered(t, rows) &&
    (forall jj :: 0 <= jj < j ==> Covered(t, flat[jj].key, |rows|)) &&
    (forall c :: 0 <= c < |t| && |t[c].cells| == |rows| + 1 ==> exists jj :: 0 <= jj < j && flat[jj].key == t[c].name)
  }

  /** `r` is `t` with the pair `name: val` put in row `row`. */
  predicate Grown(t: Table, r: Table, name: string, val: Value, row: nat)
  {
    |t| <= |r| <= |t| + 1 &&
    (forall c :: 0 <= c < |t| ==> r[c].name == t[c].name && t[c].cells <= r[c].cells) &&
    (forall c :: 0 <= c < |t| && t[c].name != name ==> r[c] == t[c]) &&
    (|r| == |t| + 1 ==> r[|t|].name == name && forall c :: 0 <= c < |t| ==> t[c].name != name) &&
    (exists c :: 0 <= c < |r| && r[c].name == name) &&
    (forall c :: 0 <= c < |r| && r[c].name == name ==> |r[c].cells| == row + 1 && r[c].cells[row] == val) &&
    (forall c, i :: 0 <= c < |r| && r[c].name == name && 0 <= i < row && (c < |t| ==> |t[c].cells| <= i) ==> r[c].cells[i] == Null)
  }

  lemma GrowsExisting(t: Table, name: string, val: Value, row: nat, k: nat)
    requires UniqueNames(t) && k < |t| && t[k].name == name && |t[k].cells| <= row
    ensures Grown(t, t[k := Column(name, t[k].cells + Nones(row - |t[k].cells|) + [val])], name, val, row)
  {
    var r := t[k := Column(name, t[k].cells + Nones(row - |t[k].cells|) + [val])];
    assert r[k].name == name;
  }

  lemma GrowsNew(t: Table, name: string, val: Value, row: nat)
    requires forall c :: 0 <= c < |t| ==> t[c].name != name
    ensures Grown(t, t + [Column(name, Nones(row) + [val])], name, val, row)
  {
    var r := t + [Column(name, Nones(row) + [val])];
    assert r[|t|].name == name;
  }

  /** The row-numbered back-fill puts the pair in its row, behind `None`s. */
  lemma AddColumnGrows(t: Table, name: string, val: Value, row: nat)
    requires UniqueNames(t)
    requires forall c :: 0 <= c < |t| && t[c].name == name ==> |t[c].cells| <= row
    ensures Grown(t, AddColumnWith(t, name, val, row, false), name, val, row)
  {
    match Find(t, name)
    case Some(k) =>
      GrowsExisting(t, name, val, row, k);
    case None =>
      GrowsNew(t, name, val, row);
  }

  lemma CoveredGrows(t: Table, r: Table, name: string, i: nat)
    requires |t| <= |r| && forall c :: 0 <= c < |t| ==> r[c].name == t[c].name && t[c].cells <= r[c].cells
    requires Covered(t, name, i)
    ensures Covered(r, name, i)
  {
    var c :| 0 <= c < |t| && t[c].name == name && i < |t[c].cells|;
    assert r[c].name == name && i < |r[c].cells|;
  }

  /** A row a column does not reach does not hold its name. */
  lemma AbsentBelow(t: Table, rows: seq<seq<Member>>, name: string, i: nat)
    requires i < |rows| && AllCovered(t, rows)
    requires forall c :: 0 <= c < |t| && t[c].name == name ==> |t[c].cells| <= i
    ensures LookupOrNull(rows[i], name) == Null
  {
  }

  /** The cell in row `i < |rows|` of the column `name` after it grew. */
  lemma GrownCell(t: Table, rows: seq<seq<Member>>, all: seq<seq<Member>>, name: string, v: Value, r: Table, c: nat, i: nat)
    requires UniqueNames(t) && CellsMatch(t, all) && AllCovered(t, rows) && |rows| <= |all| && all[..|rows|] == rows
    requires Grown(t, r, name, v, |rows|)
    requires c < |r| && r[c].name == name && i < |rows| && i < |all|
    ensures r[c].cells[i] == LookupOrNull(all[i], name)
  {
    assert all[i] == rows[i];
    if c < |t| && i < |t[c].cells| {
      assert r[c].cells[i] == t[c].cells[i];
    } else {
      forall c' | 0 <= c' < |t| && t[c'].name == name ensures |t[c'].cells| <= i {
        if c < |t| {
          assert c' == c;
        }
      }
      AbsentBelow(t, rows, name, i);
    }
  }

  /** The cells after putting `name: v` in row `|rows|`. */
  lemma CellsStep(t: Table, rows: seq<seq<Member>>, flat: seq<Member>, name: string, v: Value, r: Table)
    requires UniqueNames(t) && CellsMatch(t, rows + [flat]) && AllCovered(t, rows)
    requires LookupOrNull(flat, name) == v
    requires Grown(t, r, name, v, |rows|)
    ensures CellsMatch(r, rows + [flat])
  {
    var all: seq<seq<Member>> := rows + [flat];
    var n := |rows|;
    assert all[..n] == rows;
    forall c | 0 <= c < |r| ensures |r[c].cells| <= |all| {
      if r[c].name != name {
        assert c < |t| && r[c] == t[c];
      }
    }
    forall c, i | 0 <= c < |r| && 0 <= i < |r[c].cells| && i < |all|
      ensures r[c].cells[i] == LookupOrNull(all[i], r[c].name)
    {
      if r[c].name != name {
        assert c < |t| && r[c] == t[c];
      } else if i == n {
        assert all[i] == flat;
      } else {
        GrownCell(t, rows, all, name, v, r, c, i);
      }
    }
  }

  /** The key of pair `j` has no cell in row `|rows|` yet. */
  lemma NameBelow(t: Table, rows: seq<seq<Member>>, flat: seq<Member>, j: nat)
    requires Partial(t, rows, flat, j) && j < |flat|
    ensures forall c :: 0 <= c < |t| && t[c].name == flat[j].key ==> |t[c].cells| <= |rows|
  {
    forall c | 0 <= c < |t| && t[c].name == flat[j].key ensures |t[c].cells| <= |rows| {
      assert |t[c].cells| <= |rows + [flat]|;
    }
  }

  /** Adding pair `j` of row `|rows|` keeps the invariant. */
  lemma AddStep(t: Table, rows: seq<seq<Member>>, flat: seq<Member>, j: nat)
    requires Partial(t, rows, flat, j) && j < |flat|
    ensures Partial(AddColumnWith(t, flat[j].key, flat[j].val, |rows|, false), rows, flat, j + 1)
  {
    var name, v := flat[j].key, flat[j].val;
    var r := AddColumnWith(t, name, v, |rows|, false);
    NameBelow(t, rows, flat, j);
    AddColumnGrows(t, name, v, |rows|);
    LookupUnique(flat, j);
    CellsStep(t, rows, flat, name, v, r);
    GrownPartial(t, r, rows, flat, j);
  }

  /** Once the cells match, the grown table covers one more pair. */
  lemma GrownPartial(t: Table, r: Table, rows: seq<seq<Member>>, flat: seq<Member>, j: nat)
    requires Partial(t, rows, flat, j) && j < |flat|
    requires Grown(t, r, flat[j].key, flat[j].val, |rows|)
    requires UniqueNames(r) && CellsMatch(r, rows + [flat])
    ensures Partial(r, rows, flat, j + 1)
  {
    var n := |rows|;
    forall i, jj | 0 <= i < n && 0 <= jj < |rows[i]| ensures Covered(r, rows[i][jj].key, i) {
      CoveredGrows(t, r, rows[i][jj].key, i);
    }
    forall jj | 0 <= jj < j + 1 ensures Covered(r, flat[jj].key, n) {
      if jj < j {
        CoveredGrows(t, r, flat[jj].key, n);
      }
    }
    forall c | 0 <= c < |r| && |r[c].cells| == n + 1
      ensures exists jj :: 0 <= jj < j + 1 && flat[jj].key == r[c].name
    {
      if r[c].name != flat[j].key {
        assert c < |t| && r[c] == t[c];
        var jj :| 0 <= jj < j && flat[jj].key == t[c].name;
      } else {
        assert flat[j].key == r[c].name;
      }
    }
  }

  /** Adding the rest of the row completes the alignment. */
  lemma {:induction false} RowAligned(t: Table, rows: seq<seq<Member>>, flat: seq<Member>, j: nat)
    requires Partial(t, rows, flat, j)
    ensures Aligned(AddFields(t, flat[j..], |rows|, false), rows + [flat])
    decreases |flat| - j
  {
    if j == |flat| {
      assert flat[j..] == [];
      var all: seq<seq<Member>> := rows + [flat];
      forall i: nat, jj: int | 0 <= i < |all| && 0 <= jj < |all[i]| ensures Covered(t, all[i][jj].key, i) {
        if i < |rows| {
          assert all[i] == rows[i];
        }
      }
    } else {
      AddStep(t, rows, flat, j);
      assert flat[j..][0] == flat[j] && flat[j..][1..] == flat[j + 1..];
      RowAligned(AddColumnWith(t, flat[j].key, flat[j].val, |rows|, false), rows, flat, j + 1);
    }
  }

  lemma StartRow(t: Table, rows: seq<seq<Member>>, flat: seq<Member>)
    requires Aligned(t, rows) && UniqueKeys(flat)
    ensures Partial(t, rows, flat, 0)
  {
    var all: seq<seq<Member>> := rows + [flat];
    forall c, i | 0 <= c < |t| && 0 <= i < |t[c].cells| && i < |all|
      ensures t[c].cells[i] == LookupOrNull(all[i], t[c].name)
    {
      assert all[i] == rows[i];
    }
  }

  lemma BuildStep(objs: seq<seq<Member>>)
    requires |objs| > 0
    ensures Build(objs, false) == AddFields(Build(objs[..|objs| - 1], false), Flatten(objs[|objs| - 1], ""), |objs| - 1, false)
  {
    assert Build(objs, false) == AddRowWith(Build(objs[..|objs| - 1], false), objs[|objs| - 1], |objs| - 1, false);
  }

  lemma RowsStep(objs: seq<seq<Member>>)
    requires |objs| > 0
    ensures RowsOf(objs) == RowsOf(objs[..|objs| - 1]) + [Flatten(objs[|objs| - 1], "")]
  {
  }

  /** Built with the row-numbered back-fill, every column is aligned with the
      flattened objects. */
  lemma {:induction false} BuildAligned(objs: seq<seq<Member>>)
    ensures Aligned(Build(objs, false), RowsOf(objs))
    decreases |objs|
  {
    if |objs| > 0 {
      var init := objs[..|objs| - 1];
      var flat := Flatten(objs[|objs| - 1], "");
      BuildAligned(init);
      BuildStep(objs);
      RowsStep(objs);
      StartRow(Build(init, false), RowsOf(init), flat);
      RowAligned(Build(init, false), RowsOf(init), flat, 0);
      assert flat[0..] == flat;
    }
  }

  /** Padding an aligned table keeps it aligned. */
  lemma PadAligned(b: Table, rows: seq<seq<Member>>)
    requires Aligned(b, rows)
    ensures CellsMatch(Pad(b), rows) && AllCovered(Pad(b), rows)
  {
    var t := Pad(b);
    if |b| > 0 {
      var c0 :| 0 <= c0 < |b| && |b[c0].cells| == Longest(b);
    }
    forall c, i | 0 <= c < |t| && 0 <= i < |t[c].cells| && i < |rows|
      ensures t[c].cells[i] == LookupOrNull(rows[i], t[c].name)
    {
      if i >= |b[c].cells| {
        forall c' | 0 <= c' < |b| && b[c'].name == b[c].name ensures |b[c'].cells| <= i {
          assert c' == c;
        }
        AbsentBelow(b, rows, b[c].name, i);
      } else {
        assert t[c].cells[i] == b[c].cells[i];
      }
    }
    forall i, j | 0 <= i < |rows| && 0 <= j < |rows[i]| ensures Covered(t, rows[i][j].key, i) {
      CoveredGrows(b, t, rows[i][j].key, i);
    }
  }

  /** Each object is one row of `dict2table`: every cell holds its row's
      value under the column's name (`None` where the object has none), and
      every path of every object has its column reaching its row. */
  lemma TableRows(objs: seq<seq<Member>>)
    ensures var t := DictToTable(objs, false); var rows := RowsOf(objs);
      (forall c, i :: 0 <= c < |t| && 0 <= i < |t[c].cells| ==>
         i < |objs| && t[c].cells[i] == LookupOrNull(rows[i], t[c].name)) &&
      (forall i, j :: 0 <= i < |rows| && 0 <= j < |rows[i]| ==> Covered(t, rows[i][j].key, i))
  {
    var b := Build(objs, false);
    assert DictToTable(objs, false) == Pad(b);
    BuildAligned(objs);
    PadAligned(b, RowsOf(objs));
  }

  // ---------------------------------------------------------------- the back-fill as written

  lemma FlatOne(k: string, v: Value)
    requires !v.Obj?
    ensures Flatten([Member(k, v)], "") == [Member(k, v)]
  {
    FlattenFlat([Member(k, v)]);
  }

  /** The two back-fills add the same cell exactly when the library's count
      is the row number: an existing column already reaches the row, and a
      new column's `len(first column) - 1` (0 while that is 0 or 1) equals
      the row number. */
  lemma AddColumnAgrees(t: Table, name: string, val: Value, row: nat)
    ensures AddColumnWith(t, name, val, row, true) == AddColumnWith(t, name, val, row, false) <==>
      match Find(t, name)
      case Some(i) => |t[i].cells| >= row
      case None => (if FirstColumnLength(t) > 1 then FirstColumnLength(t) - 1 else 0) == row
  {
    var a, c := AddColumnWith(t, name, val, row, true), AddColumnWith(t, name, val, row, false);
    match Find(t, name)
    case Some(i) =>
      if |t[i].cells| < row {
        assert |a[i].cells| == |t[i].cells| + 1 && |c[i].cells| == row + 1;
      }
    case None =>
      var q := FirstColumnLength(t);
      if (if q > 1 then q - 1 else 0) != row {
        assert |a[|t|].cells| == (if q > 1 then q - 1 else 0) + 1 && |c[|t|].cells| == row + 1;
      }
  }

  /** Two objects are two rows, numbered 0 and 1. */
  lemma BuildTwo(o1: seq<Member>, o2: seq<Member>, asWritten: bool)
    ensures Build([o1, o2], asWritten) == AddRowWith(AddRowWith([], o1, 0, asWritten), o2, 1, asWritten)
  {
    var objs := [o1, o2];
    assert objs[..1] == [o1] && [o1][..0] == [];
    assert Build(objs, asWritten) == AddRowWith(Build([o1], asWritten), o2, 1, asWritten);
    assert Build([o1], asWritten) == AddRowWith(Build([], asWritten), o1, 0, asWritten);
  }

  /** An object with one leaf adds one pair. */
  lemma AddRowLeaf(t: Table, k: string, v: Value, row: nat, asWritten: bool)
    requires !v.Obj?
    ensures AddRowWith(t, [Member(k, v)], row, asWritten) == AddColumnWith(t, k, v, row, asWritten)
  {
    FlatOne(k, v);
    var fs := [Member(k, v)];
    var r := AddColumnWith(t, k, v, row, asWritten);
    assert fs[1..] == [];
    assert AddRowWith(t, fs, row, asWritten) == AddFields(t, fs, row, asWritten);
    assert AddFields(t, fs, row, asWritten) == AddFields(r, [], row, asWritten);
  }

  lemma FirstColumn(asWritten: bool)
    ensures AddColumnWith([], "a", Num(1), 0, asWritten) == [Column("a", [Num(1)])]
  {
    assert Find([], "a").None?;
    assert Nones(0) == [];
    assert FirstColumnLength([]) == 0;
    if asWritten {
      assert AddColumnWith([], "a", Num(1), 0, asWritten) == [] + [Column("a", [] + [Num(1)])];
      assert [] + [Num(1)] == [Num(1)];
    } else {
      assert AddColumnWith([], "a", Num(1), 0, asWritten) == [] + [Column("a", Nones(0) + [Num(1)])];
      assert Nones(0) + [Num(1)] == [Num(1)];
    }
  }

  lemma SecondRow(asWritten: bool)
    ensures Build([[Member("a", Num(1))], [Member("b", Num(2))]], asWritten) ==
      AddColumnWith([Column("a", [Num(1)])], "b", Num(2), 1, asWritten)
  {
    BuildTwo([Member("a", Num(1))], [Member("b", Num(2))], asWritten);
    AddRowLeaf([], "a", Num(1), 0, asWritten);
    FirstColumn(asWritten);
    AddRowLeaf([Column("a", [Num(1)])], "b", Num(2), 1, asWritten);
  }

  /** The second object's key is new: as written it gets no `None` in front,
      since the first column is only one cell long. */
  lemma SecondColumn(asWritten: bool)
    ensures AddColumnWith([Column("a", [Num(1)])], "b", Num(2), 1, asWritten) ==
      [Column("a", [Num(1)]), Column("b", if asWritten then [Num(2)] else [Null, Num(2)])]
  {
    var t := [Column("a", [Num(1)])];
    assert Find(t, "b").None?;
    assert Nones(1) == [Null];
    assert FirstColumnLength(t) == 1;
    if asWritten {
      assert AddColumnWith(t, "b", Num(2), 1, asWritten) == t + [Column("b", [] + [Num(2)])];
      assert [] + [Num(2)] == [Num(2)];
    } else {
      assert AddColumnWith(t, "b", Num(2), 1, asWritten) == t + [Column("b", Nones(1) + [Num(2)])];
      assert Nones(1) + [Num(2)] == [Null, Num(2)];
    }
  }

  /** Two objects with different keys end up in one row: the second key's
      column is back-filled by the first column's length, which that row
      never grew. */
  lemma AsWrittenMergesRows()
    ensures DictToTableAsWritten([[Member("a", Num(1))], [Member("b", Num(2))]], false) ==
            [Column("a", [Num(1)]), Column("b", [Num(2)])]
  {
    SecondRow(true);
    SecondColumn(true);
    PadOneRow();
  }

  lemma PadOneRow()
    ensures Pad([Column("a", [Num(1)]), Column("b", [Num(2)])]) == [Column("a", [Num(1)]), Column("b", [Num(2)])]
  {
    var t := [Column("a", [Num(1)]), Column("b", [Num(2)])];
    assert Longest(t) == 1;
    assert Nones(0) == [];
    assert Pad(t)[0].cells == [Num(1)] + Nones(0) == [Num(1)];
    assert Pad(t)[1].cells == [Num(2)] + Nones(0) == [Num(2)];
  }

  /** With the row-numbered back-fill the same objects give two rows. */
  lemma CorrectedKeepsRows()
    ensures DictToTable([[Member("a", Num(1))], [Member("b", Num(2))]], false) ==
            [Column("a", [Num(1), Null]), Column("b", [Null, Num(2)])]
  {
    SecondRow(false);
    SecondColumn(false);
    PadTwoRows();
  }

  lemma PadTwoRows()
    ensures Pad([Column("a", [Num(1)]), Column("b", [Null, Num(2)])]) ==
            [Column("a", [Num(1), Null]), Column("b", [Null, Num(2)])]
  {
    var t := [Column("a", [Num(1)]), Column("b", [Null, Num(2)])];
    assert Longest(t) == 2;
    assert Nones(1) == [Null] && Nones(0) == [];
    assert Pad(t)[0].cells == [Num(1)] + Nones(1) == [Num(1), Null];
    assert Pad(t)[1].cells == [Null, Num(2)] + Nones(0) == [Null, Num(2)];
  }

  // ---------------------------------------------------------------- prefixes and padding

  /** Each result column holds the cells of the last column of `t` whose
      name ends in the same segment. */
  lemma {:induction false} RemovePrefixLastWins(t: Table, i: int)
    requires 0 <= i < |t|
    requires forall j :: i < j < |t| ==> Segment(t[j].name) != Segment(t[i].name)
    ensures exists c :: 0 <= c < |RemovePrefix(t)| && RemovePrefix(t)[c] == Column(Segment(t[i].name), t[i].cells)
    decreases |t|
  {
    var init := t[..|t| - 1];
    var last := t[|t| - 1];
    var r0 := RemovePrefix(init);
    var r := RemovePrefix(t);
    if i == |t| - 1 {
      var c := if Find(r0, Segment(last.name)).Some? then Find(r0, Segment(last.name)).value else |r0|;
      assert r[c] == Column(Segment(last.name), last.cells);
    } else {
      RemovePrefixLastWins(init, i);
      var c :| 0 <= c < |r0| && r0[c] == Column(Segment(t[i].name), t[i].cells);
      assert r[c] == r0[c];
    }
  }

  /** Every result column comes from some column of `t`. */
  lemma {:induction false} RemovePrefixFrom(t: Table, c: int)
    requires 0 <= c < |RemovePrefix(t)|
    ensures exists i :: 0 <= i < |t| && RemovePrefix(t)[c] == Column(Segment(t[i].name), t[i].cells)
    decreases |t|
  {
    var init := t[..|t| - 1];
    var r0 := RemovePrefix(init);
    var r := RemovePrefix(t);
    if c < |r0| && r[c] == r0[c] {
      RemovePrefixFrom(init, c);
      var i :| 0 <= i < |init| && r0[c] == Column(Segment(init[i].name), init[i].cells);
      assert t[i] == init[i];
    } else {
      assert r[c] == Column(Segment(t[|t| - 1].name), t[|t| - 1].cells);
    }
  }

  /** Names without a `.` are left as they are. */
  lemma {:induction false} RemovePrefixDotless(t: Table)
    requires UniqueNames(t) && forall i :: 0 <= i < |t| ==> '.' !in t[i].name
    ensures RemovePrefix(t) == t
    decreases |t|
  {
    if |t| > 0 {
      var init := t[..|t| - 1];
      RemovePrefixDotless(init);
      assert Find(init, t[|t| - 1].name).None?;
      assert init + [t[|t| - 1]] == t;
    }
  }

  /** The column names of `t`, in order. */
  function NamesOf(t: Table): (r: seq<string>)
    ensures |r| == |t| && forall i :: 0 <= i < |t| ==> r[i] == t[i].name
  {
    seq(|t|, i requires 0 <= i < |t| => t[i].name)
  }

  /** The last segment of each column name of `t`, in order. */
  function Segments(t: Table): (r: seq<string>)
    ensures |r| == |t| && forall i :: 0 <= i < |t| ==> r[i] == Segment(t[i].name)
  {
    seq(|t|, i requires 0 <= i < |t| => Segment(t[i].name))
  }

  /** `ns` with every `x` taken out. */
  function Drop(ns: seq<string>, x: string): (r: seq<string>)
    ensures |r| <= |ns|
    ensures forall y :: y in r <==> y in ns && y != x
  {
    if |ns| == 0 then [] else (if ns[0] == x then [] else [ns[0]]) + Drop(ns[1..], x)
  }

  /** The distinct names of `ns`, each at the place it first occurs. */
  function FirstOccurrences(ns: seq<string>): (r: seq<string>)
    ensures forall y :: y in r <==> y in ns
    decreases |ns|
  {
    if |ns| == 0 then [] else [ns[0]] + FirstOccurrences(Drop(ns[1..], ns[0]))
  }

  lemma {:induction false} DropSnoc(ns: seq<string>, x: string, y: string)
    ensures Drop(ns + [y], x) == Drop(ns, x) + (if y == x then [] else [y])
    decreases |ns|
  {
    if |ns| > 0 {
      assert (ns + [y])[1..] == ns[1..] + [y];
      DropSnoc(ns[1..], x, y);
    }
  }

  /** A name seen before adds nothing; a new name goes last. */
  lemma {:induction false} FirstOccurrencesSnoc(ns: seq<string>, x: string)
    ensures FirstOccurrences(ns + [x]) ==
      if x in ns then FirstOccurrences(ns) else FirstOccurrences(ns) + [x]
    decreases |ns|
  {
    if |ns| == 0 {
      assert Drop([], x) == [];
    } else {
      var n0 := ns[0];
      assert (ns + [x])[0] == n0;
      assert (ns + [x])[1..] == ns[1..] + [x];
      DropSnoc(ns[1..], n0, x);
      var w := Drop(ns[1..], n0);
      assert FirstOccurrences(ns) == [n0] + FirstOccurrences(w);
      assert FirstOccurrences(ns + [x]) == [n0] + FirstOccurrences(Drop(ns[1..] + [x], n0));
      if x != n0 {
        FirstOccurrencesSnoc(w, x);
        assert x in w <==> x in ns;
        assert Drop(ns[1..] + [x], n0) == w + [x];
      } else {
        assert Drop(ns[1..] + [x], n0) == w;
      }
    }
  }

  /** The names of the result are the last segments of the names of `t`,
      each at the place where it first occurs (json2table.py:156-164):
      `newTab` is a dict, so a segment seen again keeps its first place. */
  lemma {:induction false} RemovePrefixOrder(t: Table)
    ensures NamesOf(RemovePrefix(t)) == FirstOccurrences(Segments(t))
    decreases |t|
  {
    if |t| > 0 {
      var init := t[..|t| - 1];
      var s := Segment(t[|t| - 1].name);
      var r0 := RemovePrefix(init);
      RemovePrefixOrder(init);
      assert Segments(t) == Segments(init) + [s];
      FirstOccurrencesSnoc(Segments(init), s);
      PutColumnNames(r0, s, t[|t| - 1].cells);
    }
  }

  /** `newTab[colAfter] = …` leaves the names alone when `colAfter` is one
      of them, and adds it last otherwise. */
  lemma PutColumnNames(t: Table, name: string, cells: seq<Value>)
    ensures NamesOf(PutColumn(t, name, cells)) ==
      if name in NamesOf(t) then NamesOf(t) else NamesOf(t) + [name]
  {
    if name in NamesOf(t) {
      var i :| 0 <= i < |t| && NamesOf(t)[i] == name;
      assert Find(t, name).Some?;
    } else {
      assert Find(t, name).None?;
    }
  }

  /** Padding a padded table changes nothing. */
  lemma PadIdempotent(t: Table)
    ensures Pad(Pad(t)) == Pad(t)
  {
    var p := Pad(t);
    if |t| > 0 {
      assert Longest(p) == Longest(t);
    }
    forall i | 0 <= i < |p| ensures Pad(p)[i] == p[i] {
      assert Pad(p)[i].cells == p[i].cells;
    }
  }
}

=== FILE: text.dfy ===
/** The handful of Python `str` operations the library relies on, over
    `seq<char>`: `split`, `join`, `strip`, `replace`, `startswith`, `in`,
    `lower`, `isdigit`/`isnumeric` and `int(...)`.
    Whitespace is Python's full `isspace` class; case mapping and digits
    are the ASCII ones (see README, "Left out"). */
module Text {
  import opened Outcomes

  // ---------------------------------------------------------------- split / join

  /** `s.split(c)` for a one-character separator: never empty, empty fields kept. */
  function Split(s: string, c: char): (parts: seq<string>)
    ensures |parts| >= 1
    ensures forall i :: 0 <= i < |parts| ==> c !in parts[i]
    ensures c in s ==> |parts| >= 2
  {
    if |s| == 0 then [""]
    else if s[0] == c then [""] + Split(s[1..], c)
    else
      var rest := Split(s[1..], c);
      [[s[0]] + rest[0]] + rest[1..]
  }

  /** `c.join(parts)`. */
  function Join(parts: seq<string>, c: char): string
    requires |parts| >= 1
  {
    if |parts| == 1 then parts[0] else parts[0] + [c] + Join(parts[1..], c)
  }

  /** Number of occurrences of `c` in `s`. */
  function Count(s: string, c: char): nat
  {
    if |s| == 0 then 0 else (if s[0] == c then 1 else 0) + Count(s[1..], c)
  }

  lemma {:induction false} SplitJoin(s: string, c: char)
    ensures Join(Split(s, c), c) == s
    ensures |Split(s, c)| == Count(s, c) + 1
  {
    if |s| == 0 {
    } else if s[0] == c {
      SplitJoin(s[1..], c);
      assert s == [c] + s[1..];
    } else {
      SplitJoin(s[1..], c);
      JoinConsHead(s[0], Split(s[1..], c), c);
      assert s == [s[0]] + s[1..];
    }
  }

  /** Putting a character in front of the first part puts it in front of the join. */
  lemma JoinConsHead(x: char, parts: seq<string>, c: char)
    requires |parts| >= 1
    ensures Join([[x] + parts[0]] + parts[1..], c) == [x] + Join(parts, c)
  {
    var ps := [[x] + parts[0]] + parts[1..];
    assert ps[0] == [x] + parts[0] && ps[1..] == parts[1..];
    if |parts| > 1 {
      assert Join(ps, c) == [x] + parts[0] + [c] + Join(parts[1..], c);
    }
  }

  /** Splitting a string that lacks the separator gives the string itself. */
  lemma {:induction false} SplitNoSep(s: string, c: char)
    requires c !in s
    ensures Split(s, c) == [s]
  {
    if |s| > 0 {
      assert c !in s[1..];
      SplitNoSep(s[1..], c);
      assert s == [s[0]] + s[1..];
    }
  }

  /** Splitting at the first separator. */
  lemma {:induction false} SplitAtFirst(a: string, c: char, b: string)
    requires c !in a
    ensures Split(a + [c] + b, c) == [a] + Split(b, c)
  {
    if |a| == 0 {
      assert a + [c] + b == [c] + b;
      assert ([c] + b)[1..] == b;
    } else {
      assert (a + [c] + b)[1..] == a[1..] + [c] + b;
      assert c !in a[1..];
      SplitAtFirst(a[1..], c, b);
      assert [a[0]] + a[1..] == a;
    }
  }

  /** The text before the first separator, followed by the separator, is a prefix. */
  lemma {:induction false} SplitHead(s: string, c: char)
    requires c in s
    ensures |Split(s, c)[0]| < |s| && s[..|Split(s, c)[0]| + 1] == Split(s, c)[0] + [c]
  {
    if s[0] != c {
      assert c in s[1..];
      SplitHead(s[1..], c);
    }
  }

  /** Joining separator-free parts and splitting again gives the parts back. */
  lemma {:induction false} JoinSplit(parts: seq<string>, c: char)
    requires |parts| >= 1
    requires forall i :: 0 <= i < |parts| ==> c !in parts[i]
    ensures Split(Join(parts, c), c) == parts
  {
    if |parts| == 1 {
      SplitNoSep(parts[0], c);
    } else {
      JoinSplit(parts[1..], c);
      SplitAtFirst(parts[0], c, Join(parts[1..], c));
      assert [parts[0]] + parts[1..] == parts;
    }
  }

  /** A joined string holds only the separator and the parts' characters. */
  lemma {:induction false} JoinChars(parts: seq<string>, c: char, x: char)
    requires |parts| >= 1
    requires x != c && forall i :: 0 <= i < |parts| ==> x !in parts[i]
    ensures x !in Join(parts, c)
  {
    if |parts| > 1 {
      JoinChars(parts[1..], c, x);
    }
  }

  // ---------------------------------------------------------------- filtering characters

  /** `s.replace(c, '')` for a single character. */
  function RemoveChar(s: string, c: char): (r: string)
    ensures c !in r
    ensures |r| <= |s|
    ensures forall x :: x in r ==> x in s
    ensures forall x :: x in s && x != c ==> x in r
  {
    if |s| == 0 then ""
    else if s[0] == c then RemoveChar(s[1..], c)
    else [s[0]] + RemoveChar(s[1..], c)
  }

  lemma {:induction false} RemoveAbsentChar(s: string, c: char)
    requires c !in s
    ensures RemoveChar(s, c) == s
  {
    if |s| > 0 {
      assert c !in s[1..];
      RemoveAbsentChar(s[1..], c);
      assert s == [s[0]] + s[1..];
    }
  }

  lemma {:induction false} RemoveCharConcat(a: string, b: string, c: char)
    ensures RemoveChar(a + b, c) == RemoveChar(a, c) + RemoveChar(b, c)
  {
    if |a| > 0 {
      RemoveCharConcat(a[1..], b, c);
      assert (a + b)[1..] == a[1..] + b;
    } else {
      assert a + b == b;
    }
  }

  // ---------------------------------------------------------------- prefixes and substrings

  predicate StartsWith(s: string, p: string)
  {
    |p| <= |s| && s[..|p|] == p
  }

  /** `needle` occurs in `hay` starting at offset `i`. */
  predicate OccursAt(hay: string, needle: string, i: int)
  {
    0 <= i <= |hay| - |needle| && hay[i..i + |needle|] == needle
  }

  /** Python's `needle in hay` on strings, computed by scanning. */
  function Contains(hay: string, needle: string): bool
  {
    StartsWith(hay, needle) || (|hay| > 0 && Contains(hay[1..], needle))
  }

  /** The scan above finds exactly the occurrences at some offset. */
  lemma {:induction false} ContainsIff(hay: string, needle: string)
    ensures Contains(hay, needle) <==> exists i :: OccursAt(hay, needle, i)
  {
    if StartsWith(hay, needle) {
      assert OccursAt(hay, needle, 0);
    } else if |hay| == 0 {
    } else {
      ContainsIff(hay[1..], needle);
      if Contains(hay[1..], needle) {
        var i :| OccursAt(hay[1..], needle, i);
        assert hay[i + 1..i + 1 + |needle|] == hay[1..][i..i + |needle|];
        assert OccursAt(hay, needle, i + 1);
      }
      if exists i :: OccursAt(hay, needle, i) {
        var i :| OccursAt(hay, needle, i);
        assert i != 0;
        assert hay[1..][i - 1..i - 1 + |needle|] == hay[i..i + |needle|];
        assert OccursAt(hay[1..], needle, i - 1);
      }
    }
  }

  /** `s.replace(p, '')`: every non-overlapping occurrence of `p`, scanning
      left to right, is deleted; the result is not rescanned. */
  function RemoveAll(s: string, p: string): (r: string)
    requires |p| > 0
    ensures |r| <= |s|
    ensures forall x :: x in r ==> x in s
    decreases |s|
  {
    if StartsWith(s, p) then RemoveAll(s[|p|..], p)
    else if |s| == 0 then ""
    else [s[0]] + RemoveAll(s[1..], p)
  }

  /** Deleting from a string that starts with `p` shortens it by at least `|p|`. */
  lemma RemoveAllOfPrefixed(s: string, p: string)
    requires |p| > 0 && StartsWith(s, p)
    ensures |RemoveAll(s, p)| <= |s| - |p|
  {
  }

  /** A string without occurrences of `p` is left as it is. */
  lemma {:induction false} RemoveAllAbsent(s: string, p: string)
    requires |p| > 0 && !Contains(s, p)
    ensures RemoveAll(s, p) == s
    decreases |s|
  {
    if |s| > 0 {
      RemoveAllAbsent(s[1..], p);
      assert s == [s[0]] + s[1..];
    }
  }

  // ---------------------------------------------------------------- whitespace and case

  /** `ch.isspace()`: the ASCII blanks and separators `\t`-`\r` and
      `\x1c`-`\x1f`, and the Unicode spaces and line breaks. */
  predicate IsSpace(ch: char)
  {
    ch == ' ' || '\t' <= ch <= '\r' || '\U{1C}' <= ch <= '\U{1F}' ||
    ch == '\U{85}' || ch == '\U{A0}' || ch == '\U{1680}' || '\U{2000}' <= ch <= '\U{200A}' ||
    ch == '\U{2028}' || ch == '\U{2029}' || ch == '\U{202F}' || ch == '\U{205F}' || ch == '\U{3000}'
  }

  function StripLeft(s: string): (r: string)
    ensures |r| == 0 || !IsSpace(r[0])
    ensures |r| <= |s| && r == s[|s| - |r|..]
  {
    if |s| > 0 && IsSpace(s[0]) then StripLeft(s[1..]) else s
  }

  function StripRight(s: string): (r: string)
    ensures |r| == 0 || !IsSpace(r[|r| - 1])
    ensures |r| <= |s| && r == s[..|r|]
  {
    if |s| > 0 && IsSpace(s[|s| - 1]) then StripRight(s[..|s| - 1]) else s
  }

  /** `s.strip()`: no leading or trailing whitespace, a slice of `s`. */
  function Strip(s: string): (r: string)
    ensures |r| == 0 || (!IsSpace(r[0]) && !IsSpace(r[|r| - 1]))
    ensures |r| <= |s|
  {
    StripRight(StripLeft(s))
  }

  lemma StripNoSpace(s: string)
    requires forall i :: 0 <= i < |s| ==> !IsSpace(s[i])
    ensures Strip(s) == s
  {
    if |s| > 0 {
      StripEnds(s);
    }
  }

  /** Only the two ends matter: `strip()` keeps a text that neither starts
      nor ends with whitespace. */
  lemma StripEnds(s: string)
    requires |s| > 0 && !IsSpace(s[0]) && !IsSpace(s[|s| - 1])
    ensures Strip(s) == s
  {
    assert StripLeft(s) == s;
  }

  function LowerChar(ch: char): char
  {
    if 'A' <= ch <= 'Z' then (ch as int - 'A' as int + 'a' as int) as char else ch
  }

  /** `s.lower()` on the ASCII letters. */
  function Lower(s: string): (r: string)
    ensures |r| == |s|
    ensures forall i :: 0 <= i < |s| ==> r[i] == LowerChar(s[i])
  {
    seq(|s|, i requires 0 <= i < |s| => LowerChar(s[i]))
  }

  // ---------------------------------------------------------------- integers

  predicate IsDigit(ch: char) { '0' <= ch <= '9' }

  /** `s.isdigit()` / `s.isnumeric()` on ASCII digits: non-empty, all digits. */
  predicate IsDigits(s: string)
  {
    |s| > 0 && forall i :: 0 <= i < |s| ==> IsDigit(s[i])
  }

  /** The decimal value of a digit string (most significant digit first). */
  function DigitsValue(s: string): nat
    requires forall i :: 0 <= i < |s| ==> IsDigit(s[i])
  {
    if |s| == 0 then 0
    else
      assert IsDigit(s[|s| - 1]);
      DigitsValue(s[..|s| - 1]) * 10 + (s[|s| - 1] as int - '0' as int)
  }

  /** `int(s)` on a string made of digits and `-` signs: one optional
      leading `-` followed by at least one digit; anything else is the
      `ValueError` Python raises. */
  function ParseInt(s: string): Option<int>
  {
    if IsDigits(s) then Some(DigitsValue(s))
    else if |s| >= 2 && s[0] == '-' && IsDigits(s[1..]) then Some(-(DigitsValue(s[1..]) as int))
    else None
  }

  function DigitChar(d: nat): char
    requires d < 10
  {
    ('0' as int + d) as char
  }

  /** `str(n)` for a natural number. */
  function NatToString(n: nat): (r: string)
    ensures IsDigits(r)
    decreases n
  {
    if n < 10 then [DigitChar(n)] else NatToString(n / 10) + [DigitChar(n % 10)]
  }

  /** `str(i)` for an integer. */
  function IntToString(i: int): string
  {
    if i < 0 then "-" + NatToString(-i) else NatToString(i)
  }

  lemma {:induction false} NatToStringValue(n: nat)
    ensures DigitsValue(NatToString(n)) == n
    decreases n
  {
    if n >= 10 {
      NatToStringValue(n / 10);
      var s := NatToString(n);
      assert s[..|s| - 1] == NatToString(n / 10);
    }
  }

  /** `int(str(i)) == i`: printing then parsing an integer is the identity. */
  lemma ParseIntToString(i: int)
    ensures ParseInt(IntToString(i)) == Some(i)
    ensures '-' !in RemoveChar(IntToString(i), '-') && IsDigits(RemoveChar(IntToString(i), '-'))
    ensures forall ch :: ch in IntToString(i) ==> IsDigit(ch) || ch == '-'
  {
    if i < 0 {
      NegativeText(i);
    } else {
      NatToStringValue(i);
      assert '-' !in NatToString(i);
      RemoveAbsentChar(NatToString(i), '-');
    }
  }

  /** The text of a negative integer: `-` before the digits of its magnitude. */
  lemma NegativeText(i: int)
    requires i < 0
    ensures ParseInt(IntToString(i)) == Some(i)
    ensures RemoveChar(IntToString(i), '-') == NatToString(-i)
  {
    var d := NatToString(-i);
    var t := IntToString(i);
    NatToStringValue(-i);
    assert t == ['-'] + d && t[1..] == d;
    assert !IsDigits(t) by {
      assert t[0] == '-' && !IsDigit('-');
    }
    assert '-' !in d;
    RemoveAbsentChar(d, '-');
  }
}

=== FILE: writer.dfy ===
/** `jDoc.set(values)` (jdocument.py:603-662): assigning attributes of an
    object document, a dotted name creating or descending into nested
    objects; a list document cannot be assigned to. */
module Writer {
  import opened Outcomes
  import opened Text
  import opened Json
  import opened PyValues
  import opened Documents
  import opened Resolver
  import opened PathFacts

  /** One `attribute: value` pair of the dict handed to `set`; the value may
      itself be a `jDocument`. */
  datatype Assign = Assign(key: string, val: Fetched)

  /** A name `set` can write through: a dotted name has no subscript (the
      writer only ever descends into dicts). */
  predicate Writable(at: string)
  {
    '.' in at ==> '[' !in at
  }

  predicate AllWritable(values: seq<Assign>)
  {
    forall i :: 0 <= i < |values| ==> Writable(values[i].key)
  }

  /** The name the nested `set` receives. As written,
      `at.replace(first + '.', '')` deletes EVERY occurrence of `first.`;
      the evident intent is the text after the first dot. */
  function SubAttribute(at: string, asWritten: bool): (r: string)
    requires '.' in at
    ensures |r| < |at|
    ensures forall x :: x in r ==> x in at
    ensures !asWritten ==> at == Split(at, '.')[0] + "." + r
  {
    var first := Split(at, '.')[0];
    SplitHead(at, '.');
    if asWritten then
      RemoveAllOfPrefixed(at, first + ".");
      RemoveAll(at, first + ".")
    else
      assert at == at[..|first| + 1] + at[|first| + 1..];
      at[|first| + 1..]
  }

  /** The loop body of `set` on an object (jdocument.py:621-646) for one
      pair. A plain name is stored (a `jDocument` value as its data). A
      dotted name reads its first segment with `get`; when that is false it
      is first set to `{}`; then the nested `set` runs on it, which only a
      dict accepts. An empty first segment reads the document itself. */
  function SetOne(fs: seq<Member>, at: string, v: Fetched, asWritten: bool): (o: Outcome<seq<Member>, ()>)
    requires Writable(at)
    ensures '.' !in at ==> o == Outcome(Put(fs, at, Unwrap(v)), Ok(()))
    ensures '.' in at && Split(at, '.')[0] != "" ==>
      forall k :: k != Split(at, '.')[0] ==> Lookup(o.doc, k) == Lookup(fs, k)
    decreases |at|
  {
    if '.' !in at then Outcome(Put(fs, at, Unwrap(v)), Ok(()))
    else
      var first := Split(at, '.')[0];
      var sub := SubAttribute(at, asWritten);
      var fs1 := if FTruthy(Get(Obj(fs), first, Null, false, false).value) then fs else Put(fs, first, Obj([]));
      match Get(Obj(fs1), first, Null, false, false).value
      case Doc(Obj(cfs)) =>
        var o := SetOne(cfs, sub, v, asWritten);
        if first == "" then o else Outcome(Put(fs1, first, Obj(o.doc)), o.result)
      case _ => Outcome(fs1, Err(AttributeError))
  }

  /** The `for at in values` loop: pairs in order, stopping at the first
      exception with the earlier assignments kept. */
  function SetAll(fs: seq<Member>, values: seq<Assign>, asWritten: bool): (o: Outcome<seq<Member>, ()>)
    requires AllWritable(values)
    ensures |values| == 0 ==> o == Outcome(fs, Ok(()))
    decreases |values|
  {
    if |values| == 0 then Outcome(fs, Ok(()))
    else
      var o := SetOne(fs, values[0].key, values[0].val, asWritten);
      if o.result.Err? || |values| == 1 then o else SetAll(o.doc, values[1..], asWritten)
  }

  /** A single pair is the loop body once. */
  lemma SetAllSingle(fs: seq<Member>, a: Assign, asWritten: bool)
    requires Writable(a.key)
    ensures SetAll(fs, [a], asWritten) == SetOne(fs, a.key, a.val, asWritten)
  {
  }

  /** What `set` returns for the last value: a dict comes back as a
      `jDocument`, everything else as it was given. */
  function Returned(v: Fetched): (r: Fetched)
    ensures Unwrap(r) == Unwrap(v)
    ensures r.Doc? <==> (v.Doc? || Unwrap(v).Obj?)
  {
    match v
    case Raw(Obj(_)) => Doc(v.v)
    case _ => v
  }

  /** `set(values)`, with the nested-name rule chosen by `asWritten`. On a
      list document the loop calls `.set` on a raw item, which raises
      `AttributeError` as soon as there is an item. */
  function SetWith(d: Document, values: seq<Assign>, asWritten: bool): (o: Outcome<Document, Fetched>)
    requires AllWritable(values)
    ensures d.Obj? ==> o.doc.Obj?
    ensures d.Obj? && |values| == 0 ==> o == Outcome(d, Ok(Raw(Null)))
    ensures d.Arr? ==> o.doc == d && (o.result.Ok? <==> |d.items| == 0)
    ensures d.Obj? && |values| > 0 && o.result.Ok? ==> o.result.value == Returned(values[|values| - 1].val)
  {
    if d.Obj? then
      if |values| == 0 then Outcome(d, Ok(Raw(Null)))
      else
        var o := SetAll(d.fields, values, asWritten);
        Outcome(Obj(o.doc), if o.result.Err? then Err(o.result.error) else Ok(Returned(values[|values| - 1].val)))
    else if |d.items| == 0 then Outcome(d, Ok(Raw(Null)))
    else Outcome(d, Err(AttributeError))
  }

  /** `set` as the library writes it. */
  function SetAsWritten(d: Document, values: seq<Assign>): (o: Outcome<Document, Fetched>)
    requires AllWritable(values)
    ensures o == SetWith(d, values, true)
  {
    SetWith(d, values, true)
  }

  /** `set` with the nested name cut at the first dot, used by the rest of the model. */
  function Set(d: Document, values: seq<Assign>): (o: Outcome<Document, Fetched>)
    requires AllWritable(values)
    ensures o == SetWith(d, values, false)
  {
    SetWith(d, values, false)
  }

  // ---------------------------------------------------------------- properties

  /** `get` of a plain name on an object is the stored value, `None` when absent. */
  lemma GetPlainKey(fs: seq<Member>, k: string)
    requires k != "" && '.' !in k && '[' !in k
    ensures Get(Obj(fs), k, Null, false, false) == Ok(Wrap(LookupOrNull(fs, k), false))
  {
  }

  /** How such a name is cut: the first segment, then the rest joined again. */
  lemma PathCut(keys: seq<string>)
    requires PlainPath(keys) && |keys| >= 2
    ensures var at := Join(keys, '.');
      '.' in at && Writable(at) && Split(at, '.')[0] == keys[0] &&
      SubAttribute(at, false) == Join(keys[1..], '.') && PlainPath(keys[1..])
  {
    var at := Join(keys, '.');
    assert at == keys[0] + ['.'] + Join(keys[1..], '.');
    assert at[|keys[0]|] == '.';
    JoinSplit(keys, '.');
    JoinChars(keys, '.', '[');
    var sub := SubAttribute(at, false);
    assert at == keys[0] + "." + sub;
    assert sub == at[|keys[0]| + 1..];
  }

  /** A path the library's own cut handles: no segment, followed by a dot,
      occurs again in the rest of the path, so `replace` deletes only the
      leading occurrence. */
  predicate CleanPath(keys: seq<string>)
  {
    forall i :: 0 <= i < |keys| - 1 ==> !Contains(Join(keys[i + 1..], '.'), keys[i] + ".")
  }

  /** The two cuts agree when the first segment and its dot do not occur
      again after the first dot. */
  lemma CutAgrees(at: string)
    requires '.' in at
    requires !Contains(SubAttribute(at, false), Split(at, '.')[0] + ".")
    ensures SubAttribute(at, true) == SubAttribute(at, false)
  {
    var first := Split(at, '.')[0];
    var p := first + ".";
    var rest := SubAttribute(at, false);
    assert at == p + rest;
    assert StartsWith(at, p) && at[|p|..] == rest;
    RemoveAllAbsent(rest, p);
  }

  /** On a clean path the library's cut is the first-dot cut. */
  lemma PathCutAsWritten(keys: seq<string>)
    requires PlainPath(keys) && |keys| >= 2 && CleanPath(keys)
    ensures var at := Join(keys, '.');
      '.' in at && SubAttribute(at, true) == Join(keys[1..], '.') && CleanPath(keys[1..])
  {
    PathCut(keys);
    var at := Join(keys, '.');
    assert !Contains(Join(keys[1..], '.'), keys[0] + ".");
    CutAgrees(at);
    forall i | 0 <= i < |keys[1..]| - 1
      ensures !Contains(Join(keys[1..][i + 1..], '.'), keys[1..][i] + ".")
    {
      assert keys[1..][i + 1..] == keys[i + 2..];
      assert keys[1..][i] == keys[i + 1];
    }
  }

  /** `{k1: {k2: ... {kn: v}}}`. */
  function Nest(keys: seq<string>, v: Value): (r: Value)
    ensures PathLookup(r, keys) == Some(v)
  {
    if |keys| == 0 then v else Obj([Member(keys[0], Nest(keys[1..], v))])
  }

  /** Round trip: after a dotted assignment that succeeds, reading the same
      path gives the assigned value back; as written, on a clean path. */
  lemma {:induction false} SetOnePath(fs: seq<Member>, keys: seq<string>, v: Fetched, asWritten: bool)
    requires PlainPath(keys) && (asWritten ==> CleanPath(keys))
    ensures Writable(Join(keys, '.'))
    ensures var o := SetOne(fs, Join(keys, '.'), v, asWritten);
      o.result.Ok? ==> PathLookup(Obj(o.doc), keys) == Some(Unwrap(v))
    decreases |keys|
  {
    if |keys| == 1 {
      assert Join(keys, '.') == keys[0];
      assert PathLookup(Obj(Put(fs, keys[0], Unwrap(v))), keys) == PathLookup(Unwrap(v), keys[1..]);
    } else {
      PathCut(keys);
      if asWritten {
        PathCutAsWritten(keys);
      }
      var at := Join(keys, '.');
      var first := keys[0];
      GetPlainKey(fs, first);
      var fs1 := if FTruthy(Get(Obj(fs), first, Null, false, false).value) then fs else Put(fs, first, Obj([]));
      GetPlainKey(fs1, first);
      var o := SetOne(fs, at, v, asWritten);
      if o.result.Ok? {
        var cfs := LookupOrNull(fs1, first).fields;
        SetOnePath(cfs, keys[1..], v, asWritten);
        var co := SetOne(cfs, Join(keys[1..], '.'), v, asWritten);
        assert o == Outcome(Put(fs1, first, Obj(co.doc)), co.result);
      }
    }
  }

  /** Assigning a dotted name and reading it back with `value`; as written,
      on a clean path. */
  lemma SetThenValue(d: Document, keys: seq<string>, v: Fetched, asWritten: bool)
    requires d.Obj? && PlainPath(keys) && (asWritten ==> CleanPath(keys))
    ensures AllWritable([Assign(Join(keys, '.'), v)])
    ensures var o := SetWith(d, [Assign(Join(keys, '.'), v)], asWritten);
      o.result.Ok? ==> ValueOf(o.doc, Join(keys, '.'), Null, true) == Ok(Unwrap(v))
  {
    var at := Join(keys, '.');
    SetOnePath(d.fields, keys, v, asWritten);
    var one := SetOne(d.fields, at, v, asWritten);
    SetAllSingle(d.fields, Assign(at, v), asWritten);
    var o := SetWith(d, [Assign(at, v)], asWritten);
    assert o.doc == Obj(one.doc) && (o.result.Ok? ==> one.result.Ok?);
    if |keys| == 1 {
      assert at == keys[0];
    } else {
      assert at == keys[0] + ['.'] + Join(keys[1..], '.');
    }
    ValueOfPlainPath(o.doc, keys, Null, true);
  }

  /** A first segment that is missing or false (`None`, `0`, `''`, `[]`,
      `{}`) is replaced by the nested objects the path needs; the key keeps
      its position. As written, this holds on a clean path. */
  lemma {:induction false} SetBuildsPath(fs: seq<Member>, keys: seq<string>, v: Fetched, asWritten: bool)
    requires PlainPath(keys) && (asWritten ==> CleanPath(keys))
    requires Lookup(fs, keys[0]).None? || !Truthy(Lookup(fs, keys[0]).value)
    ensures Writable(Join(keys, '.'))
    ensures SetOne(fs, Join(keys, '.'), v, asWritten) == Outcome(Put(fs, keys[0], Nest(keys[1..], Unwrap(v))), Ok(()))
    decreases |keys|
  {
    if |keys| == 1 {
      assert Join(keys, '.') == keys[0];
    } else {
      PathCut(keys);
      if asWritten {
        PathCutAsWritten(keys);
      }
      var first := keys[0];
      GetPlainKey(fs, first);
      FTruthyUnwrap(Wrap(LookupOrNull(fs, first), false));
      var fs1 := Put(fs, first, Obj([]));
      GetPlainKey(fs1, first);
      SetBuildsPath([], keys[1..], v, asWritten);
      var co := SetOne([], Join(keys[1..], '.'), v, asWritten);
      assert keys[1..][1..] == keys[2..];
      assert Obj(co.doc) == Nest(keys[1..], Unwrap(v));
      PutPut(fs, first, Obj([]), Obj(co.doc));
    }
  }

  /** A first segment holding a true value that is not a dict (a number, a
      string, a non-empty list) stops the assignment with `AttributeError`
      and leaves the object as it was. */
  lemma SetBlocked(fs: seq<Member>, keys: seq<string>, v: Fetched, asWritten: bool)
    requires PlainPath(keys) && |keys| >= 2
    requires Lookup(fs, keys[0]).Some? && Truthy(Lookup(fs, keys[0]).value) && !Lookup(fs, keys[0]).value.Obj?
    ensures Writable(Join(keys, '.'))
    ensures SetOne(fs, Join(keys, '.'), v, asWritten) == Outcome(fs, Err(AttributeError))
  {
    PathCut(keys);
    GetPlainKey(fs, keys[0]);
    FTruthyUnwrap(Wrap(LookupOrNull(fs, keys[0]), false));
  }

  /** No name of `values` is `k`. */
  predicate Avoids(values: seq<Assign>, k: string)
  {
    forall i :: 0 <= i < |values| ==> values[i].key != k
  }

  lemma AvoidsTail(values: seq<Assign>, k: string)
    requires |values| > 0
    requires forall i :: 1 <= i < |values| ==> values[i].key != k
    ensures Avoids(values[1..], k)
  {
    forall j | 0 <= j < |values| - 1
      ensures values[1..][j].key != k
    {
      assert values[1..][j] == values[j + 1];
    }
  }

  /** Plain, distinct names: every one holds its value afterwards, every
      other key is untouched, and nothing raises. */
  lemma {:induction false} SetAllPlain(fs: seq<Member>, values: seq<Assign>, asWritten: bool)
    requires forall i :: 0 <= i < |values| ==> '.' !in values[i].key
    requires forall i, j :: 0 <= i < j < |values| ==> values[i].key != values[j].key
    ensures AllWritable(values)
    ensures var o := SetAll(fs, values, asWritten);
      o.result.Ok? &&
      (forall i :: 0 <= i < |values| ==> Lookup(o.doc, values[i].key) == Some(Unwrap(values[i].val))) &&
      (forall k :: Avoids(values, k) ==> Lookup(o.doc, k) == Lookup(fs, k))
    decreases |values|
  {
    if |values| > 1 {
      var fs1 := Put(fs, values[0].key, Unwrap(values[0].val));
      SetAllPlain(fs1, values[1..], asWritten);
      var o := SetAll(fs, values, asWritten);
      assert o == SetAll(fs1, values[1..], asWritten);
      forall i | 0 <= i < |values|
        ensures Lookup(o.doc, values[i].key) == Some(Unwrap(values[i].val))
      {
        if i == 0 {
          AvoidsTail(values, values[0].key);
        } else {
          assert values[1..][i - 1] == values[i];
        }
      }
      forall k | Avoids(values, k)
        ensures Lookup(o.doc, k) == Lookup(fs, k)
      {
        AvoidsTail(values, k);
      }
    }
  }

  /** How `a.ba.c` is cut: first segment `a`; as written the rest is `bc`. */
  lemma CutExample()
    ensures '.' in "a.ba.c" && Split("a.ba.c", '.') == ["a", "ba", "c"]
    ensures SubAttribute("a.ba.c", true) == "bc"
    ensures Join(["a", "ba", "c"], '.') == "a.ba.c"
  {
    var keys := ["a", "ba", "c"];
    JoinExample();
    JoinSplit(keys, '.');
    RemoveExample();
  }

  lemma JoinExample()
    ensures Join(["a", "ba", "c"], '.') == "a.ba.c"
  {
    var keys := ["a", "ba", "c"];
    assert Join(keys[2..], '.') == "c";
    assert Join(keys[1..], '.') == "ba.c";
  }

  /** Every `a.` is deleted from `a.ba.c`, the one inside `ba.` included. */
  lemma RemoveExample()
    ensures RemoveAll("a.ba.c", "a.") == "bc"
  {
    assert StartsWith("a.ba.c", "a.") && "a.ba.c"[2..] == "ba.c";
    assert !StartsWith("ba.c", "a.") && "ba.c"[1..] == "a.c";
    assert StartsWith("a.c", "a.") && "a.c"[2..] == "c";
    assert !StartsWith("c", "a.") && "c"[1..] == "";
    assert RemoveAll("c", "a.") == "c";
    assert RemoveAll("a.c", "a.") == "c";
    assert RemoveAll("ba.c", "a.") == "bc";
  }

  /** A dotted name whose first segment is absent: that segment is set to
      `{}` and the nested `set` fills it. */
  lemma SetOneFresh(fs: seq<Member>, at: string, v: Fetched, asWritten: bool)
    requires '.' in at && Writable(at)
    requires Split(at, '.')[0] != "" && '[' !in Split(at, '.')[0]
    requires Split(at, '.')[0] !in Keys(fs)
    ensures var o := SetOne([], SubAttribute(at, asWritten), v, asWritten);
      SetOne(fs, at, v, asWritten) == Outcome(Put(fs, Split(at, '.')[0], Obj(o.doc)), o.result)
  {
    var first := Split(at, '.')[0];
    var fs1 := Put(fs, first, Obj([]));
    GetPlainKey(fs, first);
    GetPlainKey(fs1, first);
    assert Get(Obj(fs1), first, Null, false, false).value == Doc(Obj([]));
    PutPut(fs, first, Obj([]), Obj(SetOne([], SubAttribute(at, asWritten), v, asWritten).doc));
  }

  /** The loop body on `{}` for `a.ba.c`, as written. */
  lemma MisplacedStep(v: Value)
    ensures Writable("a.ba.c")
    ensures SetOne([], "a.ba.c", Raw(v), true) == Outcome([Member("a", Obj([Member("bc", v)]))], Ok(()))
  {
    CutExample();
    SetOneFresh([], "a.ba.c", Raw(v), true);
    assert SetOne([], "bc", Raw(v), true) == Outcome([Member("bc", v)], Ok(()));
  }

  /** The misplaced write: `set({'a.ba.c': v})` on `{}` strips both `a.`
      occurrences and stores `{'a': {'bc': v}}`. */
  lemma SetAsWrittenMisplaces(v: Value)
    ensures AllWritable([Assign("a.ba.c", Raw(v))])
    ensures SetAsWritten(Obj([]), [Assign("a.ba.c", Raw(v))]).doc ==
            Obj([Member("a", Obj([Member("bc", v)]))])
  {
    MisplacedStep(v);
    SetAllSingle([], Assign("a.ba.c", Raw(v)), true);
  }

  /** On an empty object, a plain dotted name builds exactly its path, and
      reading the name back gives the value; as written, on a clean path. */
  lemma SetPathFresh(keys: seq<string>, v: Fetched, asWritten: bool)
    requires PlainPath(keys) && (asWritten ==> CleanPath(keys))
    ensures AllWritable([Assign(Join(keys, '.'), v)])
    ensures var d := SetWith(Obj([]), [Assign(Join(keys, '.'), v)], asWritten).doc;
      d == Nest(keys, Unwrap(v)) && ValueOf(d, Join(keys, '.'), Null, true) == Ok(Unwrap(v))
  {
    SetBuildsPath([], keys, v, asWritten);
    SetAllSingle([], Assign(Join(keys, '.'), v), asWritten);
    SetThenValue(Obj([]), keys, v, asWritten);
  }

  /** Cutting at the first dot instead stores `{'a': {'ba': {'c': v}}}`,
      which `value('a.ba.c')` reads back. */
  lemma SetNestsAtFirstDot(v: Value)
    ensures AllWritable([Assign("a.ba.c", Raw(v))])
    ensures Set(Obj([]), [Assign("a.ba.c", Raw(v))]).doc ==
            Obj([Member("a", Obj([Member("ba", Obj([Member("c", v)]))]))])
    ensures ValueOf(Set(Obj([]), [Assign("a.ba.c", Raw(v))]).doc, "a.ba.c", Null, true) == Ok(v)
  {
    var keys := ["a", "ba", "c"];
    JoinExample();
    assert PlainPath(keys);
    SetPathFresh(keys, Raw(v), false);
    NestThree("a", "ba", "c", v);
  }

  lemma NestThree(a: string, b: string, c: string, v: Value)
    ensures Nest([a, b, c], v) == Obj([Member(a, Obj([Member(b, Obj([Member(c, v)]))]))])
  {
    var keys := [a, b, c];
    assert keys[1..] == [b, c] && keys[1..][1..] == [c] && keys[1..][1..][1..] == [];
    assert Nest([c], v) == Obj([Member(c, v)]);
  }
}
